=== FILE: README.md ===
# Distributor marketplace: a Dafny model of the catalog, cart and supplier import

This project models the business logic of a React marketplace through which resellers buy from several hardware distributors:

- **Supplier import.** An administrator uploads a supplier's spreadsheet. The page detects the header row, labels the columns and shows a preview of the first data rows. It then auto-maps the canonical product fields (SKU, name, price, stock, …) onto column labels. The administrator edits and confirms that mapping, and later imports the sheet into product records through it.
- **Catalog.** The catalog filters, sorts by price and pages the products. Each product card renders its price under three tax display modes, with supplier-specific VAT, IIBB and promotion rules.
- **Cart and PC builder.** The purchase cart groups its lines by supplier and sends each supplier its order. The PC builder keeps a list of components with per-line markups.

A workbook arrives already decoded into rows of cells (`Sheet.Cell`). A numeric cell carries its JavaScript `String(value)` rendering next to its value. A cell the decoder leaves absent is `Empty`. JavaScript numbers are modelled as exact reals. `parseFloat`/`parseInt` results are `JsNumber.Number`, where `NaN` also stands for the infinities.

Modules, one file each:

| module | file | models |
|---|---|---|
| `Wrappers` | wrappers.dfy | `Option` and `Result` |
| `Text` | text.dfy | `trim`, `toLowerCase`, `includes`, `join`, decimal rendering, the default string order |
| `JsNumber` | number.dfy | `parseFloat`, `parseInt`, and arithmetic that can go non-finite |
| `Products` | products.dfy | the product record, the column mapping, stale mapping entries |
| `Sheet` | sheet.dfy | header detection, column labels, the upload preview (`parseExcelFile`) |
| `Import` | import.dfy | `importProductsFromExcel`, both as corrected and as written |
| `ColumnMapping` | mapping.dfy | the field table, auto-mapping, revalidation, edits, the confirm and submit gates |
| `Workflow` | workflow.dfy | preview, confirmation and import together; the header-hole finding |
| `Pricing` | pricing.dfy | `renderPrice` of the product grid |
| `Catalog` | catalog.dfy | filtering, price sort, paging, the page strip, filter toggles, option lists |
| `Cart` | cart.dfy | the cart context: add, remove, update quantity, clear, item count |
| `CartView` | cart_view.dfy | the cart panel: grouping by supplier, totals, the per-supplier order |
| `PcBuild` | pc_build.dfy | the PC-builder context: lines with markups, cost and sell totals |

Differences between the code and its own comments, and places where the code was followed:

- The import skips absent header cells while the preview labels them; see "## Findings". `Import.ImportProducts` is the corrected import that the rest of the model uses. `Import.ImportProductsAsWritten` keeps the code as written.
- Auto-mapping is one-directional. A column matches a field when the column's normalized text equals or contains the field's key or title, never the other way round. The field titles carry accents (`Descripción`, `Categoría`), so an unaccented `Descripcion` header maps to no field (`ColumnMapping.AutoMapScenarioDescription`).
- A blank SKU or name cell does not drop a record. The import falls back to `SKU-<supplier>-<index>` and `Sin nombre` first. Only a cell of spaces alone leads to the drop (`Import.DroppedOnlyForBlankText`).
- Blank header cells are lettered with `String.fromCharCode(65 + idx)`, which runs past `Z` to `[`, `\`, … (`Sheet.LetterPastZ`).
- A stored mapping is revalidated on every upload. Edits made before a second upload are replaced by the stored mapping, as the upload handler does.

## Model

Source paths are relative to the repository root.

| member | source | states |
|---|---|---|
| Text.TrimEmptyIff | marketplace-distribucion-mock/src/services/mock/mockApi.ts:425 | a cell's text trims to empty exactly when every character is ECMAScript white space or a line terminator |
| Text.TrimIdempotent | marketplace-distribucion-mock/src/services/mock/mockApi.ts:441 | trimming a label twice gives the same as trimming it once |
| Text.TrimNonEmpty | marketplace-distribucion-mock/src/services/mock/mockApi.ts:441-447 | a text starting with a non-space character stays non-empty after trimming |
| Text.TrimStartSpec | marketplace-distribucion-mock/src/services/mock/mockApi.ts:441 | the leading trim drops exactly the leading spaces: the rest is a suffix starting with a non-space |
| Text.TrimEndSpec | marketplace-distribucion-mock/src/services/mock/mockApi.ts:441 | the trailing trim drops exactly the trailing spaces |
| Text.NatToStringValue | marketplace-distribucion-mock/src/services/mock/mockApi.ts:604-611 | the decimal rendering of a row index reads back as that index |
| Text.NatToStringInjective | marketplace-distribucion-mock/src/services/mock/mockApi.ts:611 | different row indices render differently, so generated ids differ |
| Text.ContainsOccurrence | marketplace-distribucion-mock/src/pages/SuppliersPage.tsx:165-166 | `includes` holds only where the searched block occurs at some position |
| Text.ContainsAt | marketplace-distribucion-mock/src/pages/SuppliersPage.tsx:165-166 | a block occurring at some position is found by `includes` |
| Text.ContainsSelfAndEmpty | marketplace-distribucion-mock/src/pages/SuppliersPage.tsx:165-166 | a text contains itself and the empty text |
| Text.StrLessTransitive | marketplace-distribucion-mock/src/App.tsx:78-79 | the default sort order of the option lists is transitive |
| Text.StrLessTotal | marketplace-distribucion-mock/src/App.tsx:78-79 | any two different strings are ordered one way or the other |
| Text.StrLessIrreflexive | marketplace-distribucion-mock/src/App.tsx:78-79 | no string sorts before itself |
| JsNumber.ParseRendered | marketplace-distribucion-mock/src/services/mock/mockApi.ts:606-607 | `parseFloat` and `parseInt` read a whole number's rendering back as that number |
| JsNumber.ParseFloatDigits | marketplace-distribucion-mock/src/services/mock/mockApi.ts:606 | `parseFloat` of a run of decimal digits is the number the digits denote |
| JsNumber.ParseIntDigits | marketplace-distribucion-mock/src/services/mock/mockApi.ts:607 | `parseInt` of a run of decimal digits is the number the digits denote |
| JsNumber.ParseFloatNoDigits | marketplace-distribucion-mock/src/services/mock/mockApi.ts:606-607 | a text whose first non-space character is no sign, digit or point parses to `NaN` under both parsers |
| Products.StaleEntries | marketplace-distribucion-mock/src/services/mock/mockApi.ts:580-585 | an entry is stale exactly when its label is non-empty and not among the current columns |
| Sheet.DetectHeader | marketplace-distribucion-mock/src/services/mock/mockApi.ts:402-434 | the header is the first of the first ten rows with two keyword hits; failing that the first with three non-blank cells; failing that row 0 |
| Sheet.Labels | marketplace-distribucion-mock/src/services/mock/mockApi.ts:439-460 | one non-empty label per header cell; when every label is a placeholder they are renumbered `Columna 1…n` |
| Sheet.LabelOfCell | marketplace-distribucion-mock/src/services/mock/mockApi.ts:440-443 | a header cell with text is labelled by its trimmed text, a blank one by `Columna` and its letter |
| Sheet.KeepAllLabels | marketplace-distribucion-mock/src/services/mock/mockApi.ts:444-447 | the `idx < 10 \|\| non-empty` filter removes no label |
| Sheet.RawLabelNonBlank | marketplace-distribucion-mock/src/services/mock/mockApi.ts:440-447 | every label is non-blank after trimming |
| Sheet.NumberedDistinct | marketplace-distribucion-mock/src/services/mock/mockApi.ts:450-459 | the positional labels `Columna 1…n` are pairwise distinct |
| Sheet.LetterPastZ | marketplace-distribucion-mock/src/services/mock/mockApi.ts:442 | blank columns are lettered from `A`; the 27th is `[`, not `AA` |
| Sheet.PadRows | marketplace-distribucion-mock/src/services/mock/mockApi.ts:395 | decoding with a default value fills every row with empty cells up to the sheet's width and keeps its cells |
| Sheet.PadKeepsData | marketplace-distribucion-mock/src/services/mock/mockApi.ts:395-469 | padding a row never changes whether it holds data |
| Sheet.DataRowsOf | marketplace-distribucion-mock/src/services/mock/mockApi.ts:564-567 | the rows kept below the header all hold some text |
| Sheet.DataIndices | marketplace-distribucion-mock/src/services/mock/mockApi.ts:564-567 | the positions of the rows after the header that hold some text, in increasing order, and exactly those |
| Sheet.DataRowsSpec | marketplace-distribucion-mock/src/services/mock/mockApi.ts:564-567 | the data rows below a header are, in order, exactly the later rows that hold some text |
| Sheet.ParseExcelFile | marketplace-distribucion-mock/src/services/mock/mockApi.ts:384-483 | an empty sheet is refused; otherwise the header lies in the first ten rows, there is one label per padded header cell, and the sample holds at most five records |
| Sheet.SampleIsFirstDataRows | marketplace-distribucion-mock/src/services/mock/mockApi.ts:462-477 | the preview records the first five rows with data, skipping empty rows, in order |
| Sheet.SampleBounded | marketplace-distribucion-mock/src/services/mock/mockApi.ts:462-470 | the preview loop records at most its budget of rows |
| Sheet.RecordLastWins | marketplace-distribucion-mock/src/services/mock/mockApi.ts:472-474 | a preview record maps a label to the cell of its last column carrying that label |
| Sheet.RecordKeys | marketplace-distribucion-mock/src/services/mock/mockApi.ts:472-474 | a preview record has exactly the labels as keys |
| Import.IndexOf | marketplace-distribucion-mock/src/services/mock/mockApi.ts:596 | the position found is the first column equal to the mapped label; none exactly when no column is |
| Import.ImportProducts | marketplace-distribucion-mock/src/services/mock/mockApi.ts:494-629 | fewer than two rows → no data. A missing or empty mapping → not configured. Stale entries → missing columns, listing exactly them. Otherwise success: the store gains the imported records, each with a SKU, a name and the supplier's id |
| Import.ImportFrom | marketplace-distribucion-mock/src/services/mock/mockApi.ts:569-625 | the mapping checks run in order; on success the store is the old store followed by the imported records |
| Import.KeepRetained | marketplace-distribucion-mock/src/services/mock/mockApi.ts:622 | the records kept are exactly those with a non-empty SKU and name |
| Import.KeepRetainedOne | marketplace-distribucion-mock/src/services/mock/mockApi.ts:622 | one record passes the filter exactly when it has a SKU and a name |
| Import.KeepRetainedAppend | marketplace-distribucion-mock/src/services/mock/mockApi.ts:622 | filtering two lists joined gives their filtered lists joined, so the filter keeps input order |
| Import.KeepRetainedAt | marketplace-distribucion-mock/src/services/mock/mockApi.ts:622 | a retained record sits in the output right after the retained records that came before it |
| Import.KeepRetainedSplit | marketplace-distribucion-mock/src/services/mock/mockApi.ts:622 | record i is kept at that place when retained, adds nothing when not, and the output from there on is the filter of the rest |
| Import.BuildProductFields | marketplace-distribucion-mock/src/services/mock/mockApi.ts:592-621 | falsy SKU and name cells fall back, other SKU and name cells are trimmed; the id joins supplier, SKU and index; description, category, brand and image are absent exactly when their cell is falsy and otherwise hold its trimmed text; the VAT is absent for a falsy cell and otherwise `parseFloat` of it; the stock of a non-empty cell is `parseInt` of it with `NaN` read as 0; price and stock default to 0 |
| Import.DroppedOnlyForBlankText | marketplace-distribucion-mock/src/services/mock/mockApi.ts:604-622 | a record is dropped only when its SKU or name cell holds spaces alone |
| Import.NonNumericCell | marketplace-distribucion-mock/src/services/mock/mockApi.ts:606-620 | a non-numeric cell (no sign, digit, point or `Infinity` after leading spaces) gives price 0 and stock 0, but a `NaN` VAT rate rather than none |
| Import.SkuFallbackTrimmed | marketplace-distribucion-mock/src/services/mock/mockApi.ts:604 | the fallback SKU is non-empty and trimming keeps it |
| Import.ImportRowsAreDataRows | marketplace-distribucion-mock/src/services/mock/mockApi.ts:564-567 | the rows the import reads are, in order, exactly the sheet rows below the detected header that hold some text |
| Import.PreviewSampleIsImportRows | marketplace-distribucion-mock/src/services/mock/mockApi.ts:462-477 | the preview's header and labels are the import's, and its sample is the records of the first five rows the import reads |
| Import.BuiltFromSheetRow | marketplace-distribucion-mock/src/services/mock/mockApi.ts:564-621 | record i is built, with index i, from the i-th sheet row below the header that holds some text |
| Import.ImportedRecordAt | marketplace-distribucion-mock/src/services/mock/mockApi.ts:564-627 | data row i is the i-th sheet row below the header with some text; its record is imported right after the records of the retained rows before it, or skipped when it lacks a SKU or a name |
| Import.StripTrailing | marketplace-distribucion-mock/src/services/mock/mockApi.ts:508 | without a default value the decoder returns a row up to its last present cell: it drops only absent cells, and only the trailing ones |
| Import.ImportProductsAsWritten | marketplace-distribucion-mock/src/services/mock/mockApi.ts:508-513 | the import as written refuses a sheet of fewer than two decoded rows as holding no data, and only then |
| ColumnMapping.FieldKeysDistinct | marketplace-distribucion-mock/src/pages/SuppliersPage.tsx:27-37 | the nine canonical fields have distinct keys |
| ColumnMapping.FirstMatch | marketplace-distribucion-mock/src/pages/SuppliersPage.tsx:159-167 | the position found is the first column matching the field; none when no column matches |
| ColumnMapping.AutoMapFirstMatch | marketplace-distribucion-mock/src/pages/SuppliersPage.tsx:156-171 | a field is auto-mapped iff some column matches it, and then to the first matching column |
| ColumnMapping.AutoMapIsFirstMatch | marketplace-distribucion-mock/src/pages/SuppliersPage.tsx:156-171 | every canonical field gets its first matching column, or stays out of the mapping |
| ColumnMapping.AutoMapFields | marketplace-distribucion-mock/src/pages/SuppliersPage.tsx:156-171 | the mapping built over a field list only has keys of those fields and only names columns of the upload |
| ColumnMapping.AutoMapFieldsFirstMatch | marketplace-distribucion-mock/src/pages/SuppliersPage.tsx:156-171 | over any field list with distinct non-empty keys and titles, each field is mapped to its first matching column or left out |
| ColumnMapping.AutoMap | marketplace-distribucion-mock/src/pages/SuppliersPage.tsx:156-171 | auto-mapping only names columns of the upload |
| ColumnMapping.Revalidate | marketplace-distribucion-mock/src/pages/SuppliersPage.tsx:143-153 | revalidation drops exactly the stale keys, keeps the other entries unchanged and leaves nothing stale |
| ColumnMapping.RevalidateIdempotent | marketplace-distribucion-mock/src/pages/SuppliersPage.tsx:146-152 | revalidating twice is revalidating once |
| ColumnMapping.RevalidateExact | marketplace-distribucion-mock/src/pages/SuppliersPage.tsx:146-152 | a key survives revalidation iff its label is empty or among the columns |
| ColumnMapping.EditField | marketplace-distribucion-mock/src/pages/SuppliersPage.tsx:507-517 | a choice sets the field and clearing removes it; every other field is untouched |
| ColumnMapping.EditFieldUndo | marketplace-distribucion-mock/src/pages/SuppliersPage.tsx:509-514 | choosing then clearing a previously unmapped field restores the mapping |
| ColumnMapping.ExcelNameLower | marketplace-distribucion-mock/src/pages/SuppliersPage.tsx:118 | every name ending `.xlsx` is accepted |
| ColumnMapping.ExcelNameUpper | marketplace-distribucion-mock/src/pages/SuppliersPage.tsx:118 | the extension check ignores case: `.XLS` is accepted |
| ColumnMapping.CsvNameRefused | marketplace-distribucion-mock/src/pages/SuppliersPage.tsx:118 | a `.csv` name is refused |
| ColumnMapping.MappingAfterUpload | marketplace-distribucion-mock/src/pages/SuppliersPage.tsx:114-174 | a non-spreadsheet name or a sheet without columns is refused; an edited supplier keeps a revalidated subset of its stored mapping; a new one gets an auto-mapping; nothing stale either way |
| ColumnMapping.MissingRequired | marketplace-distribucion-mock/src/pages/SuppliersPage.tsx:210-211 | the titles listed are exactly those of the required fields left unmapped |
| ColumnMapping.NoneMissing | marketplace-distribucion-mock/src/pages/SuppliersPage.tsx:590-596 | an empty missing list means every required field is mapped |
| ColumnMapping.ConfirmMapping | marketplace-distribucion-mock/src/pages/SuppliersPage.tsx:586-614 | accepts iff no required field is unmapped and nothing is stale; reports missing titles first, then the stale entries by field title |
| ColumnMapping.ConfirmNeedsRequired | marketplace-distribucion-mock/src/pages/SuppliersPage.tsx:590-596 | a confirmed mapping maps SKU, name, price and stock |
| ColumnMapping.SubmitSupplier | marketplace-distribucion-mock/src/pages/SuppliersPage.tsx:191-216 | the save needs a name; a new supplier also needs a file and a mapping; every save needs the required fields mapped; the saved draft carries the mapping |
| ColumnMapping.SubmitNeedsRequired | marketplace-distribucion-mock/src/pages/SuppliersPage.tsx:209-215 | a saved supplier maps SKU, name, price and stock |
| ColumnMapping.NoMatchShorter | marketplace-distribucion-mock/src/pages/SuppliersPage.tsx:159-167 | a column shorter than the field's key and title cannot match it |
| ColumnMapping.NoMatchSameLength | marketplace-distribucion-mock/src/pages/SuppliersPage.tsx:159-167 | a column as long as the key and title matches only by equality |
| ColumnMapping.NoMatchMissingInitial | marketplace-distribucion-mock/src/pages/SuppliersPage.tsx:159-167 | a column lacking the initial letter of key and title cannot match |
| ColumnMapping.MapsToColumn | marketplace-distribucion-mock/src/pages/SuppliersPage.tsx:158-170 | the first matching column is the one a field is mapped to |
| ColumnMapping.LeftUnmapped | marketplace-distribucion-mock/src/pages/SuppliersPage.tsx:168-170 | a field no column matches is left out |
| ColumnMapping.AutoMapScenarioSku | marketplace-distribucion-mock/src/pages/SuppliersPage.tsx:156-171 | headers SKU, Precio, Stock, Descripcion: `sku` maps to SKU |
| ColumnMapping.AutoMapScenarioPrice | marketplace-distribucion-mock/src/pages/SuppliersPage.tsx:156-171 | the same headers: `price` maps to Precio through its title |
| ColumnMapping.AutoMapScenarioStock | marketplace-distribucion-mock/src/pages/SuppliersPage.tsx:156-171 | the same headers: `stock` maps to Stock |
| ColumnMapping.AutoMapScenarioDescription | marketplace-distribucion-mock/src/pages/SuppliersPage.tsx:156-171 | the same headers: the unaccented Descripcion leaves `description` unmapped |
| ColumnMapping.ScenarioDescriptionUnmatched | marketplace-distribucion-mock/src/pages/SuppliersPage.tsx:159-167 | none of the four normalized headers matches the accented description title |
| ColumnMapping.DescriptionSpellings | marketplace-distribucion-mock/src/pages/SuppliersPage.tsx:30 | the description field's key and title are already lower case, the title keeping its accent |
| Workflow.PreviewLabelsAreImportLabels | marketplace-distribucion-mock/src/services/mock/mockApi.ts:439-460 | the corrected import labels a file exactly as the preview did |
| Workflow.ConfirmedMappingImports | marketplace-distribucion-mock/src/services/mock/mockApi.ts:579-590 | a mapping confirmed against the preview's labels imports the same file without a mapping error and maps the required fields |
| Workflow.UploadedMappingConfirms | marketplace-distribucion-mock/src/pages/SuppliersPage.tsx:598-610 | after an upload the confirm gate can only object to unmapped required fields, never to invalid columns |
| Workflow.HeaderHoleDropsLabel | marketplace-distribucion-mock/src/services/mock/mockApi.ts:547-551 | a header with a hole before a named last cell gets fewer labels from the import as written than from the preview |
| Workflow.HolePreviewLabels | marketplace-distribucion-mock/src/services/mock/mockApi.ts:439-447 | the preview labels `SKU \| (empty) \| Precio` as SKU, Columna B, Precio |
| Workflow.HoleImportLabels | marketplace-distribucion-mock/src/services/mock/mockApi.ts:547-551 | the import as written labels the same header SKU, Precio |
| Workflow.CellFromColumn | marketplace-distribucion-mock/src/services/mock/mockApi.ts:593-602 | a field reads the cell under the first column carrying its mapped label |
| Workflow.PriceFromRendered | marketplace-distribucion-mock/src/services/mock/mockApi.ts:606 | a whole-number cell under the price column becomes the record's price |
| Workflow.PreviewReadsPrice | marketplace-distribucion-mock/src/services/mock/mockApi.ts:592-606 | through the preview's labels, the price is read from the column labelled Precio |
| Workflow.AsWrittenReadsHoleCell | marketplace-distribucion-mock/src/services/mock/mockApi.ts:547-606 | through the labels of the import as written, the price is read from the unlabelled column |
| Pricing.NetPrice | marketplace-distribucion-mock/src/components/ProductGrid.tsx:39-48 | the net price is finite iff the VAT divisor is non-zero, and times the divisor it is the list price in the display currency |
| Pricing.VatRate | marketplace-distribucion-mock/src/components/ProductGrid.tsx:50 | the product's own rate when present, else the default |
| Pricing.Iibb | marketplace-distribucion-mock/src/components/ProductGrid.tsx:53-56 | 3% of the net price for newbytes, zero for every other supplier |
| Pricing.RenderPrice | marketplace-distribucion-mock/src/components/ProductGrid.tsx:38-168 | breakdown mode alone itemizes: the VAT line is the net price times rate/100, the IIBB line is shown iff positive and then is the IIBB, and the total is net + VAT + IIBB; gruponucleo shows the net price in half-VAT mode |
| Pricing.BreakdownLinesAddUp | marketplace-distribucion-mock/src/components/ProductGrid.tsx:58-80 | when the IIBB is not negative, the lines the breakdown shows add up to its total |
| Pricing.HiddenNegativeIibb | marketplace-distribucion-mock/src/components/ProductGrid.tsx:53-80 | newbytes at -100 USD hides its IIBB line of -3, so the shown lines sum to -121 while the total reads -124 |
| Pricing.FinalAmount | marketplace-distribucion-mock/src/components/ProductGrid.tsx:150-151 | final mode shows net·(1 + rate/100) plus the IIBB, finite iff net and rate are |
| Pricing.BreakdownTotalIsFinal | marketplace-distribucion-mock/src/components/ProductGrid.tsx:58-60 | the breakdown total equals the final-mode amount |
| Pricing.UnparsedVat | marketplace-distribucion-mock/src/components/ProductGrid.tsx:50-151 | an unparsed VAT rate makes the final price non-finite, except gruponucleo in half-VAT mode |
| Pricing.ElitHalfVatIsFinal | marketplace-distribucion-mock/src/components/ProductGrid.tsx:115-116 | elit's half-VAT price equals its final price |
| Pricing.GamingCityPromo | marketplace-distribucion-mock/src/components/ProductGrid.tsx:86-88 | with the default rate, gamingcity's half-VAT price in dollars is 95% of the list price |
| Pricing.NetNonNegative | marketplace-distribucion-mock/src/components/ProductGrid.tsx:39-48 | non-negative prices and rates give a non-negative net price |
| Pricing.HalfVatAtMostFinal | marketplace-distribucion-mock/src/components/ProductGrid.tsx:129-151 | for the other suppliers half-VAT mode never shows more than final mode |
| Pricing.FinalModeExample | marketplace-distribucion-mock/src/components/ProductGrid.tsx:150-151 | 100 at 21% shows 121, and 124 for newbytes |
| Pricing.ShownIsNetTimesFactor | marketplace-distribucion-mock/src/components/ProductGrid.tsx:38-168 | every mode shows the net price times an independent per-mode, per-supplier factor |
| Pricing.FinalIsNetTimesFactor | marketplace-distribucion-mock/src/components/ProductGrid.tsx:150-151 | final mode shows the net price times 1 + rate/100 + the IIBB share |
| Pricing.HalfVatIsNetTimesFactor | marketplace-distribucion-mock/src/components/ProductGrid.tsx:84-131 | half-VAT mode shows the net price times the supplier's half-VAT factor |
| Pricing.CurrencyConversion | marketplace-distribucion-mock/src/components/ProductGrid.tsx:46-48 | showing pesos multiplies every displayed amount by the exchange rate |
| Catalog.Filter | marketplace-distribucion-mock/src/App.tsx:82-92 | the products kept are exactly those passing search, category, brand, supplier and stock filters |
| Catalog.FilterOne | marketplace-distribucion-mock/src/App.tsx:82-92 | a single product is kept exactly when it passes every active filter |
| Catalog.FilterAppend | marketplace-distribucion-mock/src/App.tsx:82-92 | filtering a joined catalog joins the filtered parts, so kept products keep catalog order and multiplicity |
| Catalog.NoFiltersKeepAll | marketplace-distribucion-mock/src/App.tsx:82-92 | with no filter active the whole catalog stays, in order |
| Catalog.HiddenStock | marketplace-distribucion-mock/src/App.tsx:84 | hiding out-of-stock products leaves only positive stock |
| Catalog.InsertPermutes | marketplace-distribucion-mock/src/App.tsx:93-95 | inserting adds exactly the one product |
| Catalog.SortByPrice | marketplace-distribucion-mock/src/App.tsx:93-95 | the sort is a permutation of its input |
| Catalog.SortByPriceSorted | marketplace-distribucion-mock/src/App.tsx:93-95 | the sort orders by price, ascending or descending |
| Catalog.InsertSorted | marketplace-distribucion-mock/src/App.tsx:93-95 | inserting into a price-sorted list keeps it sorted |
| Catalog.InsertWithKey | marketplace-distribucion-mock/src/App.tsx:93-95 | among the products of the inserted one's price, it comes first and the others keep their order |
| Catalog.SortByPriceStable | marketplace-distribucion-mock/src/App.tsx:93-95 | products of equal price keep their order |
| Catalog.Visible | marketplace-distribucion-mock/src/App.tsx:82-98 | the list paged through is a permutation of the filtered products |
| Catalog.TotalPages | marketplace-distribucion-mock/src/App.tsx:100 | the page count is the least number of 100-product pages covering the list |
| Catalog.Slice | marketplace-distribucion-mock/src/App.tsx:101 | a slice is never longer than the list |
| Catalog.PageRange | marketplace-distribucion-mock/src/App.tsx:101 | page k is the run of products from (k-1)·100 up to k·100 or the end |
| Catalog.Page | marketplace-distribucion-mock/src/App.tsx:101 | a page never holds more than 100 products |
| Catalog.PagesPrefix | marketplace-distribucion-mock/src/App.tsx:101 | the first k pages, concatenated, are the first k·100 products |
| Catalog.PagesCoverList | marketplace-distribucion-mock/src/App.tsx:100-101 | the pages, concatenated, are the list; pages past the last are empty |
| Catalog.PaginationItems | marketplace-distribucion-mock/src/App.tsx:107-117 | up to five pages the strip lists them all; beyond, it has five or seven items |
| Catalog.PaginationShape | marketplace-distribucion-mock/src/App.tsx:111-115 | beyond five pages the strip starts at 1, ends at the last page, shows the current page, and its numbers increase within range |
| Catalog.PaginationSmall | marketplace-distribucion-mock/src/App.tsx:109-110 | up to five pages the strip is 1, 2, … in order |
| Catalog.Toggle | marketplace-distribucion-mock/src/App.tsx:103-105 | toggling flips the value's membership and leaves every other value's |
| Catalog.ToggleTwice | marketplace-distribucion-mock/src/App.tsx:103-105 | toggling an unselected value on and off restores the selection |
| Catalog.AvailableValues | marketplace-distribucion-mock/src/App.tsx:78-79 | the option list is strictly sorted and holds exactly the truthy values present |
| Catalog.StrictlySortedUnique | marketplace-distribucion-mock/src/App.tsx:78-79 | a strictly sorted list is determined by its members |
| Catalog.InsertString | marketplace-distribucion-mock/src/App.tsx:78-79 | adding an option to a strictly sorted list keeps it strictly sorted and adds exactly that option |
| Cart.Bump | marketplace-distribucion/src/context/CartContext.tsx:35-39 | the product's lines gain one unit; every other line is untouched |
| Cart.Add | marketplace-distribucion/src/context/CartContext.tsx:31-42 | a product in the cart gains a unit; a new one is appended with quantity 1 |
| Cart.Remove | marketplace-distribucion/src/context/CartContext.tsx:57-59 | exactly the product's lines go, and no line of it remains |
| Cart.SetQuantity | marketplace-distribucion/src/context/CartContext.tsx:52-54 | the product's lines take the quantity; every other line is untouched |
| Cart.UpdateQuantity | marketplace-distribucion/src/context/CartContext.tsx:47-55 | a quantity of zero or less removes the product; otherwise its lines take it |
| Cart.Clear | marketplace-distribucion/src/context/CartContext.tsx:61 | the cart becomes empty |
| Cart.CountItems | marketplace-distribucion/src/context/CartContext.tsx:63 | the left-to-right reduction computes the sum of the quantities |
| Cart.AddPreserves | marketplace-distribucion/src/context/CartContext.tsx:31-42 | adding keeps ids unique and quantities positive |
| Cart.UpdatePreserves | marketplace-distribucion/src/context/CartContext.tsx:47-55 | updating keeps ids unique and quantities positive |
| Cart.RemovePreserves | marketplace-distribucion/src/context/CartContext.tsx:57-59 | removing keeps ids unique and quantities positive |
| Cart.RemoveUndoesAdd | marketplace-distribucion/src/context/CartContext.tsx:41-58 | removing a product just added for the first time restores the cart |
| Cart.UniqueOccurrences | marketplace-distribucion/src/context/CartContext.tsx:33-41 | with unique ids a product has one line if present, none otherwise |
| Cart.BumpTotal | marketplace-distribucion/src/context/CartContext.tsx:35-39 | bumping raises the item count by the number of the product's lines |
| Cart.SetQuantityTotal | marketplace-distribucion/src/context/CartContext.tsx:52-54 | setting a quantity replaces the product's quantities in the item count |
| Cart.AddCountsOne | marketplace-distribucion/src/context/CartContext.tsx:31-63 | adding raises the item count by exactly one |
| Cart.UpdateQuantityTotal | marketplace-distribucion/src/context/CartContext.tsx:47-63 | a positive update replaces a present product's quantity in the count and leaves it unchanged otherwise |
| Cart.TotalItemsAppend | marketplace-distribucion/src/context/CartContext.tsx:63 | the item count of two carts joined is the sum of their counts |
| CartView.Distributors | marketplace-distribucion/src/components/Cart.tsx:14-21 | each supplier with a line is listed once, and only those |
| CartView.Group | marketplace-distribucion/src/components/Cart.tsx:14-19 | a supplier's group holds exactly its lines |
| CartView.GroupOne | marketplace-distribucion/src/components/Cart.tsx:14-19 | one line forms a group of itself for its own supplier and an empty group for every other |
| CartView.GroupSnoc | marketplace-distribucion/src/components/Cart.tsx:14-19 | a new line is appended to its supplier's group and leaves every other group unchanged |
| CartView.GroupAppend | marketplace-distribucion/src/components/Cart.tsx:14-19 | the group of two carts joined is their groups joined, so each group keeps the cart's order |
| CartView.FirstIndex | marketplace-distribucion/src/components/Cart.tsx:14-21 | a supplier with a line has a first line, and that line is its |
| CartView.FirstIndexMinimal | marketplace-distribucion/src/components/Cart.tsx:14-21 | no line before a supplier's first line is that supplier's |
| CartView.DistributorsInFirstAppearanceOrder | marketplace-distribucion/src/components/Cart.tsx:14-21 | the suppliers are listed in the order of their first line in the cart |
| CartView.DistributorsOrdered | marketplace-distribucion/src/components/Cart.tsx:14-21 | every listed supplier has a line, and the first lines of the listed suppliers are strictly increasing |
| CartView.Checkout | marketplace-distribucion/src/components/Cart.tsx:24-46 | no contact or an empty number refuses; otherwise the order goes to that number, greets the name, lists the group's lines and totals the group |
| CartView.TotalAppend | marketplace-distribucion/src/components/Cart.tsx:22 | the total of two carts joined is the sum of their totals |
| CartView.GroupTotalsSnoc | marketplace-distribucion/src/components/Cart.tsx:14-19 | a new line adds its subtotal to the group totals of a supplier list naming its supplier |
| CartView.GroupOfAbsent | marketplace-distribucion/src/components/Cart.tsx:14-19 | a supplier with no line has an empty group |
| CartView.GroupsSumToTotal | marketplace-distribucion/src/components/Cart.tsx:14-22 | the per-supplier totals add up to the overall total |
| PcBuild.Add | marketplace-distribucion-mock/src/context/PcBuilderContext.tsx:37-49 | a product in the build gains a unit; a new one comes in with quantity 1 at the default markup |
| PcBuild.Remove | marketplace-distribucion-mock/src/context/PcBuilderContext.tsx:67-69 | exactly the product's lines go |
| PcBuild.RemoveUnchangedIff | marketplace-distribucion-mock/src/context/PcBuilderContext.tsx:67-69 | removal leaves the build unchanged exactly when the build lacks the product |
| PcBuild.RemoveSnoc | marketplace-distribucion-mock/src/context/PcBuilderContext.tsx:67-69 | a line at the end of the build stays at the end of the result exactly when it is another product's, so the kept lines keep their order |
| PcBuild.UpdateQuantity | marketplace-distribucion-mock/src/context/PcBuilderContext.tsx:51-59 | zero or less removes the product; otherwise its lines take the quantity |
| PcBuild.UpdateMarkup | marketplace-distribucion-mock/src/context/PcBuilderContext.tsx:61-65 | the product's lines take the markup; every other line is untouched |
| PcBuild.Clear | marketplace-distribucion-mock/src/context/PcBuilderContext.tsx:71 | the build becomes empty |
| PcBuild.SellIsCostPlusMargin | marketplace-distribucion-mock/src/context/PcBuilderContext.tsx:74-79 | the sell total is the cost total plus the markups' margin |
| PcBuild.ZeroMarkupSellsAtCost | marketplace-distribucion-mock/src/context/PcBuilderContext.tsx:74-79 | with every markup zero the build sells at cost |
| PcBuild.NonNegativeMarkupCoversCost | marketplace-distribucion-mock/src/context/PcBuilderContext.tsx:74-79 | non-negative markups never sell below cost |
| PcBuild.MarkupKeepsCost | marketplace-distribucion-mock/src/context/PcBuilderContext.tsx:61-74 | changing a markup changes neither the cost nor the item count |
| PcBuild.AddNewLine | marketplace-distribucion-mock/src/context/PcBuilderContext.tsx:37-79 | a first-time product raises the cost by its price and the sell total by its price at the default markup |
| PcBuild.OperationsKeepIdsUnique | marketplace-distribucion-mock/src/context/PcBuilderContext.tsx:37-69 | adding, re-marking and removing keep ids unique |
| PcBuild.UpdateQuantityKeepsUnique | marketplace-distribucion-mock/src/context/PcBuilderContext.tsx:51-59 | changing a quantity, or removing the product at zero or less, keeps ids unique |

## Left out

- File reading, the workbook decoder, timers, `localStorage`, toasts, alerts, `console` output and opening the messaging URL are I/O. The decoded rows and the stored mapping are parameters.
- The name sort (`localeCompare`) of the catalog depends on locale collation data. Only the two price orders are modelled.
- Price and message formatting (`Intl.NumberFormat`, `toFixed`, the order text, URL encoding) is presentation only. The order keeps its lines and total as data.
- `toLowerCase` is modelled for Basic Latin and Latin-1 capitals only, the letters the column titles use.
- The default string order compares UTF-16 code units. The model compares characters, which differs only for characters outside the Basic Multilingual Plane.
- `String.fromCharCode` of a surrogate code unit has no `char`; the model renders it as U+FFFD.
- JsNumber.ParseFloat: the model has only finite numbers and `NaN`. It reads `Infinity`, `+Infinity` and `-Infinity` as `NaN`, so the import gives such a price cell price 0 where the code keeps ±Infinity, and a VAT of `NaN` where the code stores ±Infinity. A digit string too large for a double, such as `1e400`, stays an exact finite number in the model, where `parseFloat` returns Infinity. Import.NonNumericCell therefore excludes text starting with `Infinity`, and the `NaN` that JsNumber.ParseFloatNoDigits gives such text under `parseFloat` is the model's stand-in for the infinity.
- Pricing.NetPrice: a default VAT of -100% gives a non-finite net price in JavaScript; the model says only that the result is non-finite.
- CartView.DistributorsInFirstAppearanceOrder: JavaScript object key order puts integer-like keys such as "42" first, in numeric order. The model lists every supplier id in first-appearance order, which matches the page only for ids that are not integer-like.
- Import.ImportProducts: the missing-columns error is the set of stale (field, label) entries. The code reports them in mapping order in one message that also lists the available columns (mockApi.ts:576-585); the model keeps neither the order nor the column list.
- Pricing.RenderPrice: the breakdown shows the IIBB line only when it is positive, but the total always counts it. A negative newbytes price therefore has a total that differs from the sum of the shown lines. `Pricing.HiddenNegativeIibb` gives such an input; `Pricing.BreakdownLinesAddUp` promises the shown lines add up only when the IIBB is not negative.
- ColumnMapping.ConfirmMapping: the invalid-column report is a set of (title, label) pairs, not the ordered, comma-joined message.
- The page's dialog state (open, closed, reset on cancel) and the loading flags are UI state.
- Supplier CRUD, users, companies, login and the API normalizer of the real backend are not part of this model. The backend sync uses `Math.random`.
- PcBuild.UpdateQuantity: the context also accepts fractional quantities; the model's quantities are integers.

## Findings

| source | as written | input that shows it | evidently intended | confidence | as-written member | corrected member |
|---|---|---|---|---|---|---|
| marketplace-distribucion-mock/src/services/mock/mockApi.ts:508-551 | the import decodes the sheet without a default value. `map`/`filter` skip the absent header cells, so the labels after a blank header cell close up and no longer line up with the row's cells | header `SKU \| (empty) \| Precio`, data row `A1 \| 5 \| 100`, price mapped to `Precio` (as the preview labelled it): the record's price is 5, the unlabelled cell, instead of 100 | the import labels columns exactly as the preview did, so a confirmed mapping reads the column it names | not executed | Workflow.AsWrittenReadsHoleCell | Workflow.PreviewReadsPrice |

=== FILE: cart.dfy ===
/**
 * The shopping cart: a list of product lines, at most one per product id in
 * every cart the operations build, each with a quantity.
 */
module Cart {
  import opened Products

  datatype CartItem = CartItem(product: Product, quantity: int)

  /** Every product id occurs in at most one line. */
  predicate UniqueIds(items: seq<CartItem>) {
    forall i, j :: 0 <= i < j < |items| ==> items[i].product.id != items[j].product.id
  }

  predicate HasId(items: seq<CartItem>, id: string) {
    exists i :: 0 <= i < |items| && items[i].product.id == id
  }

  /** Every line has a positive quantity. */
  predicate PositiveQuantities(items: seq<CartItem>) {
    forall i :: 0 <= i < |items| ==> items[i].quantity > 0
  }

  /** Every line of the product gains one unit; the other lines are untouched. */
  function Bump(items: seq<CartItem>, id: string): (r: seq<CartItem>)
    ensures |r| == |items|
    ensures forall i :: 0 <= i < |items| ==>
      r[i] == if items[i].product.id == id then items[i].(quantity := items[i].quantity + 1) else items[i]
  {
    if |items| == 0 then []
    else
      var init := items[..|items| - 1];
      var last := items[|items| - 1];
      Bump(init, id) + [if last.product.id == id then last.(quantity := last.quantity + 1) else last]
  }

  /** `addToCart`: one more of a product already in the cart, else a new line of one. */
  function Add(items: seq<CartItem>, p: Product): (r: seq<CartItem>)
    ensures HasId(items, p.id) ==> r == Bump(items, p.id)
    ensures !HasId(items, p.id) ==> r == items + [CartItem(p, 1)]
  {
    if HasId(items, p.id) then Bump(items, p.id) else items + [CartItem(p, 1)]
  }

  /** `removeFromCart`: the lines of other products, in order. */
  function Remove(items: seq<CartItem>, id: string): (r: seq<CartItem>)
    ensures |r| <= |items|
    ensures !HasId(r, id)
    ensures forall x :: x in r <==> x in items && x.product.id != id
  {
    if |items| == 0 then []
    else if items[0].product.id == id then Remove(items[1..], id)
    else [items[0]] + Remove(items[1..], id)
  }

  /** Every line of the product takes the quantity; the other lines are untouched. */
  function SetQuantity(items: seq<CartItem>, id: string, quantity: int): (r: seq<CartItem>)
    ensures |r| == |items|
    ensures forall i :: 0 <= i < |items| ==>
      r[i] == if items[i].product.id == id then items[i].(quantity := quantity) else items[i]
  {
    if |items| == 0 then []
    else
      var init := items[..|items| - 1];
      var last := items[|items| - 1];
      SetQuantity(init, id, quantity) + [if last.product.id == id then last.(quantity := quantity) else last]
  }

  /** `updateQuantity`: a quantity of zero or less removes the line; otherwise the line takes the quantity. */
  function UpdateQuantity(items: seq<CartItem>, id: string, quantity: int): (r: seq<CartItem>)
    ensures quantity <= 0 ==> r == Remove(items, id)
    ensures quantity > 0 ==> r == SetQuantity(items, id, quantity)
  {
    if quantity <= 0 then Remove(items, id) else SetQuantity(items, id, quantity)
  }

  /** `clearCart`. */
  function Clear(): (r: seq<CartItem>)
    ensures |r| == 0
  {
    []
  }

  /** `totalItems`: the sum of the quantities. */
  function TotalItems(items: seq<CartItem>): int {
    if |items| == 0 then 0 else TotalItems(items[..|items| - 1]) + items[|items| - 1].quantity
  }

  /** The reduction as the page runs it, left to right. */
  method CountItems(items: seq<CartItem>) returns (total: int)
    ensures total == TotalItems(items)
  {
    total := 0;
    var i := 0;
    while i < |items|
      invariant 0 <= i <= |items|
      invariant total == TotalItems(items[..i])
    {
      assert items[..i + 1][..i] == items[..i];
      total := total + items[i].quantity;
      i := i + 1;
    }
    assert items[..|items|] == items;
  }

  // ---------------------------------------------------------------------------
  // Properties
  // ---------------------------------------------------------------------------

  /** Adding keeps ids unique and quantities positive. */
  lemma AddPreserves(items: seq<CartItem>, p: Product)
    requires UniqueIds(items)
    ensures UniqueIds(Add(items, p))
    ensures PositiveQuantities(items) ==> PositiveQuantities(Add(items, p))
  {
  }

  /** Updating a quantity keeps ids unique and, for a positive quantity, quantities positive. */
  lemma UpdatePreserves(items: seq<CartItem>, id: string, quantity: int)
    requires UniqueIds(items)
    ensures UniqueIds(UpdateQuantity(items, id, quantity))
    ensures PositiveQuantities(items) ==> PositiveQuantities(UpdateQuantity(items, id, quantity))
  {
    if quantity <= 0 {
      RemovePreserves(items, id);
    }
  }

  /** Removing keeps ids unique and quantities positive. */
  lemma RemovePreserves(items: seq<CartItem>, id: string)
    ensures UniqueIds(items) ==> UniqueIds(Remove(items, id))
    ensures PositiveQuantities(items) ==> PositiveQuantities(Remove(items, id))
  {
    if UniqueIds(items) {
      RemoveUnique(items, id);
    }
    var r := Remove(items, id);
    assert forall j :: 0 <= j < |r| ==> r[j] in items;
  }

  lemma {:induction false} RemoveUnique(items: seq<CartItem>, id: string)
    requires UniqueIds(items)
    ensures UniqueIds(Remove(items, id))
  {
    if |items| > 0 {
      var tail := items[1..];
      assert UniqueIds(tail) by {
        forall i, j | 0 <= i < j < |tail| ensures tail[i].product.id != tail[j].product.id {
          assert tail[i] == items[i + 1] && tail[j] == items[j + 1];
        }
      }
      RemoveUnique(tail, id);
      if items[0].product.id != id {
        var rest := Remove(tail, id);
        forall j | 0 <= j < |rest| ensures rest[j].product.id != items[0].product.id {
          assert rest[j] in tail;
          var k :| 0 <= k < |tail| && tail[k] == rest[j];
          assert tail[k] == items[k + 1];
        }
      }
    }
  }

  /** Removing a product right after adding it for the first time restores the cart. */
  lemma {:induction false} RemoveUndoesAdd(items: seq<CartItem>, p: Product)
    requires !HasId(items, p.id)
    ensures Remove(Add(items, p), p.id) == items
  {
    RemoveAbsent(items, p.id);
    RemoveAppend(items, [CartItem(p, 1)], p.id);
  }

  lemma {:induction false} RemoveAbsent(items: seq<CartItem>, id: string)
    requires !HasId(items, id)
    ensures Remove(items, id) == items
  {
    if |items| > 0 {
      assert !HasId(items[1..], id) by {
        forall i | 0 <= i < |items[1..]| ensures items[1..][i].product.id != id {
          assert items[1..][i] == items[i + 1];
        }
      }
      RemoveAbsent(items[1..], id);
      assert items == [items[0]] + items[1..];
    }
  }

  lemma {:induction false} RemoveAppend(a: seq<CartItem>, b: seq<CartItem>, id: string)
    ensures Remove(a + b, id) == Remove(a, id) + Remove(b, id)
  {
    if |a| > 0 {
      assert (a + b)[1..] == a[1..] + b;
      RemoveAppend(a[1..], b, id);
    } else {
      assert a + b == b;
    }
  }

  lemma {:induction false} TotalItemsAppend(a: seq<CartItem>, b: seq<CartItem>)
    ensures TotalItems(a + b) == TotalItems(a) + TotalItems(b)
    decreases |b|
  {
    if |b| == 0 {
      assert a + b == a;
    } else {
      assert (a + b)[..|a + b| - 1] == a + b[..|b| - 1];
      TotalItemsAppend(a, b[..|b| - 1]);
    }
  }

  /** The number of lines with a given id. */
  function Occurrences(items: seq<CartItem>, id: string): (n: nat)
    ensures n <= |items|
  {
    if |items| == 0 then 0
    else Occurrences(items[..|items| - 1], id) + (if items[|items| - 1].product.id == id then 1 else 0)
  }

  /** The sum of the quantities of the lines with a given id. */
  function QuantityOf(items: seq<CartItem>, id: string): int {
    if |items| == 0 then 0
    else QuantityOf(items[..|items| - 1], id) + (if items[|items| - 1].product.id == id then items[|items| - 1].quantity else 0)
  }

  /** With unique ids a present product has exactly one line, an absent one none. */
  lemma {:induction false} UniqueOccurrences(items: seq<CartItem>, id: string)
    requires UniqueIds(items)
    ensures Occurrences(items, id) == if HasId(items, id) then 1 else 0
  {
    if |items| > 0 {
      var init := items[..|items| - 1];
      UniqueOccurrences(init, id);
      if items[|items| - 1].product.id == id {
        assert !HasId(init, id);
      } else {
        assert HasId(items, id) ==> HasId(init, id);
      }
    }
  }

  /** Bumping a product raises the total by the number of its lines. */
  lemma {:induction false} BumpTotal(items: seq<CartItem>, id: string)
    ensures TotalItems(Bump(items, id)) == TotalItems(items) + Occurrences(items, id)
  {
    if |items| > 0 {
      var r := Bump(items, id);
      assert r[..|r| - 1] == Bump(items[..|items| - 1], id);
      BumpTotal(items[..|items| - 1], id);
    }
  }

  lemma MulSucc(q: int, o: int)
    ensures q * (o + 1) == q * o + q
  {
  }

  /** Setting a product's quantity replaces its lines' quantities in the total. */
  lemma {:induction false} SetQuantityTotal(items: seq<CartItem>, id: string, quantity: int)
    ensures TotalItems(SetQuantity(items, id, quantity))
         == TotalItems(items) - QuantityOf(items, id) + quantity * Occurrences(items, id)
  {
    if |items| > 0 {
      var r := SetQuantity(items, id, quantity);
      var init := items[..|items| - 1];
      var last := items[|items| - 1];
      assert r[..|r| - 1] == SetQuantity(init, id, quantity);
      SetQuantityTotal(init, id, quantity);
      var o := Occurrences(init, id);
      if last.product.id == id {
        assert Occurrences(items, id) == o + 1;
        assert QuantityOf(items, id) == QuantityOf(init, id) + last.quantity;
        assert TotalItems(r) == TotalItems(r[..|r| - 1]) + quantity;
        MulSucc(quantity, o);
      } else {
        assert Occurrences(items, id) == o;
        assert QuantityOf(items, id) == QuantityOf(init, id);
        assert TotalItems(r) == TotalItems(r[..|r| - 1]) + last.quantity;
      }
    }
  }

  /** Adding a product raises the item count by one in a cart with unique ids. */
  lemma AddCountsOne(items: seq<CartItem>, p: Product)
    requires UniqueIds(items)
    ensures TotalItems(Add(items, p)) == TotalItems(items) + 1
  {
    if HasId(items, p.id) {
      BumpTotal(items, p.id);
      UniqueOccurrences(items, p.id);
    } else {
      TotalItemsAppend(items, [CartItem(p, 1)]);
    }
  }

  /**
   * In a cart with unique ids, a positive quantity for a product in the cart
   * replaces its old quantity in the total; for a product not in the cart it
   * changes nothing.
   */
  lemma UpdateQuantityTotal(items: seq<CartItem>, id: string, quantity: int)
    requires UniqueIds(items) && quantity > 0
    ensures TotalItems(UpdateQuantity(items, id, quantity))
         == TotalItems(items) - QuantityOf(items, id) + (if HasId(items, id) then quantity else 0)
  {
    SetQuantityTotal(items, id, quantity);
    UniqueOccurrences(items, id);
  }
}

=== FILE: cart_view.dfy ===
/**
 * The cart panel: the lines grouped by supplier in order of first
 * appearance, the overall total, and the per-supplier order sent by
 * messaging.
 */
module CartView {
  import opened Wrappers
  import opened Products
  import opened Cart

  /** A line's subtotal: unit price times quantity. */
  function Subtotal(x: CartItem): real {
    x.product.price * x.quantity as real
  }

  /** `totalGeneral`: the sum of the subtotals. */
  function Total(items: seq<CartItem>): real {
    if |items| == 0 then 0.0 else Total(items[..|items| - 1]) + Subtotal(items[|items| - 1])
  }

  /** Some line of the cart comes from supplier `d`. */
  predicate Supplies(items: seq<CartItem>, d: string) {
    exists i :: 0 <= i < |items| && items[i].product.distributorId == d
  }

  lemma SuppliesSnoc(items: seq<CartItem>, d: string)
    requires |items| > 0
    ensures Supplies(items, d) <==>
      Supplies(items[..|items| - 1], d) || items[|items| - 1].product.distributorId == d
  {
    if Supplies(items, d) && items[|items| - 1].product.distributorId != d {
      var i :| 0 <= i < |items| && items[i].product.distributorId == d;
      assert items[..|items| - 1][i] == items[i];
    }
  }

  /** The position of the first line from supplier `d`. */
  function FirstIndex(items: seq<CartItem>, d: string): (k: nat)
    requires Supplies(items, d)
    ensures k < |items| && items[k].product.distributorId == d
    decreases |items|
  {
    if items[0].product.distributorId == d then 0
    else
      assert Supplies(items[1..], d) by {
        var i :| 0 <= i < |items| && items[i].product.distributorId == d;
        assert items[1..][i - 1] == items[i];
      }
      1 + FirstIndex(items[1..], d)
  }

  /** No line before the first line from `d` comes from `d`. */
  lemma {:induction false} FirstIndexMinimal(items: seq<CartItem>, d: string, j: nat)
    requires Supplies(items, d) && j < FirstIndex(items, d)
    ensures items[j].product.distributorId != d
    decreases |items|
  {
    if items[0].product.distributorId != d && j > 0 {
      assert Supplies(items[1..], d) by {
        var i :| 0 <= i < |items| && items[i].product.distributorId == d;
        assert items[1..][i - 1] == items[i];
      }
      FirstIndexMinimal(items[1..], d, j - 1);
    }
  }

  /** The first line from `d` is at position `k` when `k` is the first position holding one. */
  lemma FirstIndexIs(items: seq<CartItem>, d: string, k: nat)
    requires k < |items| && items[k].product.distributorId == d
    requires forall j :: 0 <= j < k ==> items[j].product.distributorId != d
    ensures Supplies(items, d) && FirstIndex(items, d) == k
  {
    var f := FirstIndex(items, d);
    if k < f {
      FirstIndexMinimal(items, d, k);
    }
  }

  /** Adding a line does not move the first line of a supplier already present. */
  lemma FirstIndexSnoc(init: seq<CartItem>, x: CartItem, d: string)
    requires Supplies(init, d)
    ensures Supplies(init + [x], d) && FirstIndex(init + [x], d) == FirstIndex(init, d)
  {
    var k := FirstIndex(init, d);
    forall j | 0 <= j < k ensures (init + [x])[j].product.distributorId != d {
      FirstIndexMinimal(init, d, j);
      assert (init + [x])[j] == init[j];
    }
    assert (init + [x])[k] == init[k];
    FirstIndexIs(init + [x], d, k);
  }

  /** The suppliers of the lines, each once, in order of first appearance (the grouping object's key order). */
  function Distributors(items: seq<CartItem>): (r: seq<string>)
    ensures forall i, j :: 0 <= i < j < |r| ==> r[i] != r[j]
    ensures forall d :: d in r <==> Supplies(items, d)
  {
    if |items| == 0 then []
    else
      var init := Distributors(items[..|items| - 1]);
      var d := items[|items| - 1].product.distributorId;
      assert forall e :: Supplies(items, e) <==> Supplies(items[..|items| - 1], e) || e == d by {
        forall e ensures Supplies(items, e) <==> Supplies(items[..|items| - 1], e) || e == d {
          SuppliesSnoc(items, e);
        }
      }
      if d in init then init else init + [d]
  }

  /** One supplier's lines, in cart order. */
  function Group(items: seq<CartItem>, d: string): (r: seq<CartItem>)
    ensures forall x :: x in r <==> x in items && x.product.distributorId == d
    ensures |r| <= |items|
  {
    if |items| == 0 then []
    else Group(items[..|items| - 1], d) + (if items[|items| - 1].product.distributorId == d then [items[|items| - 1]] else [])
  }

  /** A one-line cart's group for `d` is that line when it comes from `d`, else empty. */
  lemma GroupOne(x: CartItem, d: string)
    ensures Group([x], d) == if x.product.distributorId == d then [x] else []
  {
    assert [x][..0] == [];
  }

  lemma ConcatAssoc<T>(p: seq<T>, q: seq<T>, r: seq<T>)
    ensures (p + q) + r == p + (q + r)
  {
  }

  /** Adding a line appends it to its supplier's group and leaves the other groups alone. */
  lemma GroupSnoc(items: seq<CartItem>, x: CartItem, d: string)
    ensures Group(items + [x], d) == Group(items, d) + if x.product.distributorId == d then [x] else []
  {
    assert (items + [x])[..|items|] == items;
  }

  /**
   * Grouping works piecewise: the group of two carts joined is the first
   * cart's group followed by the second's, so a group keeps the lines'
   * relative order in the cart.
   */
  lemma {:induction false} GroupAppend(a: seq<CartItem>, b: seq<CartItem>, d: string)
    ensures Group(a + b, d) == Group(a, d) + Group(b, d)
    decreases |b|
  {
    if |b| == 0 {
      assert a + b == a;
    } else {
      var init := b[..|b| - 1];
      var x := b[|b| - 1];
      assert b == init + [x];
      assert a + b == (a + init) + [x];
      GroupSnoc(a + init, x, d);
      GroupSnoc(init, x, d);
      GroupAppend(a, init, d);
      ConcatAssoc(Group(a, d), Group(init, d), if x.product.distributorId == d then [x] else []);
    }
  }

  /** The sum of the group totals over a list of suppliers. */
  function GroupTotals(items: seq<CartItem>, ds: seq<string>): real {
    if |ds| == 0 then 0.0 else GroupTotals(items, ds[..|ds| - 1]) + Total(Group(items, ds[|ds| - 1]))
  }

  /** A supplier's contact: the name the greeting uses and the messaging number. */
  datatype Contact = Contact(name: string, whatsapp: string)

  /** One order line: `- (quantity) name [sku]`. */
  datatype OrderLine = OrderLine(quantity: int, name: string, sku: string)

  /** The order sent to a supplier: the number, the greeted name, the lines and the estimated total. */
  datatype Order = Order(phone: string, greeting: string, lines: seq<OrderLine>, total: real)

  datatype CheckoutError =
    | NoWhatsapp    // no contact for the supplier, or an empty number
    | NoGroup       // the supplier has no line: the page would fail on the missing group

  function LineOf(x: CartItem): OrderLine {
    OrderLine(x.quantity, x.product.name, x.product.sku)
  }

  /** `handleCheckout`: the order for one supplier's group. */
  function Checkout(items: seq<CartItem>, contacts: map<string, Contact>, d: string): (r: Result<Order, CheckoutError>)
    ensures r == Err(NoWhatsapp) <==> d !in contacts || contacts[d].whatsapp == ""
    ensures r == Err(NoGroup) <==> d in contacts && contacts[d].whatsapp != "" && d !in Distributors(items)
    ensures r.Ok? ==> r.value.phone == contacts[d].whatsapp && r.value.greeting == contacts[d].name
    ensures r.Ok? ==> |r.value.lines| == |Group(items, d)| && r.value.lines != []
    ensures r.Ok? ==> forall i :: 0 <= i < |r.value.lines| ==> r.value.lines[i] == LineOf(Group(items, d)[i])
    ensures r.Ok? ==> r.value.total == Total(Group(items, d))
  {
    if d !in contacts || contacts[d].whatsapp == "" then Err(NoWhatsapp)
    else if d !in Distributors(items) then Err(NoGroup)
    else
      var g := Group(items, d);
      var i :| 0 <= i < |items| && items[i].product.distributorId == d;
      assert items[i] in g;
      Ok(Order(contacts[d].whatsapp, contacts[d].name, seq(|g|, k requires 0 <= k < |g| => LineOf(g[k])), Total(g)))
  }

  // ---------------------------------------------------------------------------
  // Properties
  // ---------------------------------------------------------------------------

  lemma {:induction false} TotalAppend(a: seq<CartItem>, b: seq<CartItem>)
    ensures Total(a + b) == Total(a) + Total(b)
    decreases |b|
  {
    if |b| == 0 {
      assert a + b == a;
    } else {
      assert (a + b)[..|a + b| - 1] == a + b[..|b| - 1];
      TotalAppend(a, b[..|b| - 1]);
    }
  }

  /** Adding a line to the cart adds its subtotal to the group totals of any supplier list naming its supplier once. */
  lemma {:induction false} GroupTotalsSnoc(items: seq<CartItem>, x: CartItem, ds: seq<string>)
    requires forall i, j :: 0 <= i < j < |ds| ==> ds[i] != ds[j]
    ensures GroupTotals(items + [x], ds)
         == GroupTotals(items, ds) + (if x.product.distributorId in ds then Subtotal(x) else 0.0)
    decreases |ds|
  {
    if |ds| > 0 {
      var init := ds[..|ds| - 1];
      GroupTotalsSnoc(items, x, init);
      var d := ds[|ds| - 1];
      var all := items + [x];
      assert all[..|all| - 1] == items;
      if x.product.distributorId == d {
        assert Group(all, d) == Group(items, d) + [x];
        TotalAppend(Group(items, d), [x]);
        assert d !in init;
      } else {
        assert Group(all, d) == Group(items, d);
        assert x.product.distributorId in ds <==> x.product.distributorId in init;
      }
    }
  }

  /** Every supplier in `ds` has a line, and `ds` lists them in the order of their first lines. */
  predicate InFirstOrder(items: seq<CartItem>, ds: seq<string>) {
    && (forall i :: 0 <= i < |ds| ==> Supplies(items, ds[i]))
    && (forall i, j :: 0 <= i < j < |ds| ==> FirstIndex(items, ds[i]) < FirstIndex(items, ds[j]))
  }

  /** Adding a line keeps the suppliers already present in first-appearance order. */
  lemma OrderKeptOnSnoc(init: seq<CartItem>, x: CartItem, ds: seq<string>)
    requires InFirstOrder(init, ds)
    ensures InFirstOrder(init + [x], ds)
    ensures forall i :: 0 <= i < |ds| ==> FirstIndex(init + [x], ds[i]) < |init|
  {
    forall i | 0 <= i < |ds| ensures Supplies(init + [x], ds[i]) && FirstIndex(init + [x], ds[i]) == FirstIndex(init, ds[i]) {
      FirstIndexSnoc(init, x, ds[i]);
    }
  }

  /** The first line of a supplier new to the cart is the line just added. */
  lemma NewSupplierFirst(init: seq<CartItem>, x: CartItem)
    requires x.product.distributorId !in Distributors(init)
    ensures Supplies(init + [x], x.product.distributorId)
    ensures FirstIndex(init + [x], x.product.distributorId) == |init|
  {
    var d := x.product.distributorId;
    forall j | 0 <= j < |init| ensures (init + [x])[j].product.distributorId != d {
      assert (init + [x])[j] == init[j];
    }
    FirstIndexIs(init + [x], d, |init|);
  }

  /** A supplier whose first line comes after those of the listed ones may be listed last. */
  lemma OrderExtends(items: seq<CartItem>, ds: seq<string>, d: string)
    requires InFirstOrder(items, ds) && Supplies(items, d)
    requires forall i :: 0 <= i < |ds| ==> FirstIndex(items, ds[i]) < FirstIndex(items, d)
    ensures InFirstOrder(items, ds + [d])
  {
    var r := ds + [d];
    forall i | 0 <= i < |r| ensures Supplies(items, r[i]) {
      if i < |ds| { assert r[i] == ds[i]; }
    }
    forall i, j | 0 <= i < j < |r| ensures FirstIndex(items, r[i]) < FirstIndex(items, r[j]) {
      assert r[i] == ds[i];
      if j < |ds| { assert r[j] == ds[j]; }
    }
  }

  /** The suppliers are listed in the order of their first lines in the cart. */
  lemma {:induction false} DistributorsInFirstAppearanceOrder(items: seq<CartItem>)
    ensures var r := Distributors(items);
      forall i, j :: 0 <= i < j < |r| ==> FirstIndex(items, r[i]) < FirstIndex(items, r[j])
  {
    DistributorsOrdered(items);
  }

  lemma {:induction false} DistributorsOrdered(items: seq<CartItem>)
    ensures InFirstOrder(items, Distributors(items))
  {
    if |items| > 0 {
      var init := items[..|items| - 1];
      var x := items[|items| - 1];
      var d := x.product.distributorId;
      var ds := Distributors(init);
      assert items == init + [x];
      DistributorsOrdered(init);
      DistributorsSnoc(init, x);
      OrderKeptOnSnoc(init, x, ds);
      if d !in ds {
        NewSupplierFirst(init, x);
        OrderExtends(init + [x], ds, d);
      }
    }
  }

  /** A supplier without lines has an empty group. */
  lemma GroupOfAbsent(items: seq<CartItem>, d: string)
    requires d !in Distributors(items)
    ensures Group(items, d) == []
  {
  }

  lemma DistributorsSnoc(init: seq<CartItem>, x: CartItem)
    ensures Distributors(init + [x])
         == (var ds := Distributors(init); if x.product.distributorId in ds then ds else ds + [x.product.distributorId])
  {
    assert (init + [x])[..|init|] == init;
  }

  lemma NewSupplierGroup(init: seq<CartItem>, x: CartItem)
    requires x.product.distributorId !in Distributors(init)
    ensures Total(Group(init + [x], x.product.distributorId)) == Subtotal(x)
  {
    var d := x.product.distributorId;
    GroupOfAbsent(init, d);
    assert (init + [x])[..|init|] == init;
    assert Group(init + [x], d) == [x];
    assert [x][..0] == [];
  }

  lemma GroupTotalsExtend(items: seq<CartItem>, ds: seq<string>, d: string)
    ensures GroupTotals(items, ds + [d]) == GroupTotals(items, ds) + Total(Group(items, d))
  {
    assert (ds + [d])[..|ds|] == ds;
  }

  /**
   * The per-supplier totals the panel shows add up to the overall total: the
   * groups split the cart without losing or repeating a line.
   */
  lemma {:induction false} GroupsSumToTotal(items: seq<CartItem>)
    ensures GroupTotals(items, Distributors(items)) == Total(items)
  {
    if |items| > 0 {
      var init := items[..|items| - 1];
      var x := items[|items| - 1];
      assert items == init + [x];
      GroupsSumToTotal(init);
      var ds := Distributors(init);
      GroupTotalsSnoc(init, x, ds);
      DistributorsSnoc(init, x);
      if x.product.distributorId !in ds {
        GroupTotalsExtend(items, ds, x.product.distributorId);
        NewSupplierGroup(init, x);
      }
    }
  }
}

=== FILE: catalog.dfy ===
/**
 * The catalog page: the product filter, the price sort, paging by 100, the
 * page-number strip, the filter toggles and the option lists of the
 * category and brand filters.
 */
module Catalog {
  import opened Wrappers
  import opened Text
  import opened Products

  // ---------------------------------------------------------------------------
  // Filtering
  // ---------------------------------------------------------------------------

  /** The filter state: search text, selected categories, brands and suppliers, and the stock switch. */
  datatype Filters = Filters(
    search: string,
    categories: seq<string>,
    brands: seq<string>,
    distributors: seq<string>,
    hideOutOfStock: bool)

  /** The search text occurs, ignoring case, in the product's name or SKU; the empty search matches all. */
  predicate MatchesSearch(p: Product, search: string) {
    search == "" || Contains(Lower(p.name), Lower(search)) || Contains(Lower(p.sku), Lower(search))
  }

  /** No selection admits every value; a selection admits only its members, never an absent value. */
  predicate Selected(selection: seq<string>, value: Option<string>) {
    |selection| == 0 || (value.Some? && value.value in selection)
  }

  /** The product passes every active filter. */
  predicate Keep(p: Product, f: Filters) {
    !(f.hideOutOfStock && p.stock <= 0)
    && MatchesSearch(p, f.search)
    && Selected(f.categories, p.category)
    && Selected(f.brands, p.brand)
    && Selected(f.distributors, Some(p.distributorId))
  }

  /** The products that pass the filters, in catalog order. */
  function Filter(products: seq<Product>, f: Filters): (r: seq<Product>)
    ensures |r| <= |products|
    ensures forall p :: p in r <==> p in products && Keep(p, f)
  {
    if |products| == 0 then []
    else (if Keep(products[0], f) then [products[0]] else []) + Filter(products[1..], f)
  }

  /** A single product passes the filter exactly when it is kept. */
  lemma FilterOne(p: Product, f: Filters)
    ensures Filter([p], f) == if Keep(p, f) then [p] else []
  {
    assert [p][1..] == [];
  }

  /**
   * The filter works piecewise over the catalog: filtering a concatenation
   * concatenates the filtered parts, so kept products stay in catalog order
   * and every occurrence of a kept product stays.
   */
  lemma {:induction false} FilterAppend(a: seq<Product>, b: seq<Product>, f: Filters)
    ensures Filter(a + b, f) == Filter(a, f) + Filter(b, f)
    decreases |a|
  {
    if |a| == 0 {
      assert a + b == b;
    } else {
      assert (a + b)[0] == a[0];
      assert (a + b)[1..] == a[1..] + b;
      FilterAppend(a[1..], b, f);
    }
  }

  // ---------------------------------------------------------------------------
  // Sorting by price
  // ---------------------------------------------------------------------------

  datatype PriceOrder = PriceAsc | PriceDesc

  /** The sort key: the price, negated for the descending order. */
  function Key(p: Product, order: PriceOrder): real {
    if order == PriceAsc then p.price else -p.price
  }

  predicate SortedBy(s: seq<Product>, order: PriceOrder) {
    forall i, j :: 0 <= i < j < |s| ==> Key(s[i], order) <= Key(s[j], order)
  }

  /** Inserts `x` before the first element whose key is not smaller, so it precedes its equals. */
  function Insert(x: Product, s: seq<Product>, order: PriceOrder): (r: seq<Product>)
    ensures |r| == |s| + 1
  {
    if |s| == 0 || Key(x, order) <= Key(s[0], order) then [x] + s
    else [s[0]] + Insert(x, s[1..], order)
  }

  /** Insertion adds exactly `x`: nothing is lost or duplicated. */
  lemma {:induction false} InsertPermutes(x: Product, s: seq<Product>, order: PriceOrder)
    ensures multiset(Insert(x, s, order)) == multiset(s) + multiset{x}
  {
    if |s| == 0 || Key(x, order) <= Key(s[0], order) {
    } else {
      InsertPermutes(x, s[1..], order);
      assert s == [s[0]] + s[1..];
    }
  }

  /** The comparator sort: stable, by price ascending or descending. */
  function SortByPrice(s: seq<Product>, order: PriceOrder): (r: seq<Product>)
    ensures multiset(r) == multiset(s)
  {
    if |s| == 0 then []
    else
      assert s == [s[0]] + s[1..];
      InsertPermutes(s[0], SortByPrice(s[1..], order), order);
      Insert(s[0], SortByPrice(s[1..], order), order)
  }

  /** The products with sort key `k`, in order. */
  function WithKey(s: seq<Product>, k: real, order: PriceOrder): seq<Product> {
    if |s| == 0 then [] else (if Key(s[0], order) == k then [s[0]] else []) + WithKey(s[1..], k, order)
  }

  // ---------------------------------------------------------------------------
  // Paging
  // ---------------------------------------------------------------------------

  const ItemsPerPage: nat := 100

  /** `Math.ceil(n / 100)`. */
  function TotalPages(n: nat): (r: nat)
    ensures (r - 1) * ItemsPerPage < n <= r * ItemsPerPage || (n == 0 && r == 0)
  {
    (n + ItemsPerPage - 1) / ItemsPerPage
  }

  /** A slice bound as `Array.prototype.slice` resolves it: negative counts from the end, then clamped. */
  function SliceBound(n: nat, k: int): (r: nat)
    ensures r <= n
  {
    if k < 0 then (if n + k < 0 then 0 else n + k) else if k > n then n else k
  }

  /** `s.slice(start, end)`. */
  function Slice<T>(s: seq<T>, start: int, end: int): (r: seq<T>)
    ensures |r| <= |s|
  {
    var from, to := SliceBound(|s|, start), SliceBound(|s|, end);
    if from < to then s[from..to] else []
  }

  /** The products shown on page `current`, counting pages from 1. */
  function Page<T>(s: seq<T>, current: int): (r: seq<T>)
    ensures |r| <= ItemsPerPage
  {
    Slice(s, (current - 1) * ItemsPerPage, current * ItemsPerPage)
  }

  /** An entry of the page-number strip. */
  datatype PageItem = PageNumber(n: int) | Ellipsis

  /** `generatePaginationItems`: every page up to five, else first, last and the neighbourhood of the current page. */
  function PaginationItems(totalPages: nat, current: int): (r: seq<PageItem>)
    ensures totalPages <= 5 ==> |r| == totalPages
    ensures totalPages > 5 ==> |r| == 5 || |r| == 7
  {
    if totalPages <= 5 then seq(totalPages, i requires 0 <= i < totalPages => PageNumber(i + 1))
    else if current <= 3 then [PageNumber(1), PageNumber(2), PageNumber(3), Ellipsis, PageNumber(totalPages)]
    else if current >= totalPages - 2 then
      [PageNumber(1), Ellipsis, PageNumber(totalPages - 2), PageNumber(totalPages - 1), PageNumber(totalPages)]
    else
      [PageNumber(1), Ellipsis, PageNumber(current - 1), PageNumber(current), PageNumber(current + 1), Ellipsis,
       PageNumber(totalPages)]
  }

  // ---------------------------------------------------------------------------
  // Toggles and option lists
  // ---------------------------------------------------------------------------

  /** `toggleFilter`: removes every occurrence of a selected value, else appends it. */
  function Toggle(selection: seq<string>, value: string): (r: seq<string>)
    ensures value in r <==> value !in selection
    ensures forall v :: v != value ==> (v in r <==> v in selection)
  {
    if value in selection then RemoveAll(selection, value) else selection + [value]
  }

  function RemoveAll(s: seq<string>, value: string): (r: seq<string>)
    ensures forall v :: v in r <==> v in s && v != value
  {
    if |s| == 0 then [] else (if s[0] == value then [] else [s[0]]) + RemoveAll(s[1..], value)
  }

  predicate StrictlySorted(s: seq<string>) {
    forall i, j :: 0 <= i < j < |s| ==> StrLess(s[i], s[j])
  }

  /** Adds `x` to a strictly sorted list unless it is already there. */
  function InsertString(x: string, s: seq<string>): (r: seq<string>)
    requires StrictlySorted(s)
    ensures StrictlySorted(r)
    ensures forall v :: v in r <==> v in s || v == x
  {
    if |s| == 0 then [x]
    else if x == s[0] then s
    else if StrLess(x, s[0]) then
      assert forall j :: 0 <= j < |s| ==> StrLess(x, s[j]) by {
        forall j | 0 <= j < |s| ensures StrLess(x, s[j]) {
          if j > 0 { StrLessTransitive(x, s[0], s[j]); }
        }
      }
      [x] + s
    else
      StrLessTotal(x, s[0]);
      var rest := InsertString(x, s[1..]);
      assert forall v :: v in rest ==> StrLess(s[0], v) by {
        forall v | v in rest ensures StrLess(s[0], v) {
          if v != x {
            var j :| 0 <= j < |s[1..]| && s[1..][j] == v;
            assert s[j + 1] == v;
          }
        }
      }
      [s[0]] + rest
  }

  /** The truthy values among the options, each once, in the default string order. */
  function AvailableValues(values: seq<Option<string>>): (r: seq<string>)
    ensures StrictlySorted(r)
    ensures forall v :: v in r <==> Some(v) in values && v != ""
  {
    if |values| == 0 then []
    else
      var rest := AvailableValues(values[..|values| - 1]);
      var last := values[|values| - 1];
      assert forall o :: o in values <==> o in values[..|values| - 1] || o == last by {
        assert values == values[..|values| - 1] + [last];
      }
      if last.Some? && last.value != "" then InsertString(last.value, rest) else rest
  }

  /** The category filter's options. */
  function AvailableCategories(products: seq<Product>): seq<string> {
    AvailableValues(seq(|products|, i requires 0 <= i < |products| => products[i].category))
  }

  /** The brand filter's options. */
  function AvailableBrands(products: seq<Product>): seq<string> {
    AvailableValues(seq(|products|, i requires 0 <= i < |products| => products[i].brand))
  }

  /** The list the grid pages through: the filtered products sorted by price. */
  function Visible(products: seq<Product>, f: Filters, order: PriceOrder): (r: seq<Product>)
    ensures multiset(r) == multiset(Filter(products, f))
  {
    SortByPrice(Filter(products, f), order)
  }

  // ---------------------------------------------------------------------------
  // Properties
  // ---------------------------------------------------------------------------

  /** With no search, no selection and out-of-stock products shown, the filter keeps the whole catalog in order. */
  lemma {:induction false} NoFiltersKeepAll(products: seq<Product>)
    ensures Filter(products, Filters("", [], [], [], false)) == products
  {
    if |products| > 0 {
      NoFiltersKeepAll(products[1..]);
      assert products == [products[0]] + products[1..];
    }
  }

  /** Hiding out-of-stock products leaves none with stock zero or less. */
  lemma HiddenStock(products: seq<Product>, f: Filters)
    requires f.hideOutOfStock
    ensures forall p :: p in Filter(products, f) ==> p.stock > 0
  {
  }

  lemma {:induction false} InsertBound(x: Product, s: seq<Product>, order: PriceOrder, bound: real)
    requires bound <= Key(x, order)
    requires forall j :: 0 <= j < |s| ==> bound <= Key(s[j], order)
    ensures forall j :: 0 <= j < |Insert(x, s, order)| ==> bound <= Key(Insert(x, s, order)[j], order)
  {
    if |s| > 0 && Key(x, order) > Key(s[0], order) {
      InsertBound(x, s[1..], order, bound);
    }
  }

  lemma {:induction false} InsertSorted(x: Product, s: seq<Product>, order: PriceOrder)
    requires SortedBy(s, order)
    ensures SortedBy(Insert(x, s, order), order)
  {
    if |s| > 0 && Key(x, order) > Key(s[0], order) {
      InsertSorted(x, s[1..], order);
      InsertBound(x, s[1..], order, Key(s[0], order));
    }
  }

  /** The price sort orders the list by price, ascending or descending. */
  lemma {:induction false} SortByPriceSorted(s: seq<Product>, order: PriceOrder)
    ensures SortedBy(SortByPrice(s, order), order)
  {
    if |s| > 0 {
      SortByPriceSorted(s[1..], order);
      InsertSorted(s[0], SortByPrice(s[1..], order), order);
    }
  }

  lemma WithKeyCons(y: Product, t: seq<Product>, k: real, order: PriceOrder)
    ensures WithKey([y] + t, k, order) == (if Key(y, order) == k then [y] else []) + WithKey(t, k, order)
  {
    assert ([y] + t)[1..] == t;
  }

  lemma {:induction false} InsertWithKey(x: Product, s: seq<Product>, k: real, order: PriceOrder)
    ensures WithKey(Insert(x, s, order), k, order)
         == (if Key(x, order) == k then [x] else []) + WithKey(s, k, order)
  {
    if |s| == 0 || Key(x, order) <= Key(s[0], order) {
      WithKeyCons(x, s, k, order);
    } else {
      var tail := Insert(x, s[1..], order);
      var rest := WithKey(s[1..], k, order);
      InsertWithKey(x, s[1..], k, order);
      WithKeyCons(s[0], tail, k, order);
      WithKeyCons(s[0], s[1..], k, order);
      assert [s[0]] + s[1..] == s;
      if Key(x, order) == k {
        assert [x] + rest == WithKey(tail, k, order);
        assert WithKey(s, k, order) == rest;
      } else {
        assert rest == WithKey(tail, k, order);
      }
    }
  }

  /**
   * The sort is stable: products with the same price keep their catalog
   * order, as the comparator sort the page calls guarantees.
   */
  lemma {:induction false} SortByPriceStable(s: seq<Product>, k: real, order: PriceOrder)
    ensures WithKey(SortByPrice(s, order), k, order) == WithKey(s, k, order)
  {
    if |s| > 0 {
      SortByPriceStable(s[1..], k, order);
      InsertWithKey(s[0], SortByPrice(s[1..], order), k, order);
    }
  }

  /** Page `current` (from 1) is the run of at most 100 products starting at (current - 1)·100. */
  lemma PageRange<T>(s: seq<T>, current: int)
    requires current >= 1
    ensures var from := (current - 1) * ItemsPerPage;
            var to := if current * ItemsPerPage < |s| then current * ItemsPerPage else |s|;
      Page(s, current) == if from < to then s[from..to] else []
  {
  }

  /** The concatenation of the pages, in order. */
  function Concat<T>(pages: seq<seq<T>>): seq<T> {
    if |pages| == 0 then [] else Concat(pages[..|pages| - 1]) + pages[|pages| - 1]
  }

  /** Pages 1..k. */
  function Pages<T>(s: seq<T>, k: nat): (r: seq<seq<T>>)
    ensures |r| == k && forall i :: 0 <= i < k ==> r[i] == Page(s, i + 1)
  {
    seq(k, i requires 0 <= i < k => Page(s, i + 1))
  }

  /** The first `k` pages cover the list up to position k·100. */
  lemma {:induction false} PagesPrefix<T>(s: seq<T>, k: nat)
    ensures Concat(Pages(s, k))
         == s[..if k * ItemsPerPage < |s| then k * ItemsPerPage else |s|]
  {
    var pages := Pages(s, k);
    if k > 0 {
      assert pages[..k - 1] == Pages(s, k - 1);
      PagesPrefix(s, k - 1);
      PageRange(s, k);
      var a := if (k - 1) * ItemsPerPage < |s| then (k - 1) * ItemsPerPage else |s|;
      var b := if k * ItemsPerPage < |s| then k * ItemsPerPage else |s|;
      if a < b {
        assert s[..a] + s[a..b] == s[..b];
      } else {
        assert a == b;
      }
    }
  }

  /**
   * Paging loses and repeats nothing: the pages 1..TotalPages, concatenated,
   * are the list; each page holds at most 100 products, and the pages past
   * the last are empty.
   */
  lemma PagesCoverList<T>(s: seq<T>)
    ensures Concat(Pages(s, TotalPages(|s|))) == s
    ensures forall current :: current > TotalPages(|s|) ==> Page(s, current) == []
  {
    var k := TotalPages(|s|);
    PagesPrefix(s, k);
    assert (if k * ItemsPerPage < |s| then k * ItemsPerPage else |s|) == |s|;
    assert s[..|s|] == s;
    forall current | current > TotalPages(|s|) ensures Page(s, current) == [] {
      PageRange(s, current);
    }
  }

  /**
   * Beyond five pages the strip starts at page 1, ends at the last page,
   * shows the current page, and lists its page numbers strictly increasing
   * within 1..totalPages.
   */
  lemma PaginationShape(totalPages: nat, current: int)
    requires totalPages > 5 && 1 <= current <= totalPages
    ensures var r := PaginationItems(totalPages, current);
      && r[0] == PageNumber(1) && r[|r| - 1] == PageNumber(totalPages)
      && PageNumber(current) in r
      && (forall i, j :: 0 <= i < j < |r| && r[i].PageNumber? && r[j].PageNumber? ==> r[i].n < r[j].n)
      && (forall i :: 0 <= i < |r| && r[i].PageNumber? ==> 1 <= r[i].n <= totalPages)
  {
  }

  /** Up to five pages the strip lists every page once, in order. */
  lemma PaginationSmall(totalPages: nat, current: int)
    requires totalPages <= 5
    ensures forall i :: 0 <= i < totalPages ==> PaginationItems(totalPages, current)[i] == PageNumber(i + 1)
  {
  }

  /** Toggling a value on and off again restores the selection. */
  lemma ToggleTwice(selection: seq<string>, value: string)
    requires value !in selection
    ensures Toggle(Toggle(selection, value), value) == selection
  {
    RemoveAllAbsent(selection + [value], value, |selection|);
  }

  lemma {:induction false} RemoveAllAbsent(s: seq<string>, value: string, n: nat)
    requires n <= |s| && value !in s[..n] && forall i :: n <= i < |s| ==> s[i] == value
    ensures RemoveAll(s, value) == s[..n]
  {
    if |s| > 0 {
      if n > 0 {
        assert s[1..][..n - 1] == s[..n][1..];
        RemoveAllAbsent(s[1..], value, n - 1);
        assert s[..n] == [s[0]] + s[1..][..n - 1];
      } else {
        RemoveAllAbsent(s[1..], value, 0);
      }
    }
  }

  lemma SortedHeadLeast(a: seq<string>, v: string)
    requires StrictlySorted(a) && v in a && v != a[0]
    ensures StrLess(a[0], v)
  {
  }

  /** Two strictly sorted lists with the same members are equal: the option list is determined by its members. */
  lemma {:induction false} StrictlySortedUnique(a: seq<string>, b: seq<string>)
    requires StrictlySorted(a) && StrictlySorted(b)
    requires forall v :: v in a <==> v in b
    ensures a == b
  {
    if |b| > 0 {
      assert b[0] in a;
    }
    if |a| > 0 {
      assert a[0] in b;
      if a[0] != b[0] {
        SortedHeadLeast(a, b[0]);
        SortedHeadLeast(b, a[0]);
        StrLessTransitive(a[0], b[0], a[0]);
        StrLessIrreflexive(a[0]);
      }
      assert a == [a[0]] + a[1..] && b == [b[0]] + b[1..];
      forall v ensures v in a[1..] <==> v in b[1..] {
        if v in a[1..] {
          var j :| 0 <= j < |a[1..]| && a[1..][j] == v;
          assert StrLess(a[0], a[j + 1]);
          StrLessIrreflexive(v);
          assert v in b;
          var k :| 0 <= k < |b| && b[k] == v;
          assert b[1..][k - 1] == v;
        }
        if v in b[1..] {
          var j :| 0 <= j < |b[1..]| && b[1..][j] == v;
          assert StrLess(b[0], b[j + 1]);
          StrLessIrreflexive(v);
          assert v in a;
          var k :| 0 <= k < |a| && a[k] == v;
          assert a[1..][k - 1] == v;
        }
      }
      StrictlySortedUnique(a[1..], b[1..]);
    }
  }
}

=== FILE: import.dfy ===
/**
 * `importProductsFromExcel`: turn the data rows of an uploaded sheet into
 * product records through a supplier's confirmed column mapping, and append
 * the retained records to the product store.
 */
module Import {
  import opened Text
  import opened Wrappers
  import opened JsNumber
  import opened Products
  import opened Sheet

  datatype ImportError =
    | NoData                                           // fewer than two rows
    | NoMappingConfigured                              // the supplier has no mapping, or an empty one
    | MissingMappedColumns(missing: set<(string, string)>)  // (field key, label) pairs absent from this file

  /** The records an import produced and the product store after it. */
  datatype ImportOutcome = ImportOutcome(imported: seq<Product>, store: seq<Product>)

  /** `columns.findIndex(col => col === target)`. */
  function IndexOf(cols: seq<string>, target: string): (r: Option<nat>)
    ensures r.Some? ==> r.value < |cols| && cols[r.value] == target
    ensures r.Some? ==> forall j :: 0 <= j < r.value ==> cols[j] != target
    ensures r.None? <==> target !in cols
  {
    if |cols| == 0 then None
    else if cols[0] == target then Some(0)
    else match IndexOf(cols[1..], target)
      case None => None
      case Some(i) => Some(i + 1)
  }

  /** `getValue(mapping[key])`: the row's cell under the label the field is mapped to. */
  function Lookup(m: Mapping, key: string, cols: seq<string>, row: Row): Cell {
    if key !in m || m[key] == "" then Empty
    else match IndexOf(cols, m[key])
      case None => Empty
      case Some(i) => if i < |row| then row[i] else Empty
  }

  /** `String(value || fallback)`. */
  function TextOr(c: Cell, fallback: string): string {
    if Truthy(c) then CellString(c) else fallback
  }

  /** `value ? String(value).trim() : undefined`. */
  function OptionalText(c: Cell): Option<string> {
    if Truthy(c) then Some(Trim(CellString(c))) else None
  }

  function SkuFallback(supplierId: string, index: nat): string {
    "SKU-" + supplierId + "-" + NatToString(index)
  }

  const NameFallback: string := "Sin nombre"

  /** `parseFloat(String(value || 0))`, with `NaN` replaced by 0. */
  function PriceOf(c: Cell): real {
    match ParseFloat(TextOr(c, "0"))
    case NaN => 0.0
    case Finite(v) => v
  }

  /** `parseInt(String(value || 0))`, with `NaN` replaced by 0. */
  function StockOf(c: Cell): int {
    ParseInt(TextOr(c, "0")).GetOr(0)
  }

  /** `value ? parseFloat(String(value)) : undefined`; a text that does not parse gives `NaN`. */
  function VatOf(c: Cell): Option<Number> {
    if Truthy(c) then Some(ParseFloat(CellString(c))) else None
  }

  /** The record built from data row number `index` (its position among the non-empty data rows). */
  function BuildProduct(supplierId: string, cols: seq<string>, m: Mapping, row: Row, index: nat): Product {
    var sku := Trim(TextOr(Lookup(m, "sku", cols, row), SkuFallback(supplierId, index)));
    var name := Trim(TextOr(Lookup(m, "name", cols, row), NameFallback));
    Product(
      supplierId + "-" + sku + "-" + NatToString(index),
      sku,
      name,
      OptionalText(Lookup(m, "description", cols, row)),
      PriceOf(Lookup(m, "price", cols, row)),
      StockOf(Lookup(m, "stock", cols, row)),
      OptionalText(Lookup(m, "category", cols, row)),
      OptionalText(Lookup(m, "brand", cols, row)),
      OptionalText(Lookup(m, "imageUrl", cols, row)),
      supplierId,
      VatOf(Lookup(m, "vat", cols, row)))
  }

  /** `rows.map((row, index) => …)`. */
  function BuildAll(supplierId: string, cols: seq<string>, m: Mapping, rows: seq<Row>): (r: seq<Product>)
    ensures |r| == |rows|
  {
    seq(|rows|, i requires 0 <= i < |rows| => BuildProduct(supplierId, cols, m, rows[i], i))
  }

  /** `.filter(p => p.sku && p.name)`. */
  predicate Retained(p: Product) {
    p.sku != "" && p.name != ""
  }

  function KeepRetained(ps: seq<Product>): (r: seq<Product>)
    ensures |r| <= |ps|
    ensures forall p :: p in r <==> p in ps && Retained(p)
  {
    if |ps| == 0 then []
    else (if Retained(ps[0]) then [ps[0]] else []) + KeepRetained(ps[1..])
  }

  /** The import once the rows are decoded: mapping checks, record building, store update. */
  function ImportFrom(store: seq<Product>, supplierId: string, rows: seq<Row>, cols: seq<string>,
                      mapping: Option<Mapping>): (r: Result<ImportOutcome, ImportError>)
    ensures r.Ok? <==> mapping.Some? && |mapping.value| > 0 && StaleEntries(mapping.value, cols) == {}
    ensures r.Err? ==> r.error != NoData
    ensures r.Err? && r.error.MissingMappedColumns? ==>
      mapping.Some? && r.error.missing == StaleEntries(mapping.value, cols) && r.error.missing != {}
    ensures r.Ok? ==> r.value.store == store + r.value.imported
    ensures r.Ok? ==> forall p :: p in r.value.imported ==> Retained(p) && p.distributorId == supplierId
  {
    if mapping.None? || |mapping.value| == 0 then Err(NoMappingConfigured)
    else
      var m := mapping.value;
      var missing := StaleEntries(m, cols);
      if missing != {} then Err(MissingMappedColumns(missing))
      else
        var ps := KeepRetained(BuildAll(supplierId, cols, m, rows));
        Ok(ImportOutcome(ps, store + ps))
  }

  /**
   * The column labels of an uploaded file as the import computes them. The
   * rows are decoded with the same default value as the preview, so these are
   * exactly the labels the mapping was confirmed against.
   */
  function ImportColumns(raw: Grid): seq<string> {
    var g := PadRows(raw);
    if |g| == 0 then [] else Labels(g[DetectHeader(g)])
  }

  /** The non-empty rows below the detected header, decoded as the preview decodes them. */
  function ImportRows(raw: Grid): seq<Row> {
    var g := PadRows(raw);
    if |g| == 0 then [] else DataRows(g, DetectHeader(g))
  }

  /** `importProductsFromExcel`, with the file decoded as the preview decodes it. */
  function ImportProducts(store: seq<Product>, supplierId: string, raw: Grid, mapping: Option<Mapping>)
    : (r: Result<ImportOutcome, ImportError>)
    ensures r == Err(NoData) <==> |raw| < 2
    ensures |raw| >= 2 && (mapping.None? || |mapping.value| == 0) ==> r == Err(NoMappingConfigured)
    ensures r.Ok? <==>
      |raw| >= 2 && mapping.Some? && |mapping.value| > 0 && StaleEntries(mapping.value, ImportColumns(raw)) == {}
    ensures r.Err? && r.error.MissingMappedColumns? ==>
      r.error.missing == StaleEntries(mapping.value, ImportColumns(raw))
    ensures r.Ok? ==> r.value.store == store + r.value.imported
    ensures r.Ok? ==> forall p :: p in r.value.imported ==> p.sku != "" && p.name != "" && p.distributorId == supplierId
  {
    if |raw| < 2 then Err(NoData)
    else
      var r := ImportFrom(store, supplierId, ImportRows(raw), ImportColumns(raw), mapping);
      r
  }

  // ---------------------------------------------------------------------------
  // The import as written: header cells the decoder leaves out are skipped
  // ---------------------------------------------------------------------------

  /** The row without its trailing absent cells: the length of the array the decoder returns. */
  function StripTrailing(row: Row): (r: Row)
    ensures |r| <= |row| && r == row[..|r|]
    ensures |r| > 0 ==> r[|r| - 1] != Empty
    ensures forall i :: |r| <= i < |row| ==> row[i] == Empty
  {
    if |row| > 0 && row[|row| - 1] == Empty then StripTrailing(row[..|row| - 1]) else row
  }

  /**
   * `headerRow.map(...).filter(...)` over a sparse array: absent cells are
   * skipped, so the labels of the present cells close up. Each label still
   * uses the cell's original position for its letter. The `idx < 10 ||
   * non-empty` filter removes no label and is not repeated here.
   */
  function PresentLabels(header: Row, i: nat): seq<string>
    decreases |header| - i
  {
    if i >= |header| then []
    else (if header[i] == Empty then [] else [RawLabel(header[i], i)]) + PresentLabels(header, i + 1)
  }

  function ImportLabelsAsWritten(row: Row): seq<string> {
    var header := StripTrailing(row);
    var cols := PresentLabels(header, 0);
    if AllPlaceholders(cols) then Numbered(Max(|cols|, |header|)) else cols
  }

  /** `importProductsFromExcel` as written: the sheet is decoded without a default value. */
  function ImportProductsAsWritten(store: seq<Product>, supplierId: string, raw: Grid, mapping: Option<Mapping>)
    : (r: Result<ImportOutcome, ImportError>)
    ensures r == Err(NoData) <==> |raw| < 2
  {
    if |raw| < 2 then Err(NoData)
    else
      var h := DetectHeader(raw);
      ImportFrom(store, supplierId, DataRows(raw, h), ImportLabelsAsWritten(raw[h]), mapping)
  }

  // ---------------------------------------------------------------------------
  // Properties
  // ---------------------------------------------------------------------------

  /** The generated SKU has no surrounding spaces, so trimming keeps it. */
  lemma SkuFallbackTrimmed(supplierId: string, index: nat)
    ensures Trim(SkuFallback(supplierId, index)) == SkuFallback(supplierId, index)
    ensures SkuFallback(supplierId, index) != ""
  {
    var s := SkuFallback(supplierId, index);
    var d := NatToString(index);
    assert s[0] == 'S';
    assert TrimStart(s) == s;
    assert s[|s| - 1] == d[|d| - 1];
    assert TrimEnd(s) == s;
  }

  /**
   * The field values of one record: empty cells fall back (`SKU-<supplier>-<index>`,
   * `Sin nombre`), other sku and name cells are trimmed, the id joins
   * supplier, sku and index, and each optional text field is absent exactly
   * when its cell is falsy and otherwise holds the cell's trimmed text.
   */
  lemma BuildProductFields(supplierId: string, cols: seq<string>, m: Mapping, row: Row, index: nat)
    ensures var p := BuildProduct(supplierId, cols, m, row, index);
      var sku := Lookup(m, "sku", cols, row);
      var name := Lookup(m, "name", cols, row);
      && (!Truthy(sku) ==> p.sku == SkuFallback(supplierId, index))
      && (Truthy(sku) ==> p.sku == Trim(CellString(sku)))
      && (!Truthy(name) ==> p.name == NameFallback)
      && (Truthy(name) ==> p.name == Trim(CellString(name)))
      && p.id == supplierId + "-" + p.sku + "-" + NatToString(index)
      && p.distributorId == supplierId
      && (p.description.None? <==> !Truthy(Lookup(m, "description", cols, row)))
      && (Truthy(Lookup(m, "description", cols, row)) ==>
            p.description == Some(Trim(CellString(Lookup(m, "description", cols, row)))))
      && (p.category.None? <==> !Truthy(Lookup(m, "category", cols, row)))
      && (Truthy(Lookup(m, "category", cols, row)) ==>
            p.category == Some(Trim(CellString(Lookup(m, "category", cols, row)))))
      && (p.brand.None? <==> !Truthy(Lookup(m, "brand", cols, row)))
      && (Truthy(Lookup(m, "brand", cols, row)) ==>
            p.brand == Some(Trim(CellString(Lookup(m, "brand", cols, row)))))
      && (p.imageUrl.None? <==> !Truthy(Lookup(m, "imageUrl", cols, row)))
      && (Truthy(Lookup(m, "imageUrl", cols, row)) ==>
            p.imageUrl == Some(Trim(CellString(Lookup(m, "imageUrl", cols, row)))))
      && p.price == PriceOf(Lookup(m, "price", cols, row))
      && (!Truthy(Lookup(m, "price", cols, row)) ==> p.price == 0.0)
      && (!Truthy(Lookup(m, "stock", cols, row)) ==> p.stock == 0)
      && (Truthy(Lookup(m, "stock", cols, row)) ==>
            p.stock == ParseInt(CellString(Lookup(m, "stock", cols, row))).GetOr(0))
      && (p.vat.None? <==> !Truthy(Lookup(m, "vat", cols, row)))
      && (Truthy(Lookup(m, "vat", cols, row)) ==>
            p.vat == Some(ParseFloat(CellString(Lookup(m, "vat", cols, row)))))
  {
    SkuFallbackTrimmed(supplierId, index);
    ParseRendered(0);
    assert NatToString(0) == "0";
    assert Trim(NameFallback) == NameFallback by {
      assert TrimStart(NameFallback) == NameFallback;
      assert TrimEnd(NameFallback) == NameFallback;
    }
  }

  /**
   * A record is dropped only when its sku or name cell holds text made of
   * spaces alone: an empty cell falls back to a non-empty value instead.
   */
  lemma DroppedOnlyForBlankText(supplierId: string, cols: seq<string>, m: Mapping, row: Row, index: nat)
    requires !Retained(BuildProduct(supplierId, cols, m, row, index))
    ensures var sku := Lookup(m, "sku", cols, row);
            var name := Lookup(m, "name", cols, row);
      (Truthy(sku) && Trim(CellString(sku)) == "") || (Truthy(name) && Trim(CellString(name)) == "")
  {
    BuildProductFields(supplierId, cols, m, row, index);
    assert NameFallback != "";
  }

  /**
   * A cell whose text is not a number gives price 0 (and stock 0), while the
   * same text in the VAT column gives a `NaN` rate, not an absent one. Text
   * starting with `Infinity` is a number to `parseFloat` and is excluded.
   */
  lemma NonNumericCell(s: string)
    requires s != "" && var t := TrimStart(s); |t| == 0 || !(IsDigit(t[0]) || t[0] in {'+', '-', '.'})
    requires !StartsWith(TrimStart(s), "Infinity")
    ensures PriceOf(Str(s)) == 0.0 && StockOf(Str(s)) == 0
    ensures VatOf(Str(s)) == Some(NaN)
  {
    ParseFloatNoDigits(s);
  }

  /** A single record is kept exactly when it is retained. */
  lemma KeepRetainedOne(x: Product)
    ensures KeepRetained([x]) == if Retained(x) then [x] else []
  {
    assert [x][1..] == [];
  }

  /** The filter works piecewise: filtering a concatenation concatenates the filtered parts, in order. */
  lemma {:induction false} KeepRetainedAppend(a: seq<Product>, b: seq<Product>)
    ensures KeepRetained(a + b) == KeepRetained(a) + KeepRetained(b)
    decreases |a|
  {
    if |a| == 0 {
      assert a + b == b;
    } else {
      assert (a + b)[0] == a[0];
      assert (a + b)[1..] == a[1..] + b;
      KeepRetainedAppend(a[1..], b);
    }
  }

  /**
   * A retained record keeps its place: it follows exactly the retained
   * records before it, so the filter keeps the input order and drops only
   * the records that are not retained.
   */
  lemma KeepRetainedAt(ps: seq<Product>, i: nat)
    requires i < |ps| && Retained(ps[i])
    ensures var k := |KeepRetained(ps[..i])|;
      k < |KeepRetained(ps)| && KeepRetained(ps)[k] == ps[i]
  {
    assert ps == ps[..i] + ([ps[i]] + ps[i + 1..]);
    KeepRetainedAppend(ps[..i], [ps[i]] + ps[i + 1..]);
    KeepRetainedAppend([ps[i]], ps[i + 1..]);
    KeepRetainedOne(ps[i]);
  }

  /** The imported records are the retained records of the data rows, in row order. */
  lemma ImportedIsFilteredBuild(store: seq<Product>, supplierId: string, raw: Grid, mapping: Option<Mapping>)
    ensures ImportProducts(store, supplierId, raw, mapping).Ok? ==>
      ImportProducts(store, supplierId, raw, mapping).value.imported ==
        KeepRetained(BuildAll(supplierId, ImportColumns(raw), mapping.value, ImportRows(raw)))
  {
    if |raw| >= 2 {
      var r := ImportFrom(store, supplierId, ImportRows(raw), ImportColumns(raw), mapping);
      assert ImportProducts(store, supplierId, raw, mapping) == r;
    }
  }

  /**
   * Where record `i` of a list ends up after the filter: right after the
   * retained records before it when it is retained, nowhere otherwise; the
   * filtered list from that point on is the filter of the rest.
   */
  lemma KeepRetainedSplit(ps: seq<Product>, i: nat)
    requires i < |ps|
    ensures var kept := KeepRetained(ps);
      var before := |KeepRetained(ps[..i])|;
      && (Retained(ps[i]) ==> before < |kept| && kept[before] == ps[i])
      && (!Retained(ps[i]) ==> KeepRetained(ps[..i + 1]) == KeepRetained(ps[..i]))
      && before <= |kept| && kept[before..] == KeepRetained(ps[i..])
  {
    if Retained(ps[i]) {
      KeepRetainedAt(ps, i);
    } else {
      assert ps[..i + 1] == ps[..i] + [ps[i]];
      KeepRetainedAppend(ps[..i], [ps[i]]);
      KeepRetainedOne(ps[i]);
    }
    assert ps == ps[..i] + ps[i..];
    KeepRetainedAppend(ps[..i], ps[i..]);
  }

  /**
   * `d` lists, in order, exactly the rows of `raw` below row `h` that hold
   * some text, each padded to the sheet's width: `d[i]` is sheet row
   * `DataIndices(PadRows(raw), h + 1)[i]`.
   */
  ghost predicate ListsDataRowsBelow(raw: Grid, h: nat, d: seq<Row>) {
    var idx := DataIndices(PadRows(raw), h + 1);
    && |d| == |idx|
    && (forall i :: 0 <= i < |idx| ==> h < idx[i] < |raw|)
    && (forall i, j :: 0 <= i < j < |idx| ==> idx[i] < idx[j])
    && (forall k :: k in idx <==> h < k < |raw| && HasData(raw[k]))
    && (forall i :: 0 <= i < |idx| ==> d[i] == PadRow(raw[idx[i]], Width(raw)))
  }

  /** The data rows below any header row of the padded sheet, stated on the rows as they arrive. */
  lemma PaddedDataRows(raw: Grid, h: nat)
    ensures ListsDataRowsBelow(raw, h, DataRows(PadRows(raw), h))
  {
    var g := PadRows(raw);
    DataRowsSpec(g, h);
    forall k | 0 <= k < |raw|
      ensures HasData(g[k]) == HasData(raw[k])
    {
      PadKeepsData(raw[k], Width(raw));
    }
  }

  /**
   * The rows the import reads are, in order, exactly the sheet rows below
   * the detected header that hold some text, padded to the sheet's width.
   */
  lemma ImportRowsAreDataRows(raw: Grid)
    ensures |raw| == 0 ==> ImportRows(raw) == []
    ensures |raw| > 0 ==> ListsDataRowsBelow(raw, DetectHeader(PadRows(raw)), ImportRows(raw))
  {
    if |raw| > 0 {
      var g := PadRows(raw);
      var h := DetectHeader(g);
      assert ImportRows(raw) == DataRows(g, h);
      PaddedDataRows(raw, h);
    }
  }

  /**
   * The preview and the import see the same rows: the preview's labels are
   * the import's columns, and its sample is the records of the first five
   * rows the import reads.
   */
  lemma PreviewSampleIsImportRows(raw: Grid)
    ensures ParseExcelFile(raw).Ok? ==>
      var p := ParseExcelFile(raw).value;
      var d := ImportRows(raw);
      && p.headerRow == DetectHeader(PadRows(raw))
      && p.columns == ImportColumns(raw)
      && p.sample == seq(Min(SampleSize, |d|), i requires 0 <= i < Min(SampleSize, |d|) => Record(p.columns, d[i]))
  {
    if |raw| > 0 {
      var g := PadRows(raw);
      var h := DetectHeader(g);
      var rest := if h + 1 <= |g| then g[h + 1..] else [];
      SampleIsFirstDataRows(rest, Labels(g[h]), SampleSize);
    }
  }

  /** Record `i` of the import is built from the `i`-th sheet row below the header that holds some text. */
  lemma BuiltFromSheetRow(supplierId: string, cols: seq<string>, m: Mapping, raw: Grid, i: nat)
    ensures i < |ImportRows(raw)| ==>
      var idx := DataIndices(PadRows(raw), DetectHeader(PadRows(raw)) + 1);
      && |idx| == |ImportRows(raw)|
      && DetectHeader(PadRows(raw)) < idx[i] < |raw| && HasData(raw[idx[i]])
      && BuildAll(supplierId, cols, m, ImportRows(raw))[i] ==
           BuildProduct(supplierId, cols, m, PadRow(raw[idx[i]], Width(raw)), i)
  {
    ImportRowsAreDataRows(raw);
    if i < |ImportRows(raw)| {
      var idx := DataIndices(PadRows(raw), DetectHeader(PadRows(raw)) + 1);
      assert idx[i] in idx;
      var row := ImportRows(raw)[i];
      assert row == PadRow(raw[idx[i]], Width(raw));
      assert BuildAll(supplierId, cols, m, ImportRows(raw))[i] == BuildProduct(supplierId, cols, m, row, i);
    }
  }

  /**
   * Data row `i` is sheet row `k`, the `i`-th row below the header that
   * holds some text (`ImportRowsAreDataRows` lists them). Its record is built
   * from that row with index `i`, and lands in the store when it is retained,
   * right after the records of the retained rows before it: the import
   * keeps row order and skips only the records without a SKU or a name.
   */
  lemma ImportedRecordAt(store: seq<Product>, supplierId: string, raw: Grid, mapping: Option<Mapping>, i: nat)
    ensures ImportProducts(store, supplierId, raw, mapping).Ok? && i < |ImportRows(raw)| ==>
      var imported := ImportProducts(store, supplierId, raw, mapping).value.imported;
      var h := DetectHeader(PadRows(raw));
      var idx := DataIndices(PadRows(raw), h + 1);
      var built := BuildAll(supplierId, ImportColumns(raw), mapping.value, ImportRows(raw));
      var before := |KeepRetained(built[..i])|;
      && |idx| == |ImportRows(raw)|
      && h < idx[i] < |raw| && HasData(raw[idx[i]])
      && built[i] == BuildProduct(supplierId, ImportColumns(raw), mapping.value, PadRow(raw[idx[i]], Width(raw)), i)
      && (Retained(built[i]) ==> before < |imported| && imported[before] == built[i])
      && (!Retained(built[i]) ==> KeepRetained(built[..i + 1]) == KeepRetained(built[..i]))
      && before <= |imported| && imported[before..] == KeepRetained(built[i..])
  {
    if ImportProducts(store, supplierId, raw, mapping).Ok? && i < |ImportRows(raw)| {
      ImportedIsFilteredBuild(store, supplierId, raw, mapping);
      KeepRetainedSplit(BuildAll(supplierId, ImportColumns(raw), mapping.value, ImportRows(raw)), i);
      BuiltFromSheetRow(supplierId, ImportColumns(raw), mapping.value, raw, i);
    }
  }
}

=== FILE: mapping.dfy ===
/**
 * The supplier page's column-mapping logic: the canonical field table,
 * auto-mapping of a fresh upload, revalidation of a stored mapping against a
 * new upload, single-field edits, and the confirm and submit gates.
 */
module ColumnMapping {
  import opened Text
  import opened Wrappers
  import opened Products

  /** A canonical product field: its key, its human title and whether a mapping must cover it. */
  datatype Field = Field(key: string, title: string, required: bool)

  const ProductFields: seq<Field> := [
    Field("sku", "SKU", true),
    Field("name", "Nombre", true),
    Field("description", "Descripción", false),
    Field("price", "Precio", true),
    Field("stock", "Stock", true),
    Field("category", "Categoría", false),
    Field("brand", "Marca", false),
    Field("imageUrl", "URL Imagen", false),
    Field("vat", "IVA", false)
  ]

  /** No two fields share a key. */
  lemma FieldKeysDistinct()
    ensures forall i, j :: 0 <= i < j < |ProductFields| ==> ProductFields[i].key != ProductFields[j].key
  {
  }

  /** A field is unmapped when its key is absent or mapped to the empty label. */
  predicate Unmapped(m: Mapping, key: string) {
    key !in m || m[key] == ""
  }

  // ---------------------------------------------------------------------------
  // Auto-mapping
  // ---------------------------------------------------------------------------

  /** The column's trimmed lower-cased text equals or contains the field's lower-cased key or title. */
  predicate ColumnMatches(col: string, f: Field) {
    var c := Trim(Lower(col));
    var k := Lower(f.key);
    var t := Lower(f.title);
    c == k || c == t || Contains(c, k) || Contains(c, t)
  }

  /** `columns.find(col => …)`: the position of the first column matching the field. */
  function FirstMatch(columns: seq<string>, f: Field, i: nat): (r: Option<nat>)
    requires i <= |columns|
    ensures r.Some? ==> i <= r.value < |columns| && ColumnMatches(columns[r.value], f)
    ensures r.Some? ==> forall j :: i <= j < r.value ==> !ColumnMatches(columns[j], f)
    ensures r.None? ==> forall j :: i <= j < |columns| ==> !ColumnMatches(columns[j], f)
    decreases |columns| - i
  {
    if i == |columns| then None
    else if ColumnMatches(columns[i], f) then Some(i)
    else FirstMatch(columns, f, i + 1)
  }

  /** The mapping the fields in `fields` receive from the columns, in field order. */
  function AutoMapFields(columns: seq<string>, fields: seq<Field>): (m: Mapping)
    ensures forall k :: k in m ==> exists i :: 0 <= i < |fields| && fields[i].key == k
    ensures forall k :: k in m ==> m[k] in columns
    decreases |fields|
  {
    if |fields| == 0 then map[]
    else
      var f := fields[|fields| - 1];
      var m := AutoMapFields(columns, fields[..|fields| - 1]);
      match FirstMatch(columns, f, 0)
      case Some(j) => if columns[j] != "" then m[f.key := columns[j]] else m
      case None => m
  }

  /** The auto-mapping of a fresh upload. */
  function AutoMap(columns: seq<string>): (m: Mapping)
    ensures forall k :: k in m ==> m[k] in columns
  {
    AutoMapFields(columns, ProductFields)
  }

  // ---------------------------------------------------------------------------
  // Revalidation and edits
  // ---------------------------------------------------------------------------

  /** A stored mapping checked against a new upload: entries naming a missing column are dropped. */
  function Revalidate(m: Mapping, columns: seq<string>): (r: Mapping)
    ensures r.Keys == m.Keys - set e | e in StaleEntries(m, columns) :: e.0
    ensures forall k :: k in r ==> r[k] == m[k]
    ensures StaleEntries(r, columns) == {}
  {
    map k | k in m && !(m[k] != "" && m[k] !in columns) :: m[k]
  }

  /** Selecting a column for one field; the empty selection removes the field. */
  function EditField(m: Mapping, key: string, choice: string): (r: Mapping)
    ensures key in r <==> choice != ""
    ensures key in r ==> r[key] == choice
    ensures forall k :: k != key ==> (k in r <==> k in m)
    ensures forall k :: k != key && k in r ==> r[k] == m[k]
  {
    if choice != "" then m[key := choice] else m - {key}
  }

  /** ASCII-only case folding, as a case-insensitive regular expression without the Unicode flag applies it to ASCII letters. */
  function AsciiFold(c: char): (r: char)
    ensures 'A' <= c <= 'Z' ==> r as int == c as int + 32
    ensures !('A' <= c <= 'Z') ==> r == c
  {
    if 'A' <= c <= 'Z' then (c as int + 32) as char else c
  }

  /** The name ends, ignoring ASCII case, with `suffix` (given in lower case). */
  predicate EndsWithFolded(name: string, suffix: string) {
    |suffix| <= |name| &&
    forall i :: 0 <= i < |suffix| ==> AsciiFold(name[|name| - |suffix| + i]) == suffix[i]
  }

  /** The upload accepts only names ending in `.xlsx` or `.xls`, in any case. */
  predicate IsExcelFileName(name: string) {
    EndsWithFolded(name, ".xlsx") || EndsWithFolded(name, ".xls")
  }

  /** Why an upload yields no mapping: the file is not a spreadsheet, or the parsed sheet has no column. */
  datatype UploadError = NotExcelFile | NoColumns

  /**
   * The mapping offered after an upload: a supplier being edited keeps its
   * stored mapping, revalidated; otherwise the columns are auto-mapped.
   */
  function MappingAfterUpload(fileName: string, stored: Option<Mapping>, columns: seq<string>)
    : (r: Result<Mapping, UploadError>)
    ensures r == Err(NotExcelFile) <==> !IsExcelFileName(fileName)
    ensures r == Err(NoColumns) <==> IsExcelFileName(fileName) && |columns| == 0
    ensures r.Ok? ==> StaleEntries(r.value, columns) == {}
    ensures r.Ok? && stored.Some? ==>
      r.value.Keys <= stored.value.Keys && forall k :: k in r.value ==> r.value[k] == stored.value[k]
    ensures r.Ok? && stored.None? ==> forall k :: k in r.value ==> r.value[k] in columns
  {
    if !IsExcelFileName(fileName) then Err(NotExcelFile)
    else if |columns| == 0 then Err(NoColumns)
    else if stored.Some? then Ok(Revalidate(stored.value, columns))
    else
      var m := AutoMap(columns);
      assert StaleEntries(m, columns) == {};
      Ok(m)
  }

  // ---------------------------------------------------------------------------
  // Gates
  // ---------------------------------------------------------------------------

  /** The titles of the required fields the mapping leaves unmapped, in field order. */
  function MissingRequired(m: Mapping, fields: seq<Field>): (r: seq<string>)
    ensures forall t :: t in r <==> exists i :: 0 <= i < |fields| && fields[i].required && Unmapped(m, fields[i].key) && fields[i].title == t
    ensures |r| <= |fields|
  {
    if |fields| == 0 then []
    else
      var f := fields[0];
      (if f.required && Unmapped(m, f.key) then [f.title] else []) + MissingRequired(m, fields[1..])
  }

  /** The title shown for a mapping key: the field's title, or the key itself for an extra key. */
  function TitleOf(key: string, fields: seq<Field>): string {
    if |fields| == 0 then key
    else if fields[0].key == key then fields[0].title
    else TitleOf(key, fields[1..])
  }

  datatype GateError =
    | MissingRequiredFields(titles: seq<string>)       // required fields left unmapped
    | InvalidColumns(entries: set<(string, string)>)   // (field title, label) pairs naming no current column

  /** The "confirm mapping" button. */
  function ConfirmMapping(m: Mapping, columns: seq<string>): (r: Result<Mapping, GateError>)
    ensures r.Ok? <==> MissingRequired(m, ProductFields) == [] && StaleEntries(m, columns) == {}
    ensures r.Ok? ==> r.value == m
    ensures r.Err? && r.error.MissingRequiredFields? ==>
      r.error.titles == MissingRequired(m, ProductFields) && r.error.titles != []
    ensures r.Err? && r.error.InvalidColumns? ==>
      MissingRequired(m, ProductFields) == [] &&
      r.error.entries == (set e | e in StaleEntries(m, columns) :: (TitleOf(e.0, ProductFields), e.1)) &&
      r.error.entries != {}
  {
    var missing := MissingRequired(m, ProductFields);
    if missing != [] then Err(MissingRequiredFields(missing))
    else
      var stale := StaleEntries(m, columns);
      if stale != {} then
        var entries := set e | e in stale :: (TitleOf(e.0, ProductFields), e.1);
        var e :| e in stale;
        assert (TitleOf(e.0, ProductFields), e.1) in entries;
        Err(InvalidColumns(entries))
      else Ok(m)
  }

  datatype SubmitError =
    | NameRequired
    | FileRequired
    | MappingRequired
    | RequiredFieldsUnmapped(titles: seq<string>)

  /** The supplier form's submit: what it would save, or why it refuses. */
  datatype SupplierDraft = SupplierDraft(name: string, active: bool, columnMapping: Mapping)

  /** `handleSubmit`: a new supplier needs a name, a file and a mapping; every save needs the required fields mapped. */
  function SubmitSupplier(name: string, active: bool, editing: bool, hasFile: bool, m: Mapping)
    : (r: Result<SupplierDraft, SubmitError>)
    ensures r == Err(NameRequired) <==> name == ""
    ensures r.Ok? <==>
      name != "" && (editing || (hasFile && |m| > 0)) && MissingRequired(m, ProductFields) == []
    ensures r.Ok? ==> r.value == SupplierDraft(name, active, m)
    ensures r == Err(FileRequired) <==> name != "" && !editing && !hasFile
    ensures r == Err(MappingRequired) <==> name != "" && !editing && hasFile && |m| == 0
  {
    if name == "" then Err(NameRequired)
    else if !editing && !hasFile then Err(FileRequired)
    else if !editing && |m| == 0 then Err(MappingRequired)
    else
      var missing := MissingRequired(m, ProductFields);
      if missing != [] then Err(RequiredFieldsUnmapped(missing))
      else Ok(SupplierDraft(name, active, m))
  }

  // ---------------------------------------------------------------------------
  // Properties
  // ---------------------------------------------------------------------------

  /** The entry auto-mapping gives one field: its first matching column, or nothing. */
  predicate MappedToFirstMatch(m: Mapping, columns: seq<string>, f: Field) {
    var j := FirstMatch(columns, f, 0);
    (j.Some? ==> f.key in m && m[f.key] == columns[j.value]) && (j.None? ==> f.key !in m)
  }

  /** A field with a matching column is auto-mapped to the first one; a field without one is left out. */
  lemma {:induction false} AutoMapFieldsFirstMatch(columns: seq<string>, fields: seq<Field>, i: nat)
    requires i < |fields|
    requires forall a, b :: 0 <= a < b < |fields| ==> fields[a].key != fields[b].key
    requires forall a :: 0 <= a < |fields| ==> fields[a].key != "" && fields[a].title != ""
    ensures MappedToFirstMatch(AutoMapFields(columns, fields), columns, fields[i])
    decreases |fields|
  {
    var f := fields[i];
    var init := fields[..|fields| - 1];
    if i < |fields| - 1 {
      AutoMapFieldsFirstMatch(columns, init, i);
      assert init[i] == f;
      LaterFieldKeeps(columns, fields, f.key);
    } else {
      LastFieldMapped(columns, fields);
    }
  }

  /** The last field's own step maps it to its first match. */
  lemma LastFieldMapped(columns: seq<string>, fields: seq<Field>)
    requires |fields| > 0
    requires fields[|fields| - 1].key != "" && fields[|fields| - 1].title != ""
    requires forall a :: 0 <= a < |fields| - 1 ==> fields[a].key != fields[|fields| - 1].key
    ensures MappedToFirstMatch(AutoMapFields(columns, fields), columns, fields[|fields| - 1])
  {
    var f := fields[|fields| - 1];
    var init := fields[..|fields| - 1];
    var m := AutoMapFields(columns, init);
    assert forall a :: 0 <= a < |init| ==> init[a].key != f.key by {
      forall a | 0 <= a < |init| ensures init[a].key != f.key {
        assert init[a] == fields[a];
      }
    }
    match FirstMatch(columns, f, 0)
    case Some(j) =>
      EmptyMatchesNothing(f);
      assert columns[j] != "";
      assert AutoMapFields(columns, fields) == m[f.key := columns[j]];
    case None =>
      assert AutoMapFields(columns, fields) == m;
  }

  /** The last field's step leaves the entry of every other key as it was. */
  lemma LaterFieldKeeps(columns: seq<string>, fields: seq<Field>, key: string)
    requires |fields| > 0 && key != fields[|fields| - 1].key
    ensures var m := AutoMapFields(columns, fields[..|fields| - 1]);
      var r := AutoMapFields(columns, fields);
      (key in r <==> key in m) && (key in r ==> r[key] == m[key])
  {
  }

  /** The empty column matches no field whose key and title are not empty. */
  lemma EmptyMatchesNothing(f: Field)
    requires f.key != "" && f.title != ""
    ensures !ColumnMatches("", f)
  {
    assert Lower("") == "";
    assert TrimStart("") == "" && TrimEnd("") == "";
    assert |Lower(f.key)| > 0 && |Lower(f.title)| > 0;
  }

  /** Auto-mapping gives each canonical field its first matching column, or nothing. */
  lemma AutoMapIsFirstMatch(columns: seq<string>, i: nat)
    requires i < |ProductFields|
    ensures MappedToFirstMatch(AutoMap(columns), columns, ProductFields[i])
  {
    FieldKeysDistinct();
    AutoMapFieldsFirstMatch(columns, ProductFields, i);
  }

  /**
   * Auto-mapping assigns every field to the first column, in column order,
   * that matches its key or title, and leaves a field without a match unmapped.
   */
  lemma AutoMapFirstMatch(columns: seq<string>, i: nat)
    requires i < |ProductFields|
    ensures var f := ProductFields[i];
      && (f.key in AutoMap(columns) <==> exists j :: 0 <= j < |columns| && ColumnMatches(columns[j], f))
      && (f.key in AutoMap(columns) ==>
            exists j :: 0 <= j < |columns| && AutoMap(columns)[f.key] == columns[j] && ColumnMatches(columns[j], f)
              && forall j' :: 0 <= j' < j ==> !ColumnMatches(columns[j'], f))
  {
    FieldKeysDistinct();
    AutoMapFieldsFirstMatch(columns, ProductFields, i);
  }

  /** Revalidating twice is revalidating once. */
  lemma RevalidateIdempotent(m: Mapping, columns: seq<string>)
    ensures Revalidate(Revalidate(m, columns), columns) == Revalidate(m, columns)
  {
  }

  /** Revalidation removes exactly the stale keys and keeps every other entry unchanged. */
  lemma RevalidateExact(m: Mapping, columns: seq<string>, k: string)
    requires k in m
    ensures k in Revalidate(m, columns) <==> (m[k] == "" || m[k] in columns)
  {
    assert (k, m[k]) in StaleEntries(m, columns) <==> (m[k] != "" && m[k] !in columns);
  }

  /** Clearing a field after setting it restores the mapping, when the field was unmapped before. */
  lemma EditFieldUndo(m: Mapping, key: string, choice: string)
    requires key !in m && choice != ""
    ensures EditField(EditField(m, key, choice), key, "") == m
  {
  }

  /** No required field is reported missing exactly when every required field is mapped. */
  lemma {:induction false} NoneMissing(m: Mapping, fields: seq<Field>)
    requires MissingRequired(m, fields) == []
    ensures forall i :: 0 <= i < |fields| && fields[i].required ==> !Unmapped(m, fields[i].key)
  {
    if |fields| > 0 {
      NoneMissing(m, fields[1..]);
      assert forall i :: 1 <= i < |fields| ==> fields[i] == fields[1..][i - 1];
    }
  }

  /** A form the submit gate accepts has the four required fields mapped. */
  lemma SubmitNeedsRequired(name: string, active: bool, editing: bool, hasFile: bool, m: Mapping)
    requires SubmitSupplier(name, active, editing, hasFile, m).Ok?
    ensures !Unmapped(m, "sku") && !Unmapped(m, "name") && !Unmapped(m, "price") && !Unmapped(m, "stock")
  {
    NoneMissing(m, ProductFields);
    assert ProductFields[0].required && ProductFields[1].required;
    assert ProductFields[3].required && ProductFields[4].required;
  }

  /** A mapping the confirmation gate accepts has the four required fields mapped. */
  lemma ConfirmNeedsRequired(m: Mapping, columns: seq<string>)
    requires ConfirmMapping(m, columns).Ok?
    ensures !Unmapped(m, "sku") && !Unmapped(m, "name") && !Unmapped(m, "price") && !Unmapped(m, "stock")
  {
    NoneMissing(m, ProductFields);
    assert ProductFields[0].required && ProductFields[1].required;
    assert ProductFields[3].required && ProductFields[4].required;
  }

  /** Any name followed by `.xlsx` is accepted. */
  lemma ExcelNameLower(base: string)
    ensures IsExcelFileName(base + ".xlsx")
  {
    var a := base + ".xlsx";
    assert a[|base|..] == ".xlsx";
    assert forall i :: 0 <= i < 5 ==> AsciiFold(a[|a| - 5 + i]) == ".xlsx"[i];
  }

  /** Any name followed by `.XLS` is accepted: the extension check ignores case. */
  lemma ExcelNameUpper(base: string)
    ensures IsExcelFileName(base + ".XLS")
  {
    var a := base + ".XLS";
    assert a[|base|..] == ".XLS";
    assert forall i :: 0 <= i < 4 ==> AsciiFold(a[|a| - 4 + i]) == ".xls"[i];
  }

  /** A name ending in `.csv` is refused. */
  lemma CsvNameRefused(base: string)
    ensures !IsExcelFileName(base + ".csv")
  {
    var c := base + ".csv";
    assert c[|c| - 1] == 'v';
    assert AsciiFold(c[|c| - 5 + 4]) != ".xlsx"[4];
    assert AsciiFold(c[|c| - 4 + 3]) != ".xls"[3];
  }

  // ---------------------------------------------------------------------------
  // An upload with the headers SKU, Precio, Stock, Descripcion
  // ---------------------------------------------------------------------------

  /** A column whose normalized text is shorter than the field's key and title cannot match it. */
  lemma NoMatchShorter(col: string, f: Field)
    requires |Trim(Lower(col))| < |f.key| && |Trim(Lower(col))| < |f.title|
    ensures !ColumnMatches(col, f)
  {
    var c := Trim(Lower(col));
    if Contains(c, Lower(f.key)) { ContainsOccurrence(c, Lower(f.key)); }
    if Contains(c, Lower(f.title)) { ContainsOccurrence(c, Lower(f.title)); }
  }

  /** A column of the same normalized length as the field's key and title matches only by equality. */
  lemma NoMatchSameLength(col: string, f: Field)
    requires |Trim(Lower(col))| == |f.key| == |f.title|
    requires Trim(Lower(col)) != Lower(f.key) && Trim(Lower(col)) != Lower(f.title)
    ensures !ColumnMatches(col, f)
  {
    var c := Trim(Lower(col));
    if Contains(c, Lower(f.key)) { ContainsSameLength(c, Lower(f.key)); }
    if Contains(c, Lower(f.title)) { ContainsSameLength(c, Lower(f.title)); }
  }

  /** A column lacking the first letter of the field's key and title cannot match it. */
  lemma NoMatchMissingInitial(col: string, f: Field)
    requires f.key != "" && f.title != ""
    requires Lower(f.key)[0] !in Trim(Lower(col)) && Lower(f.title)[0] !in Trim(Lower(col))
    ensures !ColumnMatches(col, f)
  {
    var c := Trim(Lower(col));
    if Contains(c, Lower(f.key)) { ContainsInitial(c, Lower(f.key)); }
    if Contains(c, Lower(f.title)) { ContainsInitial(c, Lower(f.title)); }
  }

  /** Upper-case ASCII headers normalize to their lower-case spelling. */
  lemma NormalizedHeaders(cols: seq<string>)
    requires cols == ["SKU", "Precio", "Stock", "Descripcion"]
    ensures Trim(Lower(cols[0])) == "sku" && Trim(Lower(cols[1])) == "precio"
    ensures Trim(Lower(cols[2])) == "stock" && Trim(Lower(cols[3])) == "descripcion"
  {
    ShortHeaders();
    LongHeaders();
  }

  lemma ShortHeaders()
    ensures Trim(Lower("SKU")) == "sku" && Trim(Lower("Stock")) == "stock"
  {
    assert Lower("SKU") == "sku" && Trim("sku") == "sku";
    assert Lower("Stock") == "stock" && Trim("stock") == "stock";
  }

  lemma LongHeaders()
    ensures Trim(Lower("Precio")) == "precio" && Trim(Lower("Descripcion")) == "descripcion"
  {
    assert Lower("Precio") == "precio" && Trim("precio") == "precio";
    assert Lower("Descripcion") == "descripcion" && Trim("descripcion") == "descripcion";
  }

  /** A field is auto-mapped to column `j` when that is the first column matching it. */
  lemma MapsToColumn(columns: seq<string>, i: nat, j: nat)
    requires i < |ProductFields| && j < |columns|
    requires ColumnMatches(columns[j], ProductFields[i])
    requires forall k :: 0 <= k < j ==> !ColumnMatches(columns[k], ProductFields[i])
    ensures ProductFields[i].key in AutoMap(columns) && AutoMap(columns)[ProductFields[i].key] == columns[j]
  {
    FirstMatchAt(columns, ProductFields[i], j);
    AutoMapIsFirstMatch(columns, i);
  }

  lemma FirstMatchAt(columns: seq<string>, f: Field, j: nat)
    requires j < |columns| && ColumnMatches(columns[j], f)
    requires forall k :: 0 <= k < j ==> !ColumnMatches(columns[k], f)
    ensures FirstMatch(columns, f, 0) == Some(j)
  {
  }

  lemma NoFirstMatch(columns: seq<string>, f: Field)
    requires forall k :: 0 <= k < |columns| ==> !ColumnMatches(columns[k], f)
    ensures FirstMatch(columns, f, 0) == None
  {
  }

  /** A field no column matches is left out of the auto-mapping. */
  lemma LeftUnmapped(columns: seq<string>, i: nat)
    requires i < |ProductFields|
    requires forall k :: 0 <= k < |columns| ==> !ColumnMatches(columns[k], ProductFields[i])
    ensures ProductFields[i].key !in AutoMap(columns)
  {
    NoFirstMatch(columns, ProductFields[i]);
    AutoMapIsFirstMatch(columns, i);
  }

  /** SKU, the first header, is auto-mapped to the SKU field. */
  lemma AutoMapScenarioSku(cols: seq<string>)
    requires cols == ["SKU", "Precio", "Stock", "Descripcion"]
    ensures "sku" in AutoMap(cols) && AutoMap(cols)["sku"] == "SKU"
  {
    NormalizedHeaders(cols);
    assert Lower(ProductFields[0].key) == "sku";
    assert ColumnMatches(cols[0], ProductFields[0]);
    MapsToColumn(cols, 0, 0);
  }

  /** Precio is auto-mapped to the price field through its title. */
  lemma AutoMapScenarioPrice(cols: seq<string>)
    requires cols == ["SKU", "Precio", "Stock", "Descripcion"]
    ensures "price" in AutoMap(cols) && AutoMap(cols)["price"] == "Precio"
  {
    NormalizedHeaders(cols);
    var f := ProductFields[3];
    assert Lower(f.title) == "precio";
    NoMatchShorter(cols[0], f);
    assert ColumnMatches(cols[1], f);
    MapsToColumn(cols, 3, 1);
  }

  /** Among headers normalizing to sku, precio, stock, the stock field first matches the third. */
  lemma ScenarioStockMatches(cols: seq<string>, f: Field)
    requires |cols| == 4
    requires Trim(Lower(cols[0])) == "sku" && Trim(Lower(cols[1])) == "precio" && Trim(Lower(cols[2])) == "stock"
    requires f.key == "stock" && f.title == "Stock"
    ensures forall k :: 0 <= k < 2 ==> !ColumnMatches(cols[k], f)
    ensures ColumnMatches(cols[2], f)
  {
    ShortHeaders();
    assert Lower(f.key) == "stock" && Lower(f.title) == "stock";
    NoMatchShorter(cols[0], f);
    assert 's' !in "precio";
    NoMatchMissingInitial(cols[1], f);
  }

  /** Stock is auto-mapped to the stock field: neither earlier header holds an 's' run to match. */
  lemma AutoMapScenarioStock(cols: seq<string>)
    requires cols == ["SKU", "Precio", "Stock", "Descripcion"]
    ensures "stock" in AutoMap(cols) && AutoMap(cols)["stock"] == "Stock"
  {
    NormalizedHeaders(cols);
    var f := ProductFields[4];
    ScenarioStockMatches(cols, f);
    MapsToColumn(cols, 4, 2);
  }

  lemma DescriptionSpellings()
    ensures Lower("description") == "description" && Lower("Descripción") == "descripción"
  {
  }

  /** No header normalizing to sku, precio, stock or descripcion matches the description field. */
  lemma ScenarioDescriptionUnmatched(cols: seq<string>, f: Field)
    requires |cols| == 4
    requires Trim(Lower(cols[0])) == "sku" && Trim(Lower(cols[1])) == "precio"
    requires Trim(Lower(cols[2])) == "stock" && Trim(Lower(cols[3])) == "descripcion"
    requires f.key == "description" && f.title == "Descripción"
    ensures !ColumnMatches(cols[0], f) && !ColumnMatches(cols[1], f)
    ensures !ColumnMatches(cols[2], f) && !ColumnMatches(cols[3], f)
  {
    NoMatchShorter(cols[0], f);
    NoMatchShorter(cols[1], f);
    NoMatchShorter(cols[2], f);
    DescriptionSpellings();
    assert "descripcion"[7] != "description"[7];
    assert "descripcion"[9] != "descripción"[9];
    NoMatchSameLength(cols[3], f);
  }

  /**
   * The unaccented "Descripcion" neither equals nor contains "description"
   * or "descripción", so the description field stays unmapped.
   */
  lemma AutoMapScenarioDescription(cols: seq<string>)
    requires cols == ["SKU", "Precio", "Stock", "Descripcion"]
    ensures "description" !in AutoMap(cols)
  {
    var f := ProductFields[2];
    NormalizedHeaders(cols);
    ScenarioDescriptionUnmatched(cols, f);
    NoneOfFour(cols, f);
    LeftUnmapped(cols, 2);
  }

  lemma NoneOfFour(cols: seq<string>, f: Field)
    requires |cols| == 4
    requires !ColumnMatches(cols[0], f) && !ColumnMatches(cols[1], f)
    requires !ColumnMatches(cols[2], f) && !ColumnMatches(cols[3], f)
    ensures forall k :: 0 <= k < |cols| ==> !ColumnMatches(cols[k], f)
  {
  }
}

=== FILE: number.dfy ===
/**
 * JavaScript number parsing as the import uses it: `parseFloat` and
 * `parseInt` (no radix) over a string, with `NaN` kept as a distinguished value.
 */
module JsNumber {
  import opened Text
  import opened Wrappers

  /**
   * A JavaScript number restricted to the finite values and `NaN`. In
   * arithmetic `NaN` also stands for the infinities a division by zero
   * produces: once a value is not finite, no later step makes it finite again.
   */
  datatype Number = Finite(value: real) | NaN

  predicate IsDigit(c: char) {
    '0' <= c <= '9'
  }

  function HexValue(c: char): (r: int)
    ensures -1 <= r < 16
  {
    if '0' <= c <= '9' then c as int - '0' as int
    else if 'a' <= c <= 'f' then c as int - 'a' as int + 10
    else if 'A' <= c <= 'F' then c as int - 'A' as int + 10
    else -1
  }

  /** The length of the longest prefix of `s` made of decimal digits. */
  function DigitRun(s: string): (n: nat)
    ensures n <= |s|
    ensures forall i :: 0 <= i < n ==> IsDigit(s[i])
    ensures n < |s| ==> !IsDigit(s[n])
  {
    if |s| > 0 && IsDigit(s[0]) then 1 + DigitRun(s[1..]) else 0
  }

  /** The length of the longest prefix of `s` made of hexadecimal digits. */
  function HexRun(s: string): (n: nat)
    ensures n <= |s|
    ensures forall i :: 0 <= i < n ==> HexValue(s[i]) >= 0
    ensures n < |s| ==> HexValue(s[n]) < 0
  {
    if |s| > 0 && HexValue(s[0]) >= 0 then 1 + HexRun(s[1..]) else 0
  }

  function HexDigitsValue(s: string): nat
    requires forall i :: 0 <= i < |s| ==> HexValue(s[i]) >= 0
  {
    if |s| == 0 then 0 else 16 * HexDigitsValue(s[..|s| - 1]) + HexValue(s[|s| - 1])
  }

  function Pow10(e: int): (r: real)
    ensures r > 0.0
    decreases if e < 0 then -e else e
  {
    if e == 0 then 1.0
    else if e > 0 then 10.0 * Pow10(e - 1)
    else Pow10(e + 1) / 10.0
  }

  /** A leading `+` or `-`: the sign it denotes and the text after it. */
  function SplitSign(s: string): (r: (int, string))
    ensures r.0 == 1 || r.0 == -1
    ensures |r.1| <= |s|
  {
    if |s| > 0 && s[0] == '-' then (-1, s[1..])
    else if |s| > 0 && s[0] == '+' then (1, s[1..])
    else (1, s)
  }

  /** The exponent part `e[+-]digits` at the start of `s`, when there is one. */
  function ExponentPart(s: string): Option<int> {
    if |s| > 0 && (s[0] == 'e' || s[0] == 'E') then
      var (sign, rest) := SplitSign(s[1..]);
      var k := DigitRun(rest);
      if k == 0 then None else Some(sign * DigitsValue(rest[..k]))
    else None
  }

  /**
   * `parseFloat(s)`: leading white space is skipped, then the longest prefix
   * of the form `[+-] digits [. digits] [e [+-] digits]` (at least one digit in
   * the mantissa) is read; without such a prefix the result is `NaN`.
   */
  function ParseFloat(s: string): Number {
    var (sign, body) := SplitSign(TrimStart(s));
    var k := DigitRun(body);
    var intPart := body[..k];
    var afterInt := body[k..];
    var hasPoint := |afterInt| > 0 && afterInt[0] == '.';
    var fracLen := if hasPoint then DigitRun(afterInt[1..]) else 0;
    var fracPart := if hasPoint then afterInt[1..][..fracLen] else "";
    if k + fracLen == 0 then NaN
    else
      var rest := if hasPoint then afterInt[1..][fracLen..] else afterInt;
      var mantissa := DigitsValue(intPart) as real + DigitsValue(fracPart) as real / Pow10(fracLen);
      var exponent := ExponentPart(rest).GetOr(0);
      Finite(sign as real * mantissa * Pow10(exponent))
  }

  /**
   * `parseInt(s)` with no radix: leading white space is skipped, an optional
   * sign is read, a `0x`/`0X` prefix selects hexadecimal, and the longest run
   * of digits is read. `None` stands for `NaN` (no digit at all).
   */
  function ParseInt(s: string): Option<int> {
    var (sign, body) := SplitSign(TrimStart(s));
    if |body| >= 2 && body[0] == '0' && (body[1] == 'x' || body[1] == 'X') then
      var k := HexRun(body[2..]);
      if k == 0 then None else Some(sign * HexDigitsValue(body[2..][..k]))
    else
      var k := DigitRun(body);
      if k == 0 then None else Some(sign * DigitsValue(body[..k]))
  }

  // ---------------------------------------------------------------------------
  // Arithmetic
  // ---------------------------------------------------------------------------

  function Add(a: Number, b: Number): (r: Number)
    ensures r.Finite? <==> a.Finite? && b.Finite?
    ensures r.Finite? ==> r.value == a.value + b.value
  {
    if a.Finite? && b.Finite? then Finite(a.value + b.value) else NaN
  }

  function Mul(a: Number, b: Number): (r: Number)
    ensures r.Finite? <==> a.Finite? && b.Finite?
    ensures r.Finite? ==> r.value == a.value * b.value
  {
    if a.Finite? && b.Finite? then Finite(a.value * b.value) else NaN
  }

  /** Division; a zero divisor gives an infinity or `NaN`, both non-finite here. */
  function Div(a: Number, b: Number): (r: Number)
    ensures r.Finite? <==> a.Finite? && b.Finite? && b.value != 0.0
    ensures r.Finite? ==> r.value == a.value / b.value
  {
    if a.Finite? && b.Finite? && b.value != 0.0 then Finite(a.value / b.value) else NaN
  }

  // ---------------------------------------------------------------------------
  // Properties
  // ---------------------------------------------------------------------------

  lemma DigitRunAll(s: string)
    requires forall i :: 0 <= i < |s| ==> IsDigit(s[i])
    ensures DigitRun(s) == |s|
  {
  }

  lemma DigitsUnsigned(s: string)
    requires |s| > 0 && forall i :: 0 <= i < |s| ==> IsDigit(s[i])
    ensures SplitSign(TrimStart(s)) == (1, s)
    ensures DigitRun(s) == |s| && s[..|s|] == s && s[|s|..] == ""
  {
    assert TrimStart(s) == s;
    DigitRunAll(s);
  }

  /** `parseFloat` reads a run of decimal digits as the number it denotes. */
  lemma ParseFloatDigits(s: string)
    requires |s| > 0 && forall i :: 0 <= i < |s| ==> '0' <= s[i] <= '9'
    ensures ParseFloat(s) == Finite(DigitsValue(s) as real)
  {
    DigitsUnsigned(s);
    var body := SplitSign(TrimStart(s)).1;
    assert body == s && DigitRun(body) == |s|;
    assert body[|s|..] == "";
    assert ExponentPart("") == None;
    assert DigitsValue("") == 0 && Pow10(0) == 1.0;
    assert DigitsValue(s) as real + 0 as real / 1.0 == DigitsValue(s) as real;
  }

  /** `parseInt` reads a run of decimal digits as the number it denotes. */
  lemma ParseIntDigits(s: string)
    requires |s| > 0 && forall i :: 0 <= i < |s| ==> '0' <= s[i] <= '9'
    ensures ParseInt(s) == Some(DigitsValue(s))
  {
    DigitsUnsigned(s);
  }

  /** Both parsers read back the decimal rendering of a non-negative integer. */
  lemma ParseRendered(n: nat)
    ensures ParseFloat(NatToString(n)) == Finite(n as real)
    ensures ParseInt(NatToString(n)) == Some(n)
  {
    var s := NatToString(n);
    ParseFloatDigits(s);
    ParseIntDigits(s);
    NatToStringValue(n);
  }

  /** A string whose first non-space character is neither a sign, a digit nor a point parses to `NaN`. */
  lemma ParseFloatNoDigits(s: string)
    requires var t := TrimStart(s); |t| == 0 || !(IsDigit(t[0]) || t[0] in {'+', '-', '.'})
    ensures ParseFloat(s) == NaN
    ensures ParseInt(s) == None
  {
  }
}

=== FILE: pc_build.dfy ===
/**
 * The PC builder: a quote made of product lines, each with a quantity and a
 * markup percentage, and its cost and sell totals.
 */
module PcBuild {
  import opened Products

  datatype BuildItem = BuildItem(product: Product, quantity: int, markup: real)

  predicate HasId(items: seq<BuildItem>, id: string) {
    exists i :: 0 <= i < |items| && items[i].product.id == id
  }

  predicate UniqueIds(items: seq<BuildItem>) {
    forall i, j :: 0 <= i < j < |items| ==> items[i].product.id != items[j].product.id
  }

  /** `addToBuild`: one more of a product already in the build, else a new line of one at the default markup. */
  function Add(items: seq<BuildItem>, p: Product, defaultMarkup: real): (r: seq<BuildItem>)
    ensures HasId(items, p.id) ==> |r| == |items| && forall i :: 0 <= i < |items| ==>
      r[i] == if items[i].product.id == p.id then items[i].(quantity := items[i].quantity + 1) else items[i]
    ensures !HasId(items, p.id) ==> r == items + [BuildItem(p, 1, defaultMarkup)]
  {
    if HasId(items, p.id) then
      seq(|items|, i requires 0 <= i < |items| =>
        if items[i].product.id == p.id then items[i].(quantity := items[i].quantity + 1) else items[i])
    else items + [BuildItem(p, 1, defaultMarkup)]
  }

  /** `removeFromBuild`: the lines of other products, in order. */
  function Remove(items: seq<BuildItem>, id: string): (r: seq<BuildItem>)
    ensures !HasId(r, id)
    ensures forall x :: x in r <==> x in items && x.product.id != id
  {
    if |items| == 0 then []
    else if items[0].product.id == id then Remove(items[1..], id)
    else [items[0]] + Remove(items[1..], id)
  }

  /** `updateQuantity`: zero or less removes the product, otherwise its lines take the quantity. */
  function UpdateQuantity(items: seq<BuildItem>, id: string, quantity: int): (r: seq<BuildItem>)
    ensures quantity <= 0 ==> r == Remove(items, id)
    ensures quantity > 0 ==> |r| == |items| && forall i :: 0 <= i < |items| ==>
      r[i] == if items[i].product.id == id then items[i].(quantity := quantity) else items[i]
  {
    if quantity <= 0 then Remove(items, id)
    else
      seq(|items|, i requires 0 <= i < |items| =>
        if items[i].product.id == id then items[i].(quantity := quantity) else items[i])
  }

  /** `updateMarkup`: the product's lines take the markup; any markup is accepted. */
  function UpdateMarkup(items: seq<BuildItem>, id: string, markup: real): (r: seq<BuildItem>)
    ensures |r| == |items|
    ensures forall i :: 0 <= i < |items| ==>
      r[i] == if items[i].product.id == id then items[i].(markup := markup) else items[i]
  {
    seq(|items|, i requires 0 <= i < |items| =>
      if items[i].product.id == id then items[i].(markup := markup) else items[i])
  }

  function Clear(): (r: seq<BuildItem>)
    ensures |r| == 0
  {
    []
  }

  /** A line's cost: unit price times quantity. */
  function LineCost(x: BuildItem): real {
    x.product.price * x.quantity as real
  }

  /** A line's sell price: its cost raised by its markup percentage. */
  function LineSell(x: BuildItem): real {
    LineCost(x) * (1.0 + x.markup / 100.0)
  }

  /** `totalBuildItems`. */
  function TotalBuildItems(items: seq<BuildItem>): int {
    if |items| == 0 then 0 else TotalBuildItems(items[..|items| - 1]) + items[|items| - 1].quantity
  }

  /** `totalCost`. */
  function TotalCost(items: seq<BuildItem>): real {
    if |items| == 0 then 0.0 else TotalCost(items[..|items| - 1]) + LineCost(items[|items| - 1])
  }

  /** `totalSellPrice`. */
  function TotalSell(items: seq<BuildItem>): real {
    if |items| == 0 then 0.0 else TotalSell(items[..|items| - 1]) + LineSell(items[|items| - 1])
  }

  /** The margin the markups add over the cost. */
  function TotalMargin(items: seq<BuildItem>): real {
    if |items| == 0 then 0.0
    else TotalMargin(items[..|items| - 1]) + LineCost(items[|items| - 1]) * (items[|items| - 1].markup / 100.0)
  }

  // ---------------------------------------------------------------------------
  // Properties
  // ---------------------------------------------------------------------------

  /** The sell total is the cost total plus the margin the markups add. */
  lemma {:induction false} SellIsCostPlusMargin(items: seq<BuildItem>)
    ensures TotalSell(items) == TotalCost(items) + TotalMargin(items)
  {
    if |items| > 0 {
      SellIsCostPlusMargin(items[..|items| - 1]);
      var x := items[|items| - 1];
      assert LineSell(x) == LineCost(x) + LineCost(x) * (x.markup / 100.0);
    }
  }

  /** With every markup at zero, the build sells at cost. */
  lemma {:induction false} ZeroMarkupSellsAtCost(items: seq<BuildItem>)
    requires forall i :: 0 <= i < |items| ==> items[i].markup == 0.0
    ensures TotalSell(items) == TotalCost(items)
  {
    if |items| > 0 {
      ZeroMarkupSellsAtCost(items[..|items| - 1]);
    }
  }

  /** With non-negative markups and line costs, the build never sells below cost. */
  lemma {:induction false} NonNegativeMarkupCoversCost(items: seq<BuildItem>)
    requires forall i :: 0 <= i < |items| ==> items[i].markup >= 0.0 && LineCost(items[i]) >= 0.0
    ensures TotalSell(items) >= TotalCost(items)
  {
    if |items| > 0 {
      NonNegativeMarkupCoversCost(items[..|items| - 1]);
      var x := items[|items| - 1];
      assert LineCost(x) * (x.markup / 100.0) >= 0.0;
    }
  }

  /** Changing a markup never changes the cost total or the item count. */
  lemma {:induction false} MarkupKeepsCost(items: seq<BuildItem>, id: string, markup: real)
    ensures TotalCost(UpdateMarkup(items, id, markup)) == TotalCost(items)
    ensures TotalBuildItems(UpdateMarkup(items, id, markup)) == TotalBuildItems(items)
  {
    if |items| > 0 {
      var init := items[..|items| - 1];
      var r := UpdateMarkup(items, id, markup);
      assert r[..|r| - 1] == UpdateMarkup(init, id, markup);
      MarkupKeepsCost(init, id, markup);
    }
  }

  /** A product added for the first time comes in at the default markup and raises the cost by its price. */
  lemma AddNewLine(items: seq<BuildItem>, p: Product, defaultMarkup: real)
    requires !HasId(items, p.id)
    ensures TotalCost(Add(items, p, defaultMarkup)) == TotalCost(items) + p.price
    ensures TotalSell(Add(items, p, defaultMarkup)) == TotalSell(items) + p.price * (1.0 + defaultMarkup / 100.0)
  {
    var r := Add(items, p, defaultMarkup);
    assert r[..|r| - 1] == items;
  }

  /** Removing leaves a build unchanged exactly when the build lacks the product. */
  lemma {:induction false} RemoveUnchangedIff(items: seq<BuildItem>, id: string)
    ensures Remove(items, id) == items <==> !HasId(items, id)
  {
    if HasId(items, id) {
      var i :| 0 <= i < |items| && items[i].product.id == id;
      assert items[i] in items;
      assert items[i] !in Remove(items, id);
    } else if |items| > 0 {
      assert !HasId(items[1..], id) by {
        forall i | 0 <= i < |items[1..]| ensures items[1..][i].product.id != id {
          assert items[1..][i] == items[i + 1];
        }
      }
      RemoveUnchangedIff(items[1..], id);
      assert items == [items[0]] + items[1..];
    }
  }

  /** A line added at the end of a build survives removal, at the end, exactly when it is another product's. */
  lemma {:induction false} RemoveSnoc(items: seq<BuildItem>, x: BuildItem, id: string)
    ensures Remove(items + [x], id) == Remove(items, id) + (if x.product.id == id then [] else [x])
    decreases |items|
  {
    if |items| == 0 {
      assert items + [x] == [x];
      assert [x][1..] == [];
    } else {
      assert (items + [x])[0] == items[0];
      assert (items + [x])[1..] == items[1..] + [x];
      RemoveSnoc(items[1..], x, id);
    }
  }

  /** Adding, updating a markup and removing keep product ids unique. */
  lemma {:induction false} OperationsKeepIdsUnique(items: seq<BuildItem>, p: Product, defaultMarkup: real, id: string, markup: real)
    requires UniqueIds(items)
    ensures UniqueIds(Add(items, p, defaultMarkup))
    ensures UniqueIds(UpdateMarkup(items, id, markup))
    ensures UniqueIds(Remove(items, id))
  {
    RemoveKeepsUnique(items, id);
  }

  /** A quantity step, including one down to zero that removes the product, keeps product ids unique. */
  lemma UpdateQuantityKeepsUnique(items: seq<BuildItem>, id: string, quantity: int)
    requires UniqueIds(items)
    ensures UniqueIds(UpdateQuantity(items, id, quantity))
  {
    RemoveKeepsUnique(items, id);
  }

  lemma {:induction false} RemoveKeepsUnique(items: seq<BuildItem>, id: string)
    requires UniqueIds(items)
    ensures UniqueIds(Remove(items, id))
  {
    if |items| > 0 {
      RemoveKeepsUnique(items[1..], id);
      var rest := Remove(items[1..], id);
      assert forall j :: 0 <= j < |rest| ==> rest[j] in items[1..];
    }
  }
}

=== FILE: pricing.dfy ===
/**
 * The product card's price rendering: the net price (VAT backed out for the
 * suppliers whose list prices include it, converted to pesos when the
 * display currency is ARS), the effective VAT rate, the 3% IIBB surcharge of
 * one supplier, and the amounts each tax display mode shows.
 */
module Pricing {
  import opened Wrappers
  import opened JsNumber
  import opened Products

  datatype TaxMode = Final | Breakdown | HalfVat
  datatype Currency = ARS | USD

  /** The display settings the price depends on; `defaultVat` is a percentage. */
  datatype Settings = Settings(taxMode: TaxMode, defaultVat: real, currency: Currency, exchangeRate: real)

  /** The IIBB surcharge rate applied to one supplier's net prices. */
  const IibbRate: real := 0.03

  /** The promotional factor of one supplier in half-VAT mode (5% off). */
  const PromoFactor: real := 0.95

  /** Suppliers whose list prices already include VAT at the default rate. */
  predicate ListsWithVat(distributorId: string) {
    distributorId == "gamingcity" || distributorId == "tgs"
  }

  /** The supplier charged the IIBB surcharge. */
  predicate PaysIibb(distributorId: string) {
    distributorId == "newbytes"
  }

  /** What the list price is divided by to back VAT out of it. */
  function VatDivisor(p: Product, s: Settings): real {
    if ListsWithVat(p.distributorId) then 1.0 + s.defaultVat / 100.0 else 1.0
  }

  /** What the net price is multiplied by for the display currency. */
  function CurrencyFactor(s: Settings): real {
    if s.currency == ARS then s.exchangeRate else 1.0
  }

  /**
   * The net price: the list price with VAT backed out for the suppliers that
   * list with VAT, times the exchange rate in ARS. A default VAT of -100%
   * makes the divisor zero and the net price non-finite.
   */
  function NetPrice(p: Product, s: Settings): (r: Number)
    ensures r.Finite? <==> VatDivisor(p, s) != 0.0
    ensures r.Finite? ==> r.value * VatDivisor(p, s) == p.price * CurrencyFactor(s)
  {
    var listed := Finite(p.price);
    var net := if ListsWithVat(p.distributorId) then Div(listed, Finite(1.0 + s.defaultVat / 100.0)) else listed;
    if s.currency == ARS then Mul(net, Finite(s.exchangeRate)) else net
  }

  /** The product's own VAT rate when it has one, else the default rate. */
  function VatRate(p: Product, s: Settings): (r: Number)
    ensures p.vat.None? ==> r == Finite(s.defaultVat)
    ensures p.vat.Some? ==> r == p.vat.value
  {
    p.vat.GetOr(Finite(s.defaultVat))
  }

  /** The IIBB amount on a net price: 3% for the one supplier that pays it, else zero. */
  function Iibb(p: Product, net: Number): (r: Number)
    ensures !PaysIibb(p.distributorId) ==> r == Finite(0.0)
    ensures PaysIibb(p.distributorId) ==> (r.Finite? <==> net.Finite?)
    ensures PaysIibb(p.distributorId) && r.Finite? ==> r.value == net.value * IibbRate
  {
    if PaysIibb(p.distributorId) then Mul(net, Finite(IibbRate)) else Finite(0.0)
  }

  /** A strictly positive finite amount; `NaN > 0` is false. */
  predicate Positive(n: Number) {
    n.Finite? && n.value > 0.0
  }

  /** The label under a single displayed amount. */
  datatype Badge =
    | PromoOff                                          // gamingcity in half-VAT mode
    | WithoutVat                                        // gruponucleo in half-VAT mode
    | FullVat                                           // elit in half-VAT mode
    | HalfRate(rate: Number, iibbNote: bool)            // everyone else in half-VAT mode
    | Plain(vatNote: Option<Number>, iibbNote: bool)    // final mode: rate shown unless it is 21

  /** What the card shows: an itemized breakdown, or one amount with its badge. */
  datatype PriceDisplay =
    | Itemized(net: Number, vatRate: Number, vat: Number, iibb: Option<Number>, total: Number)
    | Single(amount: Number, badge: Badge)

  /** The amount a display ends in: the breakdown's total or the single amount. */
  function Shown(d: PriceDisplay): Number {
    if d.Itemized? then d.total else d.amount
  }

  /** The VAT-inclusive total net + net·rate/100 + IIBB of final and breakdown modes. */
  function FullTotal(net: Number, rate: Number, iibb: Number): Number {
    Add(Add(net, Mul(net, Div(rate, Finite(100.0)))), iibb)
  }

  /** `renderPrice`: the display for one product under the current settings. */
  function RenderPrice(p: Product, s: Settings): (d: PriceDisplay)
    ensures s.taxMode == Breakdown <==> d.Itemized?
    ensures d.Itemized? ==> d.net == NetPrice(p, s) && d.vatRate == VatRate(p, s)
    ensures d.Itemized? ==> (d.iibb.Some? <==> Positive(Iibb(p, NetPrice(p, s))))
    ensures d.Itemized? ==> d.vat == Mul(d.net, Div(d.vatRate, Finite(100.0)))
    ensures d.Itemized? && d.iibb.Some? ==> d.iibb.value == Iibb(p, d.net)
    ensures d.Itemized? ==> d.total == Add(Add(d.net, d.vat), Iibb(p, d.net))
    ensures s.taxMode == HalfVat && p.distributorId == "gruponucleo" ==> d == Single(NetPrice(p, s), WithoutVat)
  {
    var net := NetPrice(p, s);
    var rate := VatRate(p, s);
    var iibb := Iibb(p, net);
    match s.taxMode
    case Breakdown =>
      var vat := Mul(net, Div(rate, Finite(100.0)));
      Itemized(net, rate, vat, if Positive(iibb) then Some(iibb) else None, Add(Add(net, vat), iibb))
    case HalfVat =>
      if p.distributorId == "gamingcity" then
        Single(Mul(Mul(net, Add(Finite(1.0), Div(rate, Finite(100.0)))), Finite(PromoFactor)), PromoOff)
      else if p.distributorId == "gruponucleo" then
        Single(net, WithoutVat)
      else if p.distributorId == "elit" then
        Single(Mul(net, Add(Finite(1.0), Div(rate, Finite(100.0)))), FullVat)
      else
        var half := Div(rate, Finite(2.0));
        Single(Add(Mul(net, Add(Finite(1.0), Div(half, Finite(100.0)))), iibb), HalfRate(half, Positive(iibb)))
    case Final =>
      Single(FullTotal(net, rate, iibb),
             Plain(if rate == Finite(21.0) then None else Some(rate), Positive(iibb)))
  }

  // ---------------------------------------------------------------------------
  // Properties
  // ---------------------------------------------------------------------------

  /** The final-mode amount is net·(1 + rate/100) plus the IIBB, and is finite exactly when net and rate are. */
  lemma FinalAmount(p: Product, s: Settings)
    requires s.taxMode == Final
    ensures var n := NetPrice(p, s);
            var v := VatRate(p, s);
            var a := Shown(RenderPrice(p, s));
      && (a.Finite? <==> n.Finite? && v.Finite?)
      && (a.Finite? ==>
            a.value == n.value * (1.0 + v.value / 100.0) + (if PaysIibb(p.distributorId) then n.value * IibbRate else 0.0))
  {
  }

  /** The breakdown's total is the amount final mode shows. */
  lemma BreakdownTotalIsFinal(p: Product, s: Settings)
    ensures Shown(RenderPrice(p, s.(taxMode := Breakdown))) == Shown(RenderPrice(p, s.(taxMode := Final)))
  {
    assert NetPrice(p, s.(taxMode := Breakdown)) == NetPrice(p, s.(taxMode := Final));
  }

  /** The sum of the lines a breakdown shows: the net price, the VAT line and the IIBB line when it is shown. */
  function ShownLinesSum(d: PriceDisplay): Number
    requires d.Itemized?
  {
    Add(Add(d.net, d.vat), d.iibb.GetOr(Finite(0.0)))
  }

  /**
   * The lines of a breakdown add up to its total whenever the IIBB is not
   * negative: an IIBB of zero is hidden and adds nothing.
   */
  lemma BreakdownLinesAddUp(p: Product, s: Settings)
    requires s.taxMode == Breakdown
    requires PaysIibb(p.distributorId) ==> p.price * CurrencyFactor(s) >= 0.0
    ensures ShownLinesSum(RenderPrice(p, s)) == RenderPrice(p, s).total
  {
    var d := RenderPrice(p, s);
    var i := Iibb(p, d.net);
    if PaysIibb(p.distributorId) {
      assert d.net == Finite(p.price * CurrencyFactor(s));
      assert i.value >= 0.0;
    }
  }

  /**
   * A negative IIBB is hidden yet still counted: newbytes at a list price of
   * -100 dollars itemizes a net of -100 and VAT of -21, but totals -124.
   */
  lemma HiddenNegativeIibb(p: Product, s: Settings)
    requires p.distributorId == "newbytes" && p.price == -100.0 && p.vat == Some(Finite(21.0))
    requires s.taxMode == Breakdown && s.currency == USD
    ensures var d := RenderPrice(p, s);
      d.iibb.None? && ShownLinesSum(d) == Finite(-121.0) && d.total == Finite(-124.0)
  {
  }

  /** A product whose VAT cell did not parse shows a non-finite final price, but a finite one from gruponucleo in half-VAT mode. */
  lemma UnparsedVat(p: Product, s: Settings)
    requires p.vat == Some(NaN) && VatDivisor(p, s) != 0.0
    ensures Shown(RenderPrice(p, s.(taxMode := Final))) == NaN
    ensures p.distributorId == "gruponucleo" ==> Shown(RenderPrice(p, s.(taxMode := HalfVat))).Finite?
  {
  }

  /** elit shows the same amount in half-VAT mode as in final mode: full VAT and no IIBB. */
  lemma ElitHalfVatIsFinal(p: Product, s: Settings)
    requires p.distributorId == "elit"
    ensures Shown(RenderPrice(p, s.(taxMode := HalfVat))) == Shown(RenderPrice(p, s.(taxMode := Final)))
  {
    assert NetPrice(p, s.(taxMode := HalfVat)) == NetPrice(p, s.(taxMode := Final));
  }

  /**
   * gamingcity's half-VAT price, when the product carries no own rate, is
   * 95% of its list price in dollars: backing the default VAT out and adding
   * it back cancel.
   */
  lemma GamingCityPromo(p: Product, s: Settings)
    requires p.distributorId == "gamingcity" && p.vat.None?
    requires s.taxMode == HalfVat && s.currency == USD && s.defaultVat != -100.0
    ensures Shown(RenderPrice(p, s)) == Finite(p.price * PromoFactor)
  {
    var d := 1.0 + s.defaultVat / 100.0;
    assert d != 0.0;
    var n := NetPrice(p, s);
    assert n.value * d == p.price;
    assert Add(Finite(1.0), Div(Finite(s.defaultVat), Finite(100.0))) == Finite(d);
  }

  /** Net prices of non-negative list prices at non-negative exchange rates are non-negative. */
  lemma NetNonNegative(p: Product, s: Settings)
    requires p.price >= 0.0 && s.exchangeRate >= 0.0 && VatDivisor(p, s) > 0.0
    ensures NetPrice(p, s).Finite? && NetPrice(p, s).value >= 0.0
  {
    var dv := VatDivisor(p, s);
    DivNonNeg(p.price, dv);
    MulNonNeg(p.price / dv, CurrencyFactor(s));
    MulNonNeg(p.price, CurrencyFactor(s));
  }

  lemma MulNonNeg(a: real, b: real)
    requires a >= 0.0 && b >= 0.0
    ensures a * b >= 0.0
  {
  }

  lemma DivNonNeg(a: real, b: real)
    requires a >= 0.0 && b > 0.0
    ensures a / b >= 0.0
  {
  }

  lemma ScaleMonotone(x: real, a: real, b: real)
    requires x >= 0.0 && a <= b
    ensures x * a <= x * b
  {
    assert x * b - x * a == x * (b - a);
  }

  lemma MulMonotone(n: Number, a: Number, b: Number)
    requires n.Finite? && n.value >= 0.0 && a.Finite? && b.Finite? && a.value <= b.value
    ensures Mul(n, a).Finite? && Mul(n, b).Finite? && Mul(n, a).value <= Mul(n, b).value
  {
    ScaleMonotone(n.value, a.value, b.value);
  }

  /**
   * For every supplier without a special case, half-VAT mode never shows more
   * than final mode when prices, rates and the exchange rate are non-negative.
   */
  lemma HalfVatAtMostFinal(p: Product, s: Settings)
    requires p.distributorId != "gamingcity" && p.distributorId != "gruponucleo" && p.distributorId != "elit"
    requires p.price >= 0.0 && s.exchangeRate >= 0.0 && VatDivisor(p, s) > 0.0
    requires VatRate(p, s).Finite? && VatRate(p, s).value >= 0.0
    ensures Shown(RenderPrice(p, s.(taxMode := HalfVat))).Finite?
    ensures Shown(RenderPrice(p, s.(taxMode := Final))).Finite?
    ensures Shown(RenderPrice(p, s.(taxMode := HalfVat))).value <= Shown(RenderPrice(p, s.(taxMode := Final))).value
  {
    var sh, sf := s.(taxMode := HalfVat), s.(taxMode := Final);
    assert NetPrice(p, sh) == NetPrice(p, s) && NetPrice(p, sf) == NetPrice(p, s);
    assert VatRate(p, sh) == VatRate(p, s) && VatRate(p, sf) == VatRate(p, s);
    NetNonNegative(p, s);
    ShownIsNetTimesFactor(p, sh);
    ShownIsNetTimesFactor(p, sf);
    var v := VatRate(p, s).value;
    assert PriceFactor(p, sh) == Finite(1.0 + v / 2.0 / 100.0 + IibbShare(p));
    assert PriceFactor(p, sf) == Finite(1.0 + v / 100.0 + IibbShare(p));
    MulMonotone(NetPrice(p, s), PriceFactor(p, sh), PriceFactor(p, sf));
  }

  /** A worked final-mode price: list price 100 at 21% VAT in dollars shows 121, plus 3 of IIBB for newbytes. */
  lemma FinalModeExample(p: Product, s: Settings)
    requires s.taxMode == Final && s.currency == USD
    requires p.price == 100.0 && p.vat == Some(Finite(21.0))
    requires p.distributorId == "elit" || p.distributorId == "newbytes"
    ensures Shown(RenderPrice(p, s)) == Finite(if p.distributorId == "newbytes" then 124.0 else 121.0)
  {
    assert NetPrice(p, s) == Finite(100.0);
    assert VatRate(p, s) == Finite(21.0);
    FinalAmount(p, s);
  }

  /** The share of the net price the IIBB adds: 3% for the supplier that pays it. */
  function IibbShare(p: Product): real {
    if PaysIibb(p.distributorId) then IibbRate else 0.0
  }

  /**
   * An independent closed form of the displayed amount: what each mode and
   * supplier multiplies the net price by. It depends on the VAT rate and the
   * supplier, never on the display currency.
   */
  function PriceFactor(p: Product, s: Settings): (r: Number)
    ensures p.distributorId == "gruponucleo" && s.taxMode == HalfVat ==> r == Finite(1.0)
  {
    var v := VatRate(p, s);
    if !v.Finite? && !(s.taxMode == HalfVat && p.distributorId == "gruponucleo") then NaN
    else if s.taxMode == HalfVat then
      if p.distributorId == "gamingcity" then Finite((1.0 + v.value / 100.0) * PromoFactor)
      else if p.distributorId == "gruponucleo" then Finite(1.0)
      else if p.distributorId == "elit" then Finite(1.0 + v.value / 100.0)
      else Finite(1.0 + v.value / 2.0 / 100.0 + IibbShare(p))
    else Finite(1.0 + v.value / 100.0 + IibbShare(p))
  }

  lemma Distribute(x: real, a: real, b: real)
    ensures x * (1.0 + a) + x * b == x * (1.0 + a + b)
  {
  }

  lemma OnePlus(x: real, a: real)
    ensures x + x * a == x * (1.0 + a)
  {
  }

  lemma Regroup(x: real, a: real, c: real)
    ensures x * a * c == x * (a * c)
  {
  }

  /** The VAT-inclusive total of a finite net price is the net price times 1 + rate/100 + the IIBB share. */
  lemma FullTotalFactor(x: real, w: real, b: real)
    ensures FullTotal(Finite(x), Finite(w), Finite(x * b)) == Finite(x * (1.0 + w / 100.0 + b))
  {
    assert FullTotal(Finite(x), Finite(w), Finite(x * b)) == Finite(x + x * (w / 100.0) + x * b);
    OnePlus(x, w / 100.0);
    Distribute(x, w / 100.0, b);
  }

  /** Final mode shows the VAT-inclusive total of the net price, the rate and the IIBB. */
  lemma FinalShown(p: Product, s: Settings)
    requires s.taxMode == Final
    ensures Shown(RenderPrice(p, s)) == FullTotal(NetPrice(p, s), VatRate(p, s), Iibb(p, NetPrice(p, s)))
  {
  }

  /** Final mode shows the net price times 1 + rate/100 + the IIBB share. */
  lemma FinalIsNetTimesFactor(p: Product, s: Settings)
    requires s.taxMode == Final
    ensures Shown(RenderPrice(p, s)) == Mul(NetPrice(p, s), PriceFactor(p, s))
  {
    var n, v := NetPrice(p, s), VatRate(p, s);
    FinalShown(p, s);
    if n.Finite? && v.Finite? {
      var x, w, b := n.value, v.value, IibbShare(p);
      assert Iibb(p, n) == Finite(x * b);
      FullTotalFactor(x, w, b);
      assert PriceFactor(p, s) == Finite(1.0 + w / 100.0 + b);
    }
  }

  /** Half-VAT mode shows the net price times the supplier's half-VAT factor. */
  lemma HalfVatIsNetTimesFactor(p: Product, s: Settings)
    requires s.taxMode == HalfVat
    ensures Shown(RenderPrice(p, s)) == Mul(NetPrice(p, s), PriceFactor(p, s))
  {
    if p.distributorId == "gamingcity" {
      PromoIsNetTimesFactor(p, s);
    } else if p.distributorId != "gruponucleo" && p.distributorId != "elit" {
      HalfRateIsNetTimesFactor(p, s);
    }
  }

  lemma PromoIsNetTimesFactor(p: Product, s: Settings)
    requires s.taxMode == HalfVat && p.distributorId == "gamingcity"
    ensures Shown(RenderPrice(p, s)) == Mul(NetPrice(p, s), PriceFactor(p, s))
  {
    var n, v := NetPrice(p, s), VatRate(p, s);
    if n.Finite? && v.Finite? {
      assert Add(Finite(1.0), Div(v, Finite(100.0))) == Finite(1.0 + v.value / 100.0);
      Regroup(n.value, 1.0 + v.value / 100.0, PromoFactor);
    }
  }

  lemma HalfRateIsNetTimesFactor(p: Product, s: Settings)
    requires s.taxMode == HalfVat
    requires p.distributorId != "gamingcity" && p.distributorId != "gruponucleo" && p.distributorId != "elit"
    ensures Shown(RenderPrice(p, s)) == Mul(NetPrice(p, s), PriceFactor(p, s))
  {
    var n, v := NetPrice(p, s), VatRate(p, s);
    if n.Finite? && v.Finite? {
      var x, w := n.value, v.value;
      assert Iibb(p, n) == Finite(x * IibbShare(p));
      assert Add(Finite(1.0), Div(Div(v, Finite(2.0)), Finite(100.0))) == Finite(1.0 + w / 2.0 / 100.0);
      Distribute(x, w / 2.0 / 100.0, IibbShare(p));
    }
  }

  /** Every mode shows the net price times the mode's factor. */
  lemma ShownIsNetTimesFactor(p: Product, s: Settings)
    ensures Shown(RenderPrice(p, s)) == Mul(NetPrice(p, s), PriceFactor(p, s))
  {
    match s.taxMode
    case Final => FinalIsNetTimesFactor(p, s);
    case HalfVat => HalfVatIsNetTimesFactor(p, s);
    case Breakdown =>
      var f := s.(taxMode := Final);
      BreakdownTotalIsFinal(p, f);
      assert f.(taxMode := Breakdown) == s && f.(taxMode := Final) == f;
      FinalIsNetTimesFactor(p, f);
      assert NetPrice(p, f) == NetPrice(p, s) && PriceFactor(p, f) == PriceFactor(p, s);
  }

  lemma ScaleCommutes(n: Number, f: Number, k: Number)
    ensures Mul(Mul(n, k), f) == Mul(Mul(n, f), k)
  {
    if n.Finite? && f.Finite? && k.Finite? {
      assert n.value * k.value * f.value == n.value * f.value * k.value;
    }
  }

  /**
   * Showing prices in pesos multiplies every displayed amount by the exchange
   * rate: the conversion commutes with every mode and supplier branch.
   */
  lemma CurrencyConversion(p: Product, s: Settings)
    requires s.currency == USD
    ensures Shown(RenderPrice(p, s.(currency := ARS))) == Mul(Shown(RenderPrice(p, s)), Finite(s.exchangeRate))
  {
    var a := s.(currency := ARS);
    ShownIsNetTimesFactor(p, s);
    ShownIsNetTimesFactor(p, a);
    assert PriceFactor(p, a) == PriceFactor(p, s);
    assert NetPrice(p, a) == Mul(NetPrice(p, s), Finite(s.exchangeRate));
    var n, f, k := NetPrice(p, s), PriceFactor(p, s), Finite(s.exchangeRate);
    ScaleCommutes(n, f, k);
  }
}

=== FILE: products.dfy ===
/**
 * The shapes shared by every component: the catalog product record and the
 * per-supplier column mapping (canonical field key to spreadsheet column label).
 */
module Products {
  import opened Wrappers
  import opened JsNumber

  /**
   * A catalog product. `imageUrl == None` stands for `null`, the other `None`s
   * for an absent property. `distributorId` is the supplier identity that
   * drives the pricing branches; imported products carry their supplier's id.
   * `vat` is a percentage and may be `NaN` when an imported cell did not parse.
   */
  datatype Product = Product(
    id: string,
    sku: string,
    name: string,
    description: Option<string>,
    price: real,
    stock: int,
    category: Option<string>,
    brand: Option<string>,
    imageUrl: Option<string>,
    distributorId: string,
    vat: Option<Number>)

  /** A column mapping: canonical field key to the literal column label it reads. */
  type Mapping = map<string, string>

  /**
   * The entries of a mapping that name a column the current header set lacks:
   * a non-empty label that is not among `columns`. An empty label counts as unmapped.
   */
  function StaleEntries(m: Mapping, columns: seq<string>): (r: set<(string, string)>)
    ensures forall k, v :: (k, v) in r <==> k in m && m[k] == v && v != "" && v !in columns
  {
    set k | k in m && m[k] != "" && m[k] !in columns :: (k, m[k])
  }
}

=== FILE: sheet.dfy ===
/**
 * Spreadsheet header detection, column labelling and the upload preview
 * (`parseExcelFile`). A workbook arrives already decoded into rows of cells.
 */
module Sheet {
  import opened Text
  import opened Wrappers

  /**
   * One decoded cell. `Empty` is a position the decoder left without a value
   * (JavaScript `undefined`). `Num` carries the number and `text`, its
   * JavaScript `String(value)` rendering, which the decoder supplies with it.
   */
  datatype Cell = Empty | Str(s: string) | Num(value: real, text: string) | Bool(b: bool)

  type Row = seq<Cell>
  type Grid = seq<Row>

  /** JavaScript truthiness of a cell value. */
  predicate Truthy(c: Cell) {
    match c
    case Empty => false
    case Str(s) => s != ""
    case Num(v, _) => v != 0.0
    case Bool(b) => b
  }

  /** `String(c)` of a present cell. */
  function CellString(c: Cell): string {
    match c
    case Empty => ""
    case Str(s) => s
    case Num(_, t) => t
    case Bool(b) => if b then "true" else "false"
  }

  /** `String(cell || '')`: falsy cells read as the empty string. */
  function CellText(c: Cell): string {
    if Truthy(c) then CellString(c) else ""
  }

  predicate IsBlank(c: Cell) {
    Trim(CellText(c)) == ""
  }

  /** `row.some(cell => String(cell || '').trim().length > 0)`. */
  predicate HasData(row: Row) {
    |row| > 0 && (!IsBlank(row[0]) || HasData(row[1..]))
  }

  function Min(a: nat, b: nat): nat { if a <= b then a else b }
  function Max(a: nat, b: nat): nat { if a >= b then a else b }

  // ---------------------------------------------------------------------------
  // Header detection
  // ---------------------------------------------------------------------------

  /** The words whose presence marks a header row. */
  const HeaderKeywords: seq<string> :=
    ["sku", "descripcion", "descripción", "cantidad", "precio", "stock", "marca", "categoria", "rubro", "iva"]

  /** Only the first rows of a sheet are candidates for the header. */
  const ScanLimit: nat := 10

  /** The lower-cased, trimmed cell texts of a row joined with single spaces. */
  function RowText(row: Row): string {
    Join(seq(|row|, i requires 0 <= i < |row| => Trim(Lower(CellText(row[i])))), " ")
  }

  /** How many of `words` occur in `text`. */
  function CountContained(text: string, words: seq<string>): (n: nat)
    ensures n <= |words|
  {
    if |words| == 0 then 0
    else (if Contains(text, words[0]) then 1 else 0) + CountContained(text, words[1..])
  }

  function KeywordHits(row: Row): nat {
    CountContained(RowText(row), HeaderKeywords)
  }

  /** At least two header keywords occur in the row's text. */
  predicate IsKeywordRow(row: Row) {
    KeywordHits(row) >= 2
  }

  function NonBlankCount(row: Row): (n: nat)
    ensures n <= |row|
  {
    if |row| == 0 then 0 else (if IsBlank(row[0]) then 0 else 1) + NonBlankCount(row[1..])
  }

  /** At least three cells of the row hold text. */
  predicate IsWideRow(row: Row) {
    NonBlankCount(row) >= 3
  }

  function ScanBound(g: Grid): nat {
    Min(ScanLimit, |g|)
  }

  /** The first index in `[i, bound)` whose row satisfies `p`. */
  function FirstRow(g: Grid, i: nat, bound: nat, p: Row -> bool): (r: Option<nat>)
    requires bound <= |g|
    ensures r.Some? ==> i <= r.value < bound && p(g[r.value])
    ensures r.Some? ==> forall j :: i <= j < r.value ==> !p(g[j])
    ensures r.None? ==> forall j :: i <= j < bound ==> !p(g[j])
    decreases bound - i
  {
    if i >= bound then None
    else if p(g[i]) then Some(i)
    else FirstRow(g, i + 1, bound, p)
  }

  /**
   * The header row index: the first of the first ten rows with two keyword
   * hits; failing that the first with three non-blank cells; failing that 0.
   */
  function DetectHeader(g: Grid): (r: nat)
    ensures |g| > 0 ==> r < ScanBound(g)
    ensures (exists i :: 0 <= i < ScanBound(g) && IsKeywordRow(g[i])) ==>
      r < ScanBound(g) && IsKeywordRow(g[r]) && forall j :: 0 <= j < r ==> !IsKeywordRow(g[j])
    ensures (forall i :: 0 <= i < ScanBound(g) ==> !IsKeywordRow(g[i])) &&
            (exists i :: 0 <= i < ScanBound(g) && IsWideRow(g[i])) ==>
      r < ScanBound(g) && IsWideRow(g[r]) && forall j :: 0 <= j < r ==> !IsWideRow(g[j])
    ensures (forall i :: 0 <= i < ScanBound(g) ==> !IsKeywordRow(g[i] ) && !IsWideRow(g[i])) ==> r == 0
  {
    var bound := ScanBound(g);
    match FirstRow(g, 0, bound, IsKeywordRow)
    case Some(k) => k
    case None =>
      match FirstRow(g, 0, bound, IsWideRow)
      case Some(w) => w
      case None => 0
  }

  // ---------------------------------------------------------------------------
  // Column labels
  // ---------------------------------------------------------------------------

  const Placeholder: string := "Columna"

  /**
   * `String.fromCharCode(65 + idx)`: the code unit is taken modulo 2^16, so the
   * letters run past `Z`. A lone surrogate code unit has no `char`; it is
   * rendered as U+FFFD.
   */
  function ColumnLetter(idx: nat): char {
    var code := (65 + idx) % 0x1_0000;
    if 0xD800 <= code < 0xE000 then 0xFFFD as char else code as char
  }

  /** The label of header cell `idx`: its trimmed text, or `Columna <letter>` when blank. */
  function RawLabel(c: Cell, idx: nat): string {
    var t := Trim(CellText(c));
    if t != "" then t else Placeholder + " " + [ColumnLetter(idx)]
  }

  function RawLabels(header: Row): (r: seq<string>)
    ensures |r| == |header|
  {
    seq(|header|, i requires 0 <= i < |header| => RawLabel(header[i], i))
  }

  /** `.filter((col, idx) => idx < 10 || col.trim().length > 0)`, from position `i` on. */
  function KeepLabels(cols: seq<string>, i: nat): seq<string>
    decreases |cols| - i
  {
    if i >= |cols| then []
    else (if i < 10 || Trim(cols[i]) != "" then [cols[i]] else []) + KeepLabels(cols, i + 1)
  }

  predicate AllPlaceholders(cols: seq<string>) {
    forall i :: 0 <= i < |cols| ==> StartsWith(cols[i], Placeholder)
  }

  /** `Columna 1`, …, `Columna k`. */
  function Numbered(k: nat): (r: seq<string>)
    ensures |r| == k
  {
    seq(k, i requires 0 <= i < k => Placeholder + " " + NatToString(i + 1))
  }

  /** The column labels derived from a header row. */
  function Labels(header: Row): (r: seq<string>)
    ensures |r| == |header|
    ensures forall i :: 0 <= i < |r| ==> r[i] != ""
    ensures AllPlaceholders(RawLabels(header)) ==> r == Numbered(|header|)
    ensures !AllPlaceholders(RawLabels(header)) ==> r == RawLabels(header)
  {
    var raw := RawLabels(header);
    KeepAllLabels(header);
    var cols := KeepLabels(raw, 0);
    if AllPlaceholders(cols) then Numbered(Max(|cols|, |header|)) else cols
  }

  // ---------------------------------------------------------------------------
  // Upload preview
  // ---------------------------------------------------------------------------

  /** The length of the longest row: the width of the decoded range. */
  function Width(g: Grid): (w: nat)
    ensures forall i :: 0 <= i < |g| ==> |g[i]| <= w
  {
    if |g| == 0 then 0 else Max(|g[0]|, Width(g[1..]))
  }

  function PadRow(row: Row, w: nat): (r: Row)
    ensures |r| == Max(|row|, w)
    ensures r[..|row|] == row
    ensures forall i :: |row| <= i < |r| ==> r[i] == Empty
  {
    if |row| >= w then row else row + seq(w - |row|, _ => Empty)
  }

  /**
   * The rows as the decoder delivers them when a default value is given:
   * every row filled up to the width of the range.
   */
  function PadRows(g: Grid): (r: Grid)
    ensures |r| == |g|
    ensures forall i :: 0 <= i < |g| ==> r[i] == PadRow(g[i], Width(g))
  {
    seq(|g|, i requires 0 <= i < |g| => PadRow(g[i], Width(g)))
  }

  /** The rows after the header that hold some text, in order. */
  function DataRowsOf(rows: seq<Row>): (r: seq<Row>)
    ensures |r| <= |rows|
    ensures forall i :: 0 <= i < |r| ==> HasData(r[i])
  {
    if |rows| == 0 then []
    else (if HasData(rows[0]) then [rows[0]] else []) + DataRowsOf(rows[1..])
  }

  /** `jsonData.slice(h + 1)` filtered to rows with data. */
  function DataRows(g: Grid, h: nat): seq<Row> {
    DataRowsOf(if h + 1 <= |g| then g[h + 1..] else [])
  }

  /** The positions from `from` on whose rows hold some text, in increasing order. */
  function DataIndices(g: Grid, from: nat): (r: seq<nat>)
    ensures forall i :: 0 <= i < |r| ==> from <= r[i] < |g|
    ensures forall i, j :: 0 <= i < j < |r| ==> r[i] < r[j]
    ensures forall k :: k in r <==> from <= k < |g| && HasData(g[k])
    decreases |g| - from
  {
    if from >= |g| then []
    else (if HasData(g[from]) then [from] else []) + DataIndices(g, from + 1)
  }

  /** The trimmed text of cell `idx`, or `''` past the end of the row. */
  function CellAt(row: Row, idx: nat): string {
    if idx < |row| then Trim(CellText(row[idx])) else ""
  }

  /** One preview record: each label to its cell text; a repeated label keeps its last column. */
  function Record(cols: seq<string>, row: Row): map<string, string>
    decreases |cols|
  {
    if |cols| == 0 then map[]
    else Record(cols[..|cols| - 1], row)[cols[|cols| - 1] := CellAt(row, |cols| - 1)]
  }

  /** The preview loop: scan `rows`, skip the empty ones, record at most `budget` of the others. */
  function SampleLoop(rows: seq<Row>, cols: seq<string>, budget: nat): seq<map<string, string>>
  {
    if |rows| == 0 || budget == 0 then []
    else if HasData(rows[0]) then [Record(cols, rows[0])] + SampleLoop(rows[1..], cols, budget - 1)
    else SampleLoop(rows[1..], cols, budget)
  }

  const SampleSize: nat := 5

  datatype Preview = Preview(columns: seq<string>, sample: seq<map<string, string>>, headerRow: nat)

  datatype ParseError = EmptyWorkbook

  /** `parseExcelFile`: reject an empty sheet; detect the header; label the columns; sample the data. */
  function ParseExcelFile(raw: Grid): (r: Result<Preview, ParseError>)
    ensures r.Err? <==> |raw| == 0
    ensures r.Ok? ==> r.value.headerRow < ScanBound(raw)
    ensures r.Ok? ==> |r.value.sample| <= SampleSize
    ensures r.Ok? ==> |r.value.columns| == |PadRows(raw)[r.value.headerRow]|
  {
    if |raw| == 0 then Err(EmptyWorkbook)
    else
      var g := PadRows(raw);
      var h := DetectHeader(g);
      var cols := Labels(g[h]);
      var rest := if h + 1 <= |g| then g[h + 1..] else [];
      SampleBounded(rest, cols, SampleSize);
      Ok(Preview(cols, SampleLoop(rest, cols, SampleSize), h))
  }

  // ---------------------------------------------------------------------------
  // Properties
  // ---------------------------------------------------------------------------

  /** Every raw label is non-empty after trimming. */
  lemma RawLabelNonBlank(c: Cell, idx: nat)
    ensures Trim(RawLabel(c, idx)) != ""
  {
    var t := Trim(CellText(c));
    if t != "" {
      TrimIdempotent(CellText(c));
    } else {
      TrimNonEmpty(RawLabel(c, idx));
    }
  }

  lemma {:induction false} KeepLabelsFrom(cols: seq<string>, i: nat)
    requires i <= |cols|
    requires forall j :: i <= j < |cols| ==> Trim(cols[j]) != ""
    ensures KeepLabels(cols, i) == cols[i..]
    decreases |cols| - i
  {
    if i < |cols| {
      KeepLabelsFrom(cols, i + 1);
    }
  }

  /** The `idx < 10 || non-empty` filter removes no label. */
  lemma KeepAllLabels(header: Row)
    ensures KeepLabels(RawLabels(header), 0) == RawLabels(header)
  {
    var raw := RawLabels(header);
    forall j | 0 <= j < |raw|
      ensures Trim(raw[j]) != ""
    {
      RawLabelNonBlank(header[j], j);
    }
    KeepLabelsFrom(raw, 0);
  }

  /** A header cell with text is labelled by its trimmed text; a blank one by its letter. */
  lemma LabelOfCell(header: Row, i: nat)
    requires i < |header|
    requires !AllPlaceholders(RawLabels(header))
    ensures !IsBlank(header[i]) ==> Labels(header)[i] == Trim(CellText(header[i]))
    ensures IsBlank(header[i]) ==> Labels(header)[i] == "Columna " + [ColumnLetter(i)]
  {
  }

  /** The positional labels are pairwise distinct. */
  lemma NumberedDistinct(k: nat, i: nat, j: nat)
    requires i < k && j < k && i != j
    ensures Numbered(k)[i] != Numbered(k)[j]
  {
    var a := Numbered(k)[i];
    var b := Numbered(k)[j];
    var p := Placeholder + " ";
    if a == b {
      assert a[|p|..] == NatToString(i + 1);
      assert b[|p|..] == NatToString(j + 1);
      NatToStringInjective(i + 1, j + 1);
    }
  }

  /** Blank header cells are lettered from `A`, and the lettering runs on past `Z`. */
  lemma LetterPastZ()
    ensures ColumnLetter(0) == 'A' && ColumnLetter(25) == 'Z' && ColumnLetter(26) == '['
  {
  }

  /** The preview loop records the first `budget` data rows. */
  lemma {:induction false} SampleIsFirstDataRows(rows: seq<Row>, cols: seq<string>, budget: nat)
    ensures var d := DataRowsOf(rows);
      SampleLoop(rows, cols, budget) ==
        seq(Min(budget, |d|), i requires 0 <= i < Min(budget, |d|) => Record(cols, d[i]))
  {
    var d := DataRowsOf(rows);
    if |rows| == 0 || budget == 0 {
    } else if HasData(rows[0]) {
      var d' := DataRowsOf(rows[1..]);
      assert d == [rows[0]] + d';
      SampleIsFirstDataRows(rows[1..], cols, budget - 1);
      var n := Min(budget, |d|);
      var lhs := SampleLoop(rows, cols, budget);
      assert |lhs| == n;
      forall i | 0 <= i < n
        ensures lhs[i] == Record(cols, d[i])
      {
        if i > 0 {
          assert lhs[i] == SampleLoop(rows[1..], cols, budget - 1)[i - 1];
          assert d[i] == d'[i - 1];
        }
      }
    } else {
      assert d == DataRowsOf(rows[1..]);
      SampleIsFirstDataRows(rows[1..], cols, budget);
    }
  }

  lemma {:induction false} DataRowsAtIndices(g: Grid, from: nat)
    requires from <= |g|
    ensures var d := DataRowsOf(g[from..]);
      var idx := DataIndices(g, from);
      |d| == |idx| && forall i :: 0 <= i < |d| ==> d[i] == g[idx[i]]
    decreases |g| - from
  {
    if from < |g| {
      assert g[from..][0] == g[from];
      assert g[from..][1..] == g[from + 1..];
      DataRowsAtIndices(g, from + 1);
    }
  }

  /**
   * The data rows below header `h` are, in order, exactly the rows after `h`
   * that hold some text: row `i` of the selection is row `DataIndices(g, h + 1)[i]`
   * of the sheet.
   */
  lemma DataRowsSpec(g: Grid, h: nat)
    ensures var d := DataRows(g, h);
      var idx := DataIndices(g, h + 1);
      && |d| == |idx|
      && (forall i :: 0 <= i < |idx| ==> h < idx[i] < |g|)
      && (forall i, j :: 0 <= i < j < |idx| ==> idx[i] < idx[j])
      && (forall k :: k in idx <==> h < k < |g| && HasData(g[k]))
      && (forall i :: 0 <= i < |d| ==> d[i] == g[idx[i]])
  {
    if h + 1 <= |g| {
      DataRowsAtIndices(g, h + 1);
    }
  }

  lemma SampleBounded(rows: seq<Row>, cols: seq<string>, budget: nat)
    ensures |SampleLoop(rows, cols, budget)| <= budget
  {
    SampleIsFirstDataRows(rows, cols, budget);
  }

  /** A preview record has one key per distinct label, valued from that label's last column. */
  lemma {:induction false} RecordLastWins(cols: seq<string>, row: Row, i: nat)
    requires i < |cols|
    requires forall j :: i < j < |cols| ==> cols[j] != cols[i]
    ensures cols[i] in Record(cols, row) && Record(cols, row)[cols[i]] == CellAt(row, i)
    decreases |cols|
  {
    if i < |cols| - 1 {
      RecordLastWins(cols[..|cols| - 1], row, i);
    }
  }

  lemma {:induction false} RecordKeys(cols: seq<string>, row: Row)
    ensures Record(cols, row).Keys == set i | 0 <= i < |cols| :: cols[i]
    decreases |cols|
  {
    if |cols| > 0 {
      var init := cols[..|cols| - 1];
      RecordKeys(init, row);
      var s := set i | 0 <= i < |cols| :: cols[i];
      var s0 := set i | 0 <= i < |init| :: init[i];
      assert s == s0 + {cols[|cols| - 1]} by {
        forall x | x in s ensures x in s0 + {cols[|cols| - 1]} {
          var i :| 0 <= i < |cols| && cols[i] == x;
          if i < |init| { assert init[i] == x; }
        }
      }
    }
  }

  /** Padding appends only empty cells, which hold no data. */
  lemma {:induction false} PadKeepsData(row: Row, w: nat)
    ensures HasData(PadRow(row, w)) == HasData(row)
    decreases |row|
  {
    var p := PadRow(row, w);
    if |row| == 0 {
      EmptyCellsNoData(p);
    } else {
      assert p[0] == row[0];
      if |row| < w {
        assert p[1..] == PadRow(row[1..], w - 1);
      } else {
        assert p == row;
      }
      PadKeepsData(row[1..], if |row| < w then w - 1 else 0);
      if |row| >= w {
        assert PadRow(row[1..], 0) == row[1..];
      }
    }
  }

  lemma {:induction false} EmptyCellsNoData(row: Row)
    requires forall i :: 0 <= i < |row| ==> row[i] == Empty
    ensures !HasData(row)
    decreases |row|
  {
    if |row| > 0 {
      assert IsBlank(row[0]) by { assert CellText(Empty) == ""; }
      EmptyCellsNoData(row[1..]);
    }
  }
}

=== FILE: text.dfy ===
/**
 * The JavaScript string operations the core relies on: `trim`, `toLowerCase`,
 * `includes`, `startsWith`, `join`, and the decimal rendering of a
 * non-negative integer inside a template literal.
 */
module Text {

  /** The code points `String.prototype.trim` removes: ECMAScript WhiteSpace and LineTerminator. */
  predicate IsJsSpace(c: char) {
    var n := c as int;
    (0x09 <= n <= 0x0D) || n == 0x20 || n == 0xA0 || n == 0x1680 || (0x2000 <= n <= 0x200A)
    || n == 0x2028 || n == 0x2029 || n == 0x202F || n == 0x205F || n == 0x3000 || n == 0xFEFF
  }

  function TrimStart(s: string): (r: string)
    ensures |r| <= |s|
  {
    if |s| > 0 && IsJsSpace(s[0]) then TrimStart(s[1..]) else s
  }

  function TrimEnd(s: string): (r: string)
    ensures |r| <= |s|
  {
    if |s| > 0 && IsJsSpace(s[|s| - 1]) then TrimEnd(s[..|s| - 1]) else s
  }

  /** `s.trim()`. */
  function Trim(s: string): string {
    TrimEnd(TrimStart(s))
  }

  /** `toLowerCase` on the Basic Latin and Latin-1 capitals, the letters Spanish column titles use. */
  function LowerChar(c: char): (r: char)
    ensures IsJsSpace(r) <==> IsJsSpace(c)
  {
    var n := c as int;
    if 0x41 <= n <= 0x5A || (0xC0 <= n <= 0xDE && n != 0xD7) then (n + 0x20) as char else c
  }

  /** `s.toLowerCase()`, character by character. */
  function Lower(s: string): (r: string)
    ensures |r| == |s|
  {
    seq(|s|, i requires 0 <= i < |s| => LowerChar(s[i]))
  }

  predicate StartsWith(s: string, prefix: string) {
    |prefix| <= |s| && s[..|prefix|] == prefix
  }

  /** `s.includes(sub)`: `sub` occurs as a contiguous block of `s`. */
  predicate Contains(s: string, sub: string)
    decreases |s|
  {
    StartsWith(s, sub) || (|s| > 0 && Contains(s[1..], sub))
  }

  /** `parts.join(sep)`. */
  function Join(parts: seq<string>, sep: string): string {
    if |parts| == 0 then ""
    else if |parts| == 1 then parts[0]
    else parts[0] + sep + Join(parts[1..], sep)
  }

  function DigitChar(d: nat): char
    requires d < 10
  {
    ('0' as int + d) as char
  }

  /** The decimal rendering of a non-negative integer, as `${n}` produces it. */
  function NatToString(n: nat): (r: string)
    ensures |r| > 0
    ensures forall i :: 0 <= i < |r| ==> '0' <= r[i] <= '9'
  {
    if n < 10 then [DigitChar(n)] else NatToString(n / 10) + [DigitChar(n % 10)]
  }

  /** The value a string of decimal digits denotes. */
  function DigitsValue(s: string): nat
    requires forall i :: 0 <= i < |s| ==> '0' <= s[i] <= '9'
  {
    if |s| == 0 then 0 else 10 * DigitsValue(s[..|s| - 1]) + (s[|s| - 1] as int - '0' as int)
  }

  // ---------------------------------------------------------------------------
  // Properties
  // ---------------------------------------------------------------------------

  /** `TrimStart` drops exactly the leading spaces. */
  lemma {:induction false} TrimStartSpec(s: string)
    ensures var r := TrimStart(s);
      && r == s[|s| - |r|..]
      && (|r| > 0 ==> !IsJsSpace(r[0]))
      && (forall i :: 0 <= i < |s| - |r| ==> IsJsSpace(s[i]))
  {
    if |s| > 0 && IsJsSpace(s[0]) {
      TrimStartSpec(s[1..]);
    }
  }

  /** `TrimEnd` drops exactly the trailing spaces. */
  lemma {:induction false} TrimEndSpec(s: string)
    ensures var r := TrimEnd(s);
      && r == s[..|r|]
      && (|r| > 0 ==> !IsJsSpace(r[|r| - 1]))
      && (forall i :: |r| <= i < |s| ==> IsJsSpace(s[i]))
  {
    if |s| > 0 && IsJsSpace(s[|s| - 1]) {
      TrimEndSpec(s[..|s| - 1]);
    }
  }

  /** A string trims to the empty string exactly when it consists of spaces only. */
  lemma TrimEmptyIff(s: string)
    ensures Trim(s) == "" <==> forall i :: 0 <= i < |s| ==> IsJsSpace(s[i])
  {
    TrimStartSpec(s);
    TrimEndSpec(TrimStart(s));
  }

  /** A string that starts with a non-space character does not trim to the empty string. */
  lemma TrimNonEmpty(s: string)
    requires |s| > 0 && !IsJsSpace(s[0])
    ensures |Trim(s)| > 0
  {
    assert TrimStart(s) == s;
    TrimEndSpec(s);
  }

  /** Trimming twice is trimming once. */
  lemma {:induction false} TrimIdempotent(s: string)
    ensures Trim(Trim(s)) == Trim(s)
  {
    var t := Trim(s);
    TrimStartSpec(s);
    TrimEndSpec(TrimStart(s));
    if |t| > 0 {
      assert TrimStart(t) == t;
      assert TrimEnd(t) == t;
    }
  }

  /** `NatToString` is a faithful decimal rendering: reading the digits back gives the number. */
  lemma {:induction false} NatToStringValue(n: nat)
    ensures DigitsValue(NatToString(n)) == n
  {
    if n >= 10 {
      NatToStringValue(n / 10);
      var s := NatToString(n);
      assert s[..|s| - 1] == NatToString(n / 10);
    }
  }

  /** Distinct numbers render as distinct strings. */
  lemma NatToStringInjective(m: nat, n: nat)
    requires NatToString(m) == NatToString(n)
    ensures m == n
  {
    NatToStringValue(m);
    NatToStringValue(n);
  }

  /** `includes` agrees with the existence of an occurrence. */
  lemma {:induction false} ContainsAt(s: string, sub: string, i: nat)
    requires i + |sub| <= |s| && s[i..i + |sub|] == sub
    ensures Contains(s, sub)
  {
    if i > 0 {
      assert s[1..][i - 1..i - 1 + |sub|] == sub;
      ContainsAt(s[1..], sub, i - 1);
    }
  }

  /** `sub` occurs in `s` at position `i`. */
  predicate OccursAt(s: string, sub: string, i: nat) {
    i + |sub| <= |s| && s[i..i + |sub|] == sub
  }

  /** Conversely, `includes` holds only where an occurrence exists. */
  lemma {:induction false} ContainsOccurrence(s: string, sub: string)
    requires Contains(s, sub)
    ensures exists i: nat :: OccursAt(s, sub, i)
    decreases |s|
  {
    if StartsWith(s, sub) {
      assert OccursAt(s, sub, 0);
    } else {
      ContainsOccurrence(s[1..], sub);
      var i: nat :| OccursAt(s[1..], sub, i);
      assert s[i + 1..i + 1 + |sub|] == sub;
      assert OccursAt(s, sub, i + 1);
    }
  }

  /** A string contains another of its own length only when the two are equal. */
  lemma ContainsSameLength(s: string, sub: string)
    requires |s| == |sub| && Contains(s, sub)
    ensures s == sub
  {
    ContainsOccurrence(s, sub);
    var i: nat :| OccursAt(s, sub, i);
    assert i == 0 && s[0..|s|] == s;
  }

  /** A string containing a non-empty block contains its first character. */
  lemma ContainsInitial(s: string, sub: string)
    requires |sub| > 0 && Contains(s, sub)
    ensures sub[0] in s
  {
    ContainsOccurrence(s, sub);
    var i: nat :| OccursAt(s, sub, i);
    assert s[i] == s[i..i + |sub|][0];
  }

  /** Every string contains itself, and every string contains the empty string. */
  lemma ContainsSelfAndEmpty(s: string)
    ensures Contains(s, s) && Contains(s, "")
  {
    assert s[..0] == "";
  }

  // ---------------------------------------------------------------------------
  // The default sort order of strings
  // ---------------------------------------------------------------------------

  /**
   * `a` sorts before `b` under the default array sort: at the first position
   * where they differ `a` has the smaller character, or `a` is a proper prefix
   * of `b`.
   */
  predicate StrLess(a: string, b: string)
    decreases |a|
  {
    |b| > 0 && (|a| == 0 || a[0] < b[0] || (a[0] == b[0] && StrLess(a[1..], b[1..])))
  }

  lemma {:induction false} StrLessIrreflexive(a: string)
    ensures !StrLess(a, a)
  {
    if |a| > 0 {
      StrLessIrreflexive(a[1..]);
    }
  }

  lemma {:induction false} StrLessTransitive(a: string, b: string, c: string)
    requires StrLess(a, b) && StrLess(b, c)
    ensures StrLess(a, c)
    decreases |a|
  {
    if |a| > 0 && a[0] == b[0] && b[0] == c[0] {
      StrLessTransitive(a[1..], b[1..], c[1..]);
    }
  }

  /** Two different strings are ordered one way or the other. */
  lemma {:induction false} StrLessTotal(a: string, b: string)
    requires a != b
    ensures StrLess(a, b) || StrLess(b, a)
    decreases |a|
  {
    if |a| > 0 && |b| > 0 && a[0] == b[0] {
      assert a == [a[0]] + a[1..] && b == [b[0]] + b[1..];
      StrLessTotal(a[1..], b[1..]);
    }
  }
}

=== FILE: workflow.dfy ===
/**
 * The supplier workflow end to end: the upload preview labels the columns,
 * the mapping is confirmed against those labels, and the import reads the
 * rows through the confirmed mapping.
 */
module Workflow {
  import opened Wrappers
  import opened Text
  import opened JsNumber
  import opened Products
  import opened Sheet
  import opened Import
  import opened ColumnMapping

  /**
   * The import labels a file exactly as the preview did. In this model the
   * fact holds by construction, because ImportColumns is defined through the
   * preview's own labelling of the first row; the lemma records the
   * agreement the confirmation gate below depends on.
   */
  lemma PreviewLabelsAreImportLabels(raw: Grid)
    requires |raw| > 0
    ensures ParseExcelFile(raw).Ok? && ParseExcelFile(raw).value.columns == ImportColumns(raw)
  {
  }

  /**
   * A mapping the confirmation gate accepted against the preview's labels
   * imports the same file without a mapping error: every label it names is
   * still a column, and its required fields are mapped.
   */
  lemma ConfirmedMappingImports(store: seq<Product>, supplierId: string, raw: Grid, m: Mapping)
    requires |raw| >= 2 && |m| > 0
    ensures ConfirmMapping(m, ParseExcelFile(raw).value.columns).Ok? ==>
      && ImportProducts(store, supplierId, raw, Some(m)).Ok?
      && !Unmapped(m, "sku") && !Unmapped(m, "name") && !Unmapped(m, "price") && !Unmapped(m, "stock")
  {
    PreviewLabelsAreImportLabels(raw);
    if ConfirmMapping(m, ParseExcelFile(raw).value.columns).Ok? {
      ConfirmNeedsRequired(m, ParseExcelFile(raw).value.columns);
    }
  }

  /**
   * After a successful upload the mapping names only columns of the file, so
   * the confirmation gate can only object to unmapped required fields.
   */
  lemma UploadedMappingConfirms(fileName: string, stored: Option<Mapping>, columns: seq<string>)
    requires MappingAfterUpload(fileName, stored, columns).Ok?
    ensures var m := MappingAfterUpload(fileName, stored, columns).value;
      var r := ConfirmMapping(m, columns);
      r.Ok? || r.error.MissingRequiredFields?
  {
  }

  // ---------------------------------------------------------------------------
  // The header hole
  // ---------------------------------------------------------------------------

  /**
   * A header with an empty cell before its last cell, whose last cell holds
   * a real name, gets fewer labels from the import as written than from the
   * preview: the labels after the hole move one position to the left.
   */
  lemma HeaderHoleDropsLabel(header: Row, i: nat)
    requires i + 1 < |header| && header[i] == Empty
    requires var t := Trim(CellText(header[|header| - 1])); t != "" && !StartsWith(t, Placeholder)
    ensures |ImportLabelsAsWritten(header)| < |Labels(header)|
  {
    assert StripTrailing(header) == header;
    var last := |header| - 1;
    PresentLabelsCount(header, 0, i);
    PresentLabelsHas(header, 0, last);
  }

  lemma {:induction false} PresentLabelsCount(header: Row, from: nat, hole: nat)
    requires from <= hole < |header| && header[hole] == Empty
    ensures |PresentLabels(header, from)| < |header| - from
    decreases |header| - from
  {
    var rest := PresentLabels(header, from + 1);
    var own := if header[from] == Empty then [] else [RawLabel(header[from], from)];
    assert PresentLabels(header, from) == own + rest;
    if from < hole {
      PresentLabelsCount(header, from + 1, hole);
    } else {
      PresentLabelsAtMost(header, from + 1);
      assert PresentLabels(header, from) == rest;
    }
  }

  lemma {:induction false} PresentLabelsAtMost(header: Row, from: nat)
    ensures |PresentLabels(header, from)| <= |header| - from || from >= |header|
    decreases |header| - from
  {
    if from < |header| {
      PresentLabelsAtMost(header, from + 1);
    }
  }

  lemma {:induction false} PresentLabelsHas(header: Row, from: nat, k: nat)
    requires from <= k < |header| && header[k] != Empty
    ensures RawLabel(header[k], k) in PresentLabels(header, from)
    decreases |header| - from
  {
    var own := if header[from] == Empty then [] else [RawLabel(header[from], from)];
    assert PresentLabels(header, from) == own + PresentLabels(header, from + 1);
    if from < k {
      PresentLabelsHas(header, from + 1, k);
    } else {
      assert own == [RawLabel(header[k], k)];
    }
  }

  /** The preview labels the header `SKU | (empty) | Precio` by position: the hole becomes `Columna B`. */
  lemma HolePreviewLabels()
    ensures Labels([Str("SKU"), Empty, Str("Precio")]) == ["SKU", "Columna B", "Precio"]
  {
    var header := [Str("SKU"), Empty, Str("Precio")];
    assert Trim("SKU") == "SKU" && Trim("Precio") == "Precio" && Trim("") == "";
    assert ColumnLetter(1) == 'B';
    assert RawLabel(header[1], 1) == "Columna B";
    assert RawLabels(header) == ["SKU", "Columna B", "Precio"];
    assert !StartsWith("SKU", Placeholder);
  }

  /** The import as written labels the same header `SKU`, `Precio`: the hole closes up. */
  lemma HoleImportLabels()
    ensures ImportLabelsAsWritten([Str("SKU"), Empty, Str("Precio")]) == ["SKU", "Precio"]
  {
    var header := [Str("SKU"), Empty, Str("Precio")];
    assert Trim("SKU") == "SKU" && Trim("Precio") == "Precio";
    assert StripTrailing(header) == header;
    assert PresentLabels(header, 0) == ["SKU", "Precio"];
    assert !AllPlaceholders(["SKU", "Precio"]) by {
      assert !StartsWith(["SKU", "Precio"][0], Placeholder);
    }
  }

  /** A field's cell is the one under the first column carrying the label the field is mapped to. */
  lemma CellFromColumn(cols: seq<string>, m: Mapping, key: string, row: Row, i: nat)
    requires key in m && m[key] != "" && i < |cols| && i < |row|
    requires cols[i] == m[key] && forall j :: 0 <= j < i ==> cols[j] != m[key]
    ensures Lookup(m, key, cols, row) == row[i]
  {
    var r := IndexOf(cols, m[key]);
    assert r.Some? && r.value == i;
  }

  /** A field whose cell holds a positive whole number gets that number as its price. */
  lemma PriceFromRendered(cols: seq<string>, m: Mapping, row: Row, i: nat, n: nat)
    requires "price" in m && m["price"] != "" && i < |cols| && i < |row| && n > 0
    requires cols[i] == m["price"] && forall j :: 0 <= j < i ==> cols[j] != m["price"]
    requires row[i] == Num(n as real, NatToString(n))
    ensures PriceOf(Lookup(m, "price", cols, row)) == n as real
  {
    CellFromColumn(cols, m, "price", row, i);
    ParseRendered(n);
  }

  /**
   * The hole in practice: header `SKU | (empty) | Precio` over a row
   * `A1 | a | b` of whole numbers, with the price mapped to `Precio` (for
   * instance a = 5, b = 100). Through the preview's labels the record's
   * price is b, the cell under `Precio`.
   */
  lemma PreviewReadsPrice(m: Mapping, header: Row, row: Row, b: nat)
    requires header == [Str("SKU"), Empty, Str("Precio")]
    requires "price" in m && m["price"] == "Precio" && b > 0
    requires |row| == 3 && row[2] == Num(b as real, NatToString(b))
    ensures PriceOf(Lookup(m, "price", Labels(header), row)) == b as real
  {
    HolePreviewLabels();
    PriceFromRendered(Labels(header), m, row, 2, b);
  }

  /**
   * The same file through the labels of the import as written: the record's
   * price is a, the cell of the unlabelled column.
   */
  lemma AsWrittenReadsHoleCell(m: Mapping, header: Row, row: Row, a: nat)
    requires header == [Str("SKU"), Empty, Str("Precio")]
    requires "price" in m && m["price"] == "Precio" && a > 0
    requires |row| == 3 && row[1] == Num(a as real, NatToString(a))
    ensures PriceOf(Lookup(m, "price", ImportLabelsAsWritten(header), row)) == a as real
  {
    HoleImportLabels();
    PriceFromRendered(ImportLabelsAsWritten(header), m, row, 1, a);
  }
}

=== FILE: wrappers.dfy ===
/** Optional values and error-or-value results used across the model. */
module Wrappers {

  /** An optional value; `None` stands for JavaScript's `undefined` / `null`. */
  datatype Option<+T> = None | Some(value: T) {
    function GetOr(default: T): T {
      match this
      case Some(v) => v
      case None => default
    }
  }

  /** The outcome of an operation that either produces a value or rejects with an error. */
  datatype Result<+T, +E> = Ok(value: T) | Err(error: E)
}
